=== FILE: README.md ===
# Logic circuit editor — a Dafny model

This project models the core of a small logic-circuit editor written in
Python with Qt. The editor holds a list of gates: AND, OR, NOT, the constants
TRUE and FALSE, and an LED. It connects them with wires by clicking an
output point and then an input point, or the other way round. A gate refuses
a wire beyond its declared number of ports. A simulation step repeats rounds
over the gate list until no gate changes. An LED shows the value of the gate
feeding it. A circuit can be saved to a JSON-shaped document and loaded back.
Wires and gates can be removed.

The model is split into modules that follow the program:

- `Wrappers` (wrappers.dfy): `Option` and `Result`.
- `Gates` (gates.dfy): the six gate classes. It covers their declared port
  counts, their `compute_output`, the class registry, and the LED's `eval`
  and colour.
- `Circuits` (circuit.dfy): gates, wires and the per-gate
  `connected_inputs`/`connected_outputs` lists. The invariant `Valid` says
  that each list names exactly the live wires entering or leaving the gate,
  in the order they were built. It also holds adding a wire (`WireItem`),
  removing one, and removing a gate.
- `Editor` (editor.py's wiring and placement): the second-click decision, the
  placement tool, and the initial five gates.
- `Propagation` (`simulation_step`): one round is an in-place sweep over the
  gate list, so later gates see values written earlier in the same round.
  Rounds repeat until one changes nothing. The LED's display is also here.
- `Codec` (`serialize`/`deserialize`): the document format, the loader's
  error path, and the round trip.
- `Findings`: the places where the code as written does not do what it
  evidently intends. Each comes with the corrected behaviour.
- `Scenarios`: small concrete circuits.

Integers are unbounded, which matches Python. Positions are reals. The NOT
gate's rule is a parameter: `PassThrough` is the code as written, `Negate` is
what the class name promises. Every propagation result holds for both rules
unless it names one.

## Model

| member | source | states |
|---|---|---|
| Gates.PointsByKind | gate_item.py:42-60 | a gate gets an input point exactly when its class is not TRUE or FALSE, and an output point exactly when it is not the LED |
| Gates.SpareIsStrictFit | editor.py:89-95 | the `len(...) >= n` refusal lets a wire through exactly when one more wire still fits the declared count |
| Gates.FullRegistry | gate_item.py:38-40 | every gate class is registered under its class name, and every registered name maps back to the class bearing it |
| Gates.LookupInvertsClassName | gate_item.py:38-40 | looking up a class's own name finds that class; a name that finds a class is that class's name; any other name finds nothing |
| Gates.All | gates/and_gate.py:21 | Python's `all` on determined inputs: true exactly when every input is true |
| Gates.Any | gates/or_gate.py:22 | Python's `any` on determined inputs: true exactly when some input is true |
| Gates.AndOutput | gates/and_gate.py:15-21 | undetermined exactly when there is no input or some input is undetermined; true exactly when all inputs are true; false exactly when all are determined and one is false |
| Gates.OrOutput | gates/or_gate.py:16-22 | undetermined exactly when there is no input or some input is undetermined; true exactly when all are determined and one is true; false exactly when all inputs are false |
| Gates.AndOrIgnoreOrder | gates/and_gate.py:16-21 | AND and OR depend only on the multiset of input values, not on the order the wires were connected |
| Gates.NotReadsFirstOnly | gates/not_gate.py:19 | NOT ignores every input but the first-connected one |
| Gates.ComputeDetermined | gates/and_gate.py:15-21 | under either NOT rule a gate's output is determined exactly when it is a constant, an AND or OR gate with at least one input and every input determined, or a NOT gate whose first-connected input is determined |
| Gates.ColourOf | gates/led_gate.py:25-31 | light gray exactly for no value, green exactly for true, red exactly for false |
| Gates.FreshView | gates/led_gate.py:15 | a new LED remembers no value and is light gray |
| Gates.UpdateColor | gates/led_gate.py:17-31 | a repeated value changes nothing; a new one is remembered and recolours the LED to match it; the brush keeps agreeing with the remembered value |
| Gates.UpdateColorSettles | gates/led_gate.py:20-21 | a second update with the same value leaves the LED as the first left it |
| Circuits.ListsOfValid | wire_item.py:22-23 | under the invariant a gate's list is in building order, and names a live wire exactly when the wire ends at that gate on that side |
| Circuits.PeersOfListed | wire_item.py:18-23 | the j-th peer of a gate is the far end of the j-th wire in its list |
| Circuits.ParallelCount | wire_item.py:18-23 | a source appears among a gate's input peers as many times as there are wires between the two |
| Circuits.AddGate | editor.py:143 | placing appends one fresh gate; earlier gates and all wires are unchanged and the invariant holds |
| Circuits.AddWire | wire_item.py:18-23 | a new wire gets a fresh id and is appended to its source's output list and its destination's input list; every other list is unchanged and the invariant holds |
| Circuits.RemoveWire | wire_item.py:31-34 | removal succeeds exactly when the wire is live (`list.remove` raises otherwise) and drops exactly that wire, gates unchanged |
| Circuits.RemoveWireKeepsOrder | wire_item.py:32-33 | after removal every list keeps its other entries in order and no longer names the wire |
| Circuits.AddThenRemoveWire | wire_item.py:22-33 | removing the wire just added restores the circuit, apart from the spent id |
| Circuits.DetachAllDrops | gate_item.py:80-81 | detaching a list of wires leaves exactly the wires whose ids are not in the list |
| Circuits.IncidentListed | gate_item.py:80 | a gate's two lists together name exactly the wires with an end at that gate |
| Circuits.RemoveGate | gate_item.py:79-86 | the corrected gate removal: every wire touching the gate is gone, every other wire stays, each list keeps the surviving entries in order, and the gate itself stays in the editor's list as in the code |
| Editor.Decide | editor.py:79-95 | same-polarity clicks are refused; otherwise a wire runs from the output end to the input end exactly when both still have a spare port, and a full source is reported as such |
| Editor.ClickOrderIrrelevant | editor.py:81-85 | clicking output then input decides the same as input then output |
| Editor.Connect | editor.py:79-97 | a refused click leaves the circuit unchanged; an accepted one appends exactly the new wire; the invariant holds |
| Editor.ConnectKeepsArity | editor.py:89-95 | connecting never takes a gate past its declared port counts |
| Editor.ConstantsNeverDestination | editor.py:93-95 | TRUE and FALSE never receive a wire |
| Editor.LedLimits | editor.py:89-95 | an LED never sends a wire and accepts at most one |
| Editor.UnboundedAlwaysAccepts | editor.py:89-97 | a wire from a non-LED gate into AND, OR or NOT is always accepted |
| Editor.ClickableByKind | gate_item.py:42-60 | an input point can be clicked exactly on non-constants, an output point exactly on non-LEDs |
| Editor.RemovalKeepsArity | wire_item.py:31-34 | removing a wire or a gate keeps every gate within its port counts |
| Editor.ToolKind | editor.py:131-140 | the placement table maps a tool name to the class it names, and nothing else to any class |
| Editor.ToolKindInvertsToolName | editor.py:131-138 | every gate class has a tool that places it |
| Editor.Truncate | editor.py:141 | `int()` truncates toward zero, for negative coordinates too |
| Editor.TruncateVersusFloor | editor.py:141 | truncation agrees with the floor exactly for non-negative or whole coordinates |
| Editor.Place | editor.py:128-144 | a gate tool naming no class fails; a gate tool appends one fresh gate of its class at the corner; any other tool leaves the circuit unchanged |
| Editor.PlaceAll | editor.py:22-28 | placing a list of gates appends them in order as fresh gates |
| Editor.InitialCircuit | editor.py:22-28 | the editor starts with AND, OR, TRUE, LED and FALSE at their coordinates, unwired and valid |
| Propagation.SourceStatesFollowInputs | gates/or_gate.py:17 | there is one such value per listed input wire, read through that wire |
| Propagation.Sweep | editor.py:44-49 | a partial round leaves the gates it has not yet visited untouched |
| Propagation.SweepChanged | editor.py:43-49 | the changed flag is raised exactly when a visited gate's state differs from before |
| Propagation.RoundChanged | editor.py:43-49 | a round reports a change exactly when the states after it differ from those before it |
| Propagation.GaussSeidel | editor.py:44-47 | each gate computes from the values the gates before it received in the same round and the old values of the gates after it |
| Propagation.RoundDetectsFixedPoint | editor.py:50-52 | a round changes nothing exactly when every gate already holds what it computes |
| Propagation.Relax | editor.py:50-52 | the repeated rounds stop at the first round that changes nothing, and then hold a fixed point |
| Propagation.RelaxMonotone | editor.py:51-52 | once the rounds settle within a bound, a larger bound gives the same outcome |
| Propagation.Settle | editor.py:42-52 | `simulation_step` changes only gate states; a settled outcome is a fixed point reached by the rounds it counts; an unsettled one is the state after the bound's rounds |
| Propagation.SettleRoundsAllChanged | editor.py:51-52 | every round but the last changed some gate, so the step recursed exactly that often |
| Propagation.SettleIdempotent | editor.py:42-52 | a settled circuit settles again at once, in one round, unchanged |
| Propagation.SettleMonotone | editor.py:51-52 | a circuit that settles within a bound settles identically within any larger one |
| Propagation.ConstantsAfterRound | gates/false_gate.py:14-15 | after a round TRUE holds true, FALSE holds false and the LED's state is untouched |
| Propagation.ConstantsStay | gates/true_gate.py:15-16 | from the first round on the constants keep their values |
| Propagation.LedDisplay | gates/led_gate.py:33-41 | an LED shows nothing when unwired, its source's state when fed by one wire, and raises when fed by more |
| Propagation.LedDisplayDefined | editor.py:93-95 | in a circuit wired through the editor an LED's display never raises |
| Propagation.RefreshLed | gates/led_gate.py:17-31 | the LED timer's refresh raises exactly when the display raises; otherwise it shows the display's value in the matching colour |
| Codec.Serialize | editor.py:164-189 | the document numbers the gates 0..n-1 and holds each live wire exactly once as a (source, destination) pair |
| Codec.GroupedSorted | editor.py:179-184 | wire records come grouped by source gate, in gate-list order |
| Codec.DstsOfGrouped | editor.py:179-184 | the records whose source is gate i list exactly gate i's destinations, in the order of its output list |
| Codec.SerializeCounts | editor.py:179-184 | each (source, destination) pair occurs as often in the document as there are such wires |
| Codec.FirstUnknown | editor.py:199-206 | loading stops at the first record whose type is not registered |
| Codec.LastIdWins | editor.py:212 | an id names the last gate record carrying it |
| Codec.LoadWire | editor.py:215-220 | a record whose two ids are both known adds a wire between those gates, with no capacity check, and succeeds exactly when the source has an output point and the destination an input point; otherwise `update_position` raises after the wire is in both lists, and the error holds that circuit; a record with an unknown id is skipped |
| Codec.LoadWires | wire_item.py:18-28 | the loop succeeds exactly when every resolvable record can be drawn, and then adds them all in file order; otherwise it stops at the first record that cannot, leaving every record up to and including it wired in |
| Codec.Deserialize | editor.py:191-220 | loading succeeds exactly when every gate type is registered and every resolvable wire can be drawn; an unknown type is reported by name with the gates before it built and no wire; a wire at a missing point is reported with all gates built and the wires up to it; a success holds the record gates and the resolvable wires |
| Codec.GateMapOfNumbered | editor.py:170 | records numbered by position map every id to its own position |
| Codec.SavedDrawable | gate_item.py:42-60 | the saved wires of a circuit can be drawn on the rebuilt gates exactly when every wire of the circuit leaves an output point and enters an input point |
| Codec.WithinArityDrawn | editor.py:89-95 | a circuit whose gates keep to their port counts has no wire at a missing point |
| Codec.Reloaded | editor.py:191-220 | with every class registered, a saved circuit whose wires all join an output point to an input point loads without error |
| Codec.ReloadedGates | editor.py:199-212 | loading a saved circuit gives the same classes at the same positions, with values reset |
| Codec.ReloadedOutputs | editor.py:179-184 | after a reload every gate feeds the same gates in the same order |
| Codec.ReloadedInputs | editor.py:215-220 | after a reload every gate is fed by the same multiset of gates, though possibly in another order |
| Codec.ReloadedSaves | editor.py:164-189 | saving a reloaded circuit gives the document saved before |
| Codec.RoundTrip | editor.py:164-220 | save then load, with every class registered and every wire joining an output point to an input point, succeeds and restores classes, positions, output order and input multisets, and saves back to the same document |
| Codec.ReloadedIsFixed | editor.py:191-220 | reloading a reloaded circuit gives it back unchanged |
| Findings.NotAsWrittenCopies | gates/not_gate.py:19 | as written NOT copies its first input, which differs from the negation whenever that input is determined |
| Findings.NotNegates | gates/not_gate.py:15-19 | the corrected NOT negates a determined input, keeps an undetermined one, and twice applied gives the input back |
| Findings.AsWrittenRegistry | gates/not_gate.py:6 | only AND, OR and TRUE are registered, since the other three classes derive from a base without the registering hook |
| Findings.AsWrittenLoads | editor.py:203-206 | with the registry as written, a document in the form the single base saves loads back exactly when it holds only AND, OR and TRUE gates and every wire joins an output point to an input point |
| Findings.LoadStopsAt | editor.py:199-206 | loading fails with an unknown type at the first unregistered record, with the gates before it built |
| Findings.InitialCircuitDoesNotReload | editor.py:22-28 | a file listing the initial circuit's gates, in the form the single base saves them, fails to load at the LED record, after three gates |
| Findings.NotFileRejected | editor.py:199-206 | a hand-written file holding one `NotGate` record fails to load as an unknown type, with nothing built |
| Findings.FirstOldBase | editor.py:177-181 | finds the first gate whose class is built on the older base, or reports that every gate is AND, OR or TRUE |
| Findings.SerializeAsWritten | editor.py:164-185 | saving as written fails exactly when the circuit holds a NOT, FALSE or LED gate, at the first one in the list; otherwise it is the corrected save |
| Findings.SavedAsWrittenLoads | editor.py:164-220 | a document the program as written manages to save loads back as written exactly when every wire joins an output point to an input point, and can only fail on a missing point |
| Findings.InitialCircuitSaveFails | editor.py:177-181 | saving the editor's initial circuit as written fails at the LED, the fourth gate |
| Findings.FullRegistryLoads | gate_item.py:38-40 | with every class registered a saved circuit loads exactly when every wire joins an output point to an input point, which every circuit within its port counts satisfies |
| Findings.CascadeAsWritten | gate_item.py:80-81 | the wire loop of `remove` as written keeps the invariant and the gates, and can only fail on a wire that is no longer listed |
| Findings.CascadeAsWrittenStops | gate_item.py:80-81 | a failed loop stopped at the first entry that is not live or repeats an earlier one, with exactly the entries before it detached |
| Findings.LiveAfterRemove | wire_item.py:31-33 | after removing a wire every other wire is still live and it is not |
| Findings.CascadeAsWrittenIff | gate_item.py:80-81 | the loop succeeds exactly when its wires are live and pairwise distinct, and then detaches them all |
| Findings.SharedIffSelfLoop | wire_item.py:22-23 | a wire is in both of a gate's lists exactly when it runs from the gate to itself |
| Findings.ListedDistinct | gate_item.py:80 | a gate's joined lists repeat an id exactly when the two lists share one |
| Findings.SelfLoopCrashes | gate_item.py:80-81 | removing a gate crashes in the wire loop exactly when the gate has a wire to itself |
| Findings.CascadeAgreesWithoutSelfLoop | gate_item.py:80-81 | without a self-loop the wire loop as written detaches exactly what the corrected removal does |
| Findings.SelfLoopExample | wire_item.py:31-33 | an AND gate wired to itself crashes the loop as written after its one wire is detached, and is cleanly detached by the corrected removal |
| Findings.RemoveAsWritten | gate_item.py:79-86 | `remove` as written: wires, then `remove` on every gate of the editor, with a recursion limit; whichever way it stops it keeps the invariant and every gate |
| Findings.RemoveNeverReturns | gate_item.py:83-84 | `remove` as written never returns, whatever the circuit and the recursion limit, when every gate has the `remove` of gate_item.py |
| Findings.IdleRecursion | gate_item.py:83-84 | once gate 0 has no wires, removal as written only recurses, changing nothing until the recursion limit |
| Findings.RemoveLeavesDetached | gate_item.py:79-86 | removing gate 0 as written, when it has no wire to itself, detaches its wires exactly as the corrected removal does and then recurses to the limit, so the error holds the corrected removal's circuit |
| Findings.SweepAsWrittenAgrees | editor.py:44-49 | the round as written completes exactly when no gate in it raises, and then agrees with the corrected round; otherwise it stops at the first raising gate, holding what the corrected round had written before it |
| Findings.InitialRoundHalts | editor.py:42-52 | on the editor's initial gates the round as written stops at the LED, the fourth gate, with TRUE set and FALSE never evaluated; the corrected round sets FALSE to false |
| Scenarios.NotLoopSettles | editor.py:42-52 | a NOT gate wired to itself settles after one round exactly when it copies (as written) or holds no value; a negating one holding a value does not |
| Scenarios.LoopFlips | editor.py:51-52 | a negating NOT wired to itself flips on every round, so no bound makes it settle |
| Scenarios.RoundOfThree | editor.py:44-49 | a round over three gates, gate by gate, each reading the values just written |
| Scenarios.ChainLights | gates/led_gate.py:17-41 | TRUE into NOT into LED settles in two rounds with the NOT holding true when it copies (as written) and false when it negates; an LED display that reads the NOT's state then shows green or red to match |
| Scenarios.BackwardsNeedsThreeRounds | editor.py:44-52 | the same chain listed against its wiring needs a third round: two are not enough |
| Scenarios.OverloadedLedRaises | editor.py:215-220 | with every class registered, a file wiring two gates into one LED loads, leaves the LED beyond its port count, and its display raises |
| Scenarios.OverloadedRejectedAsWritten | editor.py:199-212 | with the registry as written the same file stops at `FalseGate`, its second record, with only the TRUE gate built and no wire loaded |

## Left out

- Drawing: `paint`, `shape`, the point ellipses' geometry, wire coordinates, `itemChange` and `update_graphics`, a no-op. Only the LED's colour is modelled, as a value. Of `update_position` (wire_item.py:26-29) the model keeps one thing: it reads both points, and a gate built without one holds `None` there (gate_item.py:27-28, 42-60), so it raises. `Codec.LoadWire` reports that as `NoPoint`.
- The mouse handling around the second click: the pending endpoint, the dashed temporary line, cancelling (editor.py:54-77, 100-127, 148-162), and tool dispatch in `mousePressEvent`. Endpoints are given as a gate index and a polarity, and removal is applied directly.
- The Qt timers that drive `simulation_step` every 50 ms and each LED's `update_color` every 33 ms. Settling is applied on demand, and the LED refresh takes the circuit as a parameter.
- Propagation.Settle: `simulation_step` recurses until a round changes nothing and would end in Python's `RecursionError` on a circuit that never settles. The model caps the rounds with a `fuel` bound and reports `DidNotConverge` instead.
- Codec.RoundTrip, Codec.Reloaded and the other `Reloaded` lemmas require `Drawn`: every wire leaves an output point and enters an input point. The editor's own wiring guarantees it (`Codec.WithinArityDrawn`), and `Findings.FullRegistryLoads` states that a save of any other circuit fails to load.
- Findings.RemoveAsWritten: the unbounded recursion of lines 83-84 is cut off by a `depth` bound, reported as `RecursionLimit`.
- Findings.RemoveLeavesDetached: stated for removing gate 0 only. Removing another gate as written detaches that gate's wires, then gate 0's, before the recursion limit. Only `Findings.RemoveAsWritten`'s contract covers that case: the invariant and every gate are kept.
- gates/gate_item.py, the older base class that NOT, FALSE and LED derive from. It keeps one `connected_wires` list rather than two, and it is not the `GateItem` that editor.py imports (editor.py:5). So as written `_handle_wiring_event` ignores a click on a point of those gates: the `isinstance` test at editor.py:58 fails, and line 100 cancels the pending wire. No wire can be drawn to or from them. The model gives every gate the two lists of gate_item.py and lets the wiring tool reach every gate. The model also gives every gate the `remove` of gate_item.py:79-86. The older base's own `remove` (gates/gate_item.py:54-58) detaches its `connected_wires` and does not recurse. Three consequences of the old base are kept, in `Findings`: the missing registration, the save raising at editor.py:180 on the missing `connected_outputs` (`Findings.SerializeAsWritten`), and the `compute_output` of NOT and LED raising in a round.
- Editor.UnboundedAlwaysAccepts: for a NOT destination, and for a NOT or FALSE source, it holds only in the model, where every gate shares one base. As written a click on a point of a NOT or FALSE gate is ignored (editor.py:58, 100).
- Scenarios.OverloadedLedRaises: it loads its file with every class registered and assumes the single base. As written `FalseGate` and `LEDGate` are not registered, so the file stops at `Unknown gate: FalseGate` before any wire record (`Scenarios.OverloadedRejectedAsWritten`).
- Scenarios.NotLoopSettles, Scenarios.LoopFlips, Scenarios.ChainLights, Scenarios.BackwardsNeedsThreeRounds and the NOT rows of `Findings` (Findings.NotAsWrittenCopies, Findings.NotNegates) also assume the single base. As written no wire reaches a NOT, and a round raises at not_gate.py:16 on the missing `connected_inputs` (`Findings.SweepAsWrittenAgrees`). They state what the NOT's own `compute_output` at lines 15-19 does once it can run.
- The LED constructor (gates/led_gate.py:8-15). It passes its width where the base expects the editor and reads `circuit.simulation_timers`, which the editor never defines. The model builds an LED like any other gate.
- Propagation.LedDisplay reads the source gate's state. As written, the LED's `super().eval()` is the older base's `eval` (gates/gate_item.py:44-52). It loops over `connected_wires`, which no code ever appends to, so it returns an empty list and the LED always shows `None` (gates/led_gate.py:36-37). The model shows what `eval` would give if that list held the LED's input wire.
- Findings.InitialCircuitDoesNotReload and Findings.AsWrittenLoads: they load a document in the form the single base saves. As written the save itself raises at editor.py:180 on any NOT, FALSE or LED gate (`Findings.SerializeAsWritten`), so such a document exists only when written by hand. `Findings.SavedAsWrittenLoads` states what happens to a document the program as written does save.
- Findings.RemoveNeverReturns, Findings.IdleRecursion and Findings.RemoveLeavesDetached: they give every gate the `remove` of gate_item.py. As written they hold when the removed gate and gate 0 are AND, OR or TRUE gates. A NOT, FALSE or LED gate runs the older base's `remove`, which does not recurse.
- The LED has no `compute_output`, so as written a round raises at the first LED (a Findings row below). `Propagation.Round` is the corrected round: it leaves the LED's state as it is.
- JSON parsing and file dialogs (main.py), the toolbar (toolbar_action.py), and `scene.clear()`. Loading always starts from an empty circuit.
- Missing record fields (`KeyError` on `g["type"]`, `w["src"]`, ...) and ids that are not integers. Records are typed, and the `gates` and `wires` keys are optional as in `data.get(..., [])`.
- `if src and dst` (editor.py:218) is read as "both ids known": gate objects are always truthy.
- Positions are reals. Qt's coordinate types are not modelled, apart from the `int()` truncation of a placed gate's corner.

## Findings

| source | as written | input that shows it | evidently intended | confidence | as-written member | corrected member |
|---|---|---|---|---|---|---|
| gates/not_gate.py:19 | NOT returns the first input's state unchanged | TRUE into NOT: after settling the NOT holds true | the negation of that state (the class name, the drawn inversion bubble) | high, not executed | Findings.NotAsWrittenCopies | Findings.NotNegates |
| gates/not_gate.py:6 | NOT, FALSE and LED import the older base in gates/gate_item.py, which has no `__init_subclass__`, so they are never registered | a hand-written file holding one `NotGate` record: `Unknown gate: NotGate` with nothing built (the same base also makes saving the initial circuit raise at its LED, `Findings.InitialCircuitSaveFails`) | every gate class registered and on the one base, so every saved circuit loads | high, not executed | Findings.NotFileRejected | Codec.RoundTrip |
| gate_item.py:83-84 | `remove` calls `remove` on every gate of the editor, which does the same, until `RecursionError`; the wires detached by then stay detached (`Findings.RemoveLeavesDetached`) | removing an AND, OR or TRUE gate while the first gate in the list is one too, as in the initial circuit, even when it is the only gate | detach the gate's own wires and take the gate off the scene (line 86); the gate stays in `editor.gates`, so it is still simulated and saved, as in `Circuits.RemoveGate` | high, not executed | Findings.RemoveNeverReturns | Circuits.RemoveGate |
| gate_item.py:80-81 | a wire from a gate to itself is in both of its lists, so the loop removes it twice and the second `list.remove` raises `ValueError` | an AND gate wired to itself, then removed | each wire removed once | high, not executed | Findings.SelfLoopCrashes | Circuits.RemoveGate |
| editor.py:45 | `LEDGate` defines no `compute_output`, so a round raises `AttributeError` at the first LED in the gate list; no later gate is evaluated and the step does not recurse | the editor's initial circuit: the round stops at the LED, fourth in the list, and the FALSE gate after it never becomes false | every gate but the LED computes its output each round; the LED only displays | high, not executed | Findings.InitialRoundHalts | Propagation.ConstantsAfterRound |

## Where the code and its description differ

The model follows the code in each of these places.

- The NOT gate is described as negating. The code copies its input (first row above). Under the code, a NOT gate wired to itself stays undetermined and settles. Under negation it settles only while undetermined (`Scenarios.NotLoopSettles`).
- Loading is described as applying the editor's port limits. `deserialize` checks none. With every class registered, a file can therefore give an LED two inputs, and its display then raises (`Scenarios.OverloadedLedRaises`). As written the LED and FALSE classes are not registered, so that file stops at its FALSE record (`Scenarios.OverloadedRejectedAsWritten`).
- A wire record that names an unknown gate id is described as an error. `deserialize` skips it silently (`Codec.LoadWire`).
- A failed load is described as leaving the previous circuit untouched. `deserialize` clears the editor first, so an unknown gate type leaves the gates loaded before it (`Codec.Deserialize`, the `partial` circuit of the error). With every class registered, a wire record into TRUE or FALSE, or out of an LED, raises in `update_position` after the wire is already in both gates' lists. That leaves every gate and the wires up to and including that one (`NoPoint`). As written FALSE and LED records already stop the load as unknown types, so only a wire into TRUE gets that far.
- Duplicate gate ids in a file are not rejected: the last record carrying an id wins (`Codec.LastIdWins`).
- The description lets the engine visit gates in any order. The code visits them in list order and lets later gates read values written earlier in the same round, so the list order decides how many rounds a chain needs (`Scenarios.BackwardsNeedsThreeRounds`).

=== FILE: circuit.dfy ===
/** Gates and wires. A circuit is the editor's ordered list of gates together
    with the live wires in the order they were built. Each gate keeps the
    ordered lists of the ids of its incoming and outgoing wires
    (`connected_inputs`, `connected_outputs`); each wire keeps its identity and
    its two endpoint gates as indices into the gate list. */
module Circuits {
  import opened Wrappers
  import opened Gates

  type WireId = nat
  type GateIndex = nat

  /** A position on the canvas. The model only carries it, never computes with it. */
  datatype Position = Position(x: real, y: real)

  /** A wire from the output of `src` to the input of `dst`; both ends are fixed
      when the wire is built. */
  datatype Wire = Wire(id: WireId, src: GateIndex, dst: GateIndex)

  datatype Gate = Gate(kind: Kind, pos: Position, state: Tri, inputs: seq<WireId>, outputs: seq<WireId>)

  /** `wires` lists the live wires oldest first; `nextWire` is the id the next
      wire receives, so ids are never reused. */
  datatype Circuit = Circuit(gates: seq<Gate>, wires: seq<Wire>, nextWire: WireId)

  /** A freshly constructed gate: state `None` and no wires. */
  function NewGate(kind: Kind, pos: Position): (g: Gate)
    ensures g.kind == kind && g.pos == pos
    ensures g.state == None
    ensures g.inputs == [] && g.outputs == []
  {
    Gate(kind, pos, None, [], [])
  }

  /** The two lists a gate keeps. */
  datatype Side = Incoming | Outgoing

  function ListOf(g: Gate, side: Side): seq<WireId> {
    if side == Incoming then g.inputs else g.outputs
  }

  /** `w` enters gate `i` (`Incoming`) or leaves it (`Outgoing`). */
  predicate Attached(w: Wire, i: GateIndex, side: Side) {
    if side == Incoming then w.dst == i else w.src == i
  }

  /** The end of `w` opposite to the gate it is attached to on `side`. */
  function Far(w: Wire, side: Side): GateIndex {
    if side == Incoming then w.src else w.dst
  }

  /* ---------------------------------------------------------------------- */
  /* Sequences of wires                                                     */
  /* ---------------------------------------------------------------------- */

  function Ids(ws: seq<Wire>): (r: seq<WireId>)
    ensures |r| == |ws|
    ensures forall j :: 0 <= j < |ws| ==> r[j] == ws[j].id
  {
    seq(|ws|, j requires 0 <= j < |ws| => ws[j].id)
  }

  function Fars(ws: seq<Wire>, side: Side): (r: seq<GateIndex>)
    ensures |r| == |ws|
    ensures forall j :: 0 <= j < |ws| ==> r[j] == Far(ws[j], side)
  {
    seq(|ws|, j requires 0 <= j < |ws| => Far(ws[j], side))
  }

  /** The wires of `ws` attached to gate `i` on `side`, in their order in `ws`. */
  function AttachedTo(ws: seq<Wire>, i: GateIndex, side: Side): (r: seq<Wire>)
    ensures |r| <= |ws|
    ensures forall w :: w in r <==> w in ws && Attached(w, i, side)
  {
    if |ws| == 0 then []
    else (if Attached(ws[0], i, side) then [ws[0]] else []) + AttachedTo(ws[1..], i, side)
  }

  /** `ws` without the wires whose ids are in `gone`, the others in their order. */
  function Drop(ws: seq<Wire>, gone: set<WireId>): (r: seq<Wire>)
    ensures |r| <= |ws|
    ensures forall w :: w in r <==> w in ws && w.id !in gone
  {
    if |ws| == 0 then []
    else (if ws[0].id in gone then [] else [ws[0]]) + Drop(ws[1..], gone)
  }

  /** The ids of the wires on one side of gate `i`, in the order they were built. */
  function Listing(ws: seq<Wire>, i: GateIndex, side: Side): seq<WireId> {
    Ids(AttachedTo(ws, i, side))
  }

  /** Ids strictly increase along `ws`; in particular no id occurs twice. */
  predicate Ordered(ws: seq<Wire>) {
    forall j, k :: 0 <= j < k < |ws| ==> ws[j].id < ws[k].id
  }

  lemma IdsAppend(a: seq<Wire>, b: seq<Wire>)
    ensures Ids(a + b) == Ids(a) + Ids(b)
  {
  }

  lemma OrderedCons(x: Wire, ws: seq<Wire>)
    ensures Ordered([x] + ws) <==> Ordered(ws) && forall w :: w in ws ==> x.id < w.id
  {
    var s := [x] + ws;
    if Ordered(ws) && forall w :: w in ws ==> x.id < w.id {
      forall j, k | 0 <= j < k < |s| ensures s[j].id < s[k].id {
        if j == 0 {
          assert s[k] == ws[k - 1];
        } else {
          assert s[j] == ws[j - 1] && s[k] == ws[k - 1];
        }
      }
    }
    if Ordered(s) {
      forall w | w in ws ensures x.id < w.id {
        var k :| 0 <= k < |ws| && ws[k] == w;
        assert s[0] == x && s[k + 1] == w;
      }
      forall j, k | 0 <= j < k < |ws| ensures ws[j].id < ws[k].id {
        assert s[j + 1] == ws[j] && s[k + 1] == ws[k];
      }
    }
  }

  lemma {:induction false} AttachedOrdered(ws: seq<Wire>, i: GateIndex, side: Side)
    requires Ordered(ws)
    ensures Ordered(AttachedTo(ws, i, side))
    decreases |ws|
  {
    if |ws| > 0 {
      assert ws == [ws[0]] + ws[1..];
      OrderedCons(ws[0], ws[1..]);
      AttachedOrdered(ws[1..], i, side);
      var tail := AttachedTo(ws[1..], i, side);
      if Attached(ws[0], i, side) {
        OrderedCons(ws[0], tail);
      }
    }
  }

  lemma {:induction false} DropOrdered(ws: seq<Wire>, gone: set<WireId>)
    requires Ordered(ws)
    ensures Ordered(Drop(ws, gone))
    decreases |ws|
  {
    if |ws| > 0 {
      assert ws == [ws[0]] + ws[1..];
      OrderedCons(ws[0], ws[1..]);
      DropOrdered(ws[1..], gone);
      var tail := Drop(ws[1..], gone);
      if ws[0].id !in gone {
        OrderedCons(ws[0], tail);
      }
    }
  }

  lemma {:induction false} AttachedAppend(a: seq<Wire>, b: seq<Wire>, i: GateIndex, side: Side)
    ensures AttachedTo(a + b, i, side) == AttachedTo(a, i, side) + AttachedTo(b, i, side)
    decreases |a|
  {
    if |a| == 0 {
      assert a + b == b;
    } else {
      assert (a + b)[0] == a[0];
      assert (a + b)[1..] == a[1..] + b;
      AttachedAppend(a[1..], b, i, side);
    }
  }

  /** Filtering by endpoint and filtering by id commute. */
  lemma {:induction false} DropAttached(ws: seq<Wire>, gone: set<WireId>, i: GateIndex, side: Side)
    ensures AttachedTo(Drop(ws, gone), i, side) == Drop(AttachedTo(ws, i, side), gone)
    decreases |ws|
  {
    if |ws| > 0 {
      DropAttached(ws[1..], gone, i, side);
      var head := if ws[0].id in gone then [] else [ws[0]];
      AttachedAppend(head, Drop(ws[1..], gone), i, side);
      var near := if Attached(ws[0], i, side) then [ws[0]] else [];
      assert AttachedTo(ws, i, side) == near + AttachedTo(ws[1..], i, side);
      DropAppend(near, AttachedTo(ws[1..], i, side), gone);
    }
  }

  lemma {:induction false} DropAppend(a: seq<Wire>, b: seq<Wire>, gone: set<WireId>)
    ensures Drop(a + b, gone) == Drop(a, gone) + Drop(b, gone)
    decreases |a|
  {
    if |a| == 0 {
      assert a + b == b;
    } else {
      assert (a + b)[0] == a[0];
      assert (a + b)[1..] == a[1..] + b;
      DropAppend(a[1..], b, gone);
    }
  }

  lemma {:induction false} DropTwice(ws: seq<Wire>, first: set<WireId>, second: set<WireId>)
    ensures Drop(Drop(ws, first), second) == Drop(ws, first + second)
    decreases |ws|
  {
    if |ws| > 0 {
      DropTwice(ws[1..], first, second);
      var head := if ws[0].id in first then [] else [ws[0]];
      DropAppend(head, Drop(ws[1..], first), second);
    }
  }

  lemma {:induction false} DropNothing(ws: seq<Wire>, gone: set<WireId>)
    requires forall w :: w in ws ==> w.id !in gone
    ensures Drop(ws, gone) == ws
    decreases |ws|
  {
    if |ws| > 0 {
      DropNothing(ws[1..], gone);
      assert ws == [ws[0]] + ws[1..];
    }
  }

  lemma {:induction false} AttachedNone(ws: seq<Wire>, i: GateIndex, side: Side)
    requires forall w :: w in ws ==> !Attached(w, i, side)
    ensures AttachedTo(ws, i, side) == []
    decreases |ws|
  {
    if |ws| > 0 {
      AttachedNone(ws[1..], i, side);
    }
  }

  /* ---------------------------------------------------------------------- */
  /* Lists of wire ids                                                      */
  /* ---------------------------------------------------------------------- */

  /** Python's `list.remove(x)`: drops the first occurrence of `x`. */
  function RemoveFirst(s: seq<WireId>, x: WireId): (r: seq<WireId>)
    requires x in s
    ensures |r| == |s| - 1
  {
    if s[0] == x then s[1..] else [s[0]] + RemoveFirst(s[1..], x)
  }

  /** `list.remove(x)` takes away exactly one `x` and nothing else. */
  lemma {:induction false} RemoveFirstCounts(s: seq<WireId>, x: WireId)
    requires x in s
    ensures multiset(RemoveFirst(s, x)) == multiset(s) - multiset{x}
    decreases |s|
  {
    assert s == [s[0]] + s[1..];
    if s[0] != x {
      RemoveFirstCounts(s[1..], x);
    }
  }

  /** `s` without the ids in `gone`, the others kept in their order. */
  function Strip(s: seq<WireId>, gone: set<WireId>): (r: seq<WireId>)
    ensures |r| <= |s|
    ensures forall x :: x in r <==> x in s && x !in gone
  {
    if |s| == 0 then [] else (if s[0] in gone then [] else [s[0]]) + Strip(s[1..], gone)
  }

  /** Dropping wires from a sequence strips their ids from its id list. */
  lemma {:induction false} IdsDrop(ws: seq<Wire>, gone: set<WireId>)
    ensures Ids(Drop(ws, gone)) == Strip(Ids(ws), gone)
    decreases |ws|
  {
    if |ws| > 0 {
      IdsDrop(ws[1..], gone);
      var head := if ws[0].id in gone then [] else [ws[0]];
      IdsAppend(head, Drop(ws[1..], gone));
      assert Ids(ws)[1..] == Ids(ws[1..]);
    }
  }

  /** On wires with distinct ids, `list.remove` of a listed id is the same as
      dropping that one wire. */
  lemma {:induction false} RemoveFirstIsDrop(ws: seq<Wire>, x: WireId)
    requires Ordered(ws) && x in Ids(ws)
    ensures RemoveFirst(Ids(ws), x) == Ids(Drop(ws, {x}))
    decreases |ws|
  {
    var head, rest := ws[0], ws[1..];
    var ids := Ids(ws);
    assert ids[0] == head.id && ids[1..] == Ids(rest);
    OrderedTail(ws);
    if head.id == x {
      DropNothing(rest, {x});
      assert Drop(ws, {x}) == Drop(rest, {x});
      assert RemoveFirst(ids, x) == ids[1..];
    } else {
      assert Drop(ws, {x}) == [head] + Drop(rest, {x});
      assert RemoveFirst(ids, x) == [head.id] + RemoveFirst(Ids(rest), x);
      RemoveFirstIsDrop(rest, x);
      IdsAppend([head], Drop(rest, {x}));
    }
  }

  /** The tail of an ordered sequence is ordered and lies above its head. */
  lemma OrderedTail(ws: seq<Wire>)
    requires Ordered(ws) && |ws| > 0
    ensures Ordered(ws[1..])
    ensures forall w :: w in ws[1..] ==> w.id !in {ws[0].id}
  {
    forall w | w in ws[1..] ensures w.id !in {ws[0].id} {
      var k :| 0 <= k < |ws[1..]| && ws[1..][k] == w;
      assert ws[k + 1] == w;
    }
  }

  /* ---------------------------------------------------------------------- */
  /* The wiring invariant                                                   */
  /* ---------------------------------------------------------------------- */

  /** Every wire's endpoints exist and its id was handed out already. */
  predicate InRange(c: Circuit) {
    forall j :: 0 <= j < |c.wires| ==>
      c.wires[j].id < c.nextWire && c.wires[j].src < |c.gates| && c.wires[j].dst < |c.gates|
  }

  /** Each gate lists exactly the live wires that enter (resp. leave) it, in
      the order they were built. */
  predicate ListsMatch(c: Circuit) {
    forall i :: 0 <= i < |c.gates| ==>
      c.gates[i].inputs == Listing(c.wires, i, Incoming) && c.gates[i].outputs == Listing(c.wires, i, Outgoing)
  }

  /** The invariant every editor operation keeps: live wires have distinct ids
      and existing endpoints, and the per-gate lists describe exactly them. */
  predicate Valid(c: Circuit) {
    Ordered(c.wires) && InRange(c) && ListsMatch(c)
  }

  function EmptyCircuit(): (c: Circuit)
    ensures Valid(c) && |c.gates| == 0 && |c.wires| == 0
  {
    Circuit([], [], 0)
  }

  /** `w` is a live wire of `c`. */
  predicate Live(c: Circuit, w: WireId) {
    w in Ids(c.wires)
  }

  /** The live wire with id `w`. */
  function Find(ws: seq<Wire>, w: WireId): (r: Wire)
    requires w in Ids(ws)
    ensures r in ws && r.id == w
  {
    if ws[0].id == w then ws[0] else Find(ws[1..], w)
  }

  /** On a valid circuit, every list a gate keeps is strictly increasing, so
      no list names a wire twice, and a live wire is listed exactly at its own
      two ends. */
  lemma ListsOfValid(c: Circuit, i: GateIndex, side: Side, w: Wire)
    requires Valid(c) && i < |c.gates|
    ensures forall j, k :: 0 <= j < k < |ListOf(c.gates[i], side)| ==> ListOf(c.gates[i], side)[j] < ListOf(c.gates[i], side)[k]
    ensures w in c.wires ==> (w.id in ListOf(c.gates[i], side) <==> Attached(w, i, side))
  {
    var a := AttachedTo(c.wires, i, side);
    AttachedOrdered(c.wires, i, side);
    if w in c.wires {
      if w.id in Ids(a) {
        var k :| 0 <= k < |a| && Ids(a)[k] == w.id;
        assert a[k] in c.wires;
        SameIdSameWire(c.wires, a[k], w);
      }
      if Attached(w, i, side) {
        var k :| 0 <= k < |a| && a[k] == w;
        assert Ids(a)[k] == w.id;
      }
    }
  }

  /** In an ordered sequence an id determines its wire. */
  lemma SameIdSameWire(ws: seq<Wire>, a: Wire, b: Wire)
    requires Ordered(ws) && a in ws && b in ws && a.id == b.id
    ensures a == b
  {
    var j :| 0 <= j < |ws| && ws[j] == a;
    var k :| 0 <= k < |ws| && ws[k] == b;
    assert j == k;
  }

  /** Two circuits that differ at most in the gates' states. */
  predicate SameWiring(c: Circuit, d: Circuit) {
    && |d.gates| == |c.gates|
    && d.wires == c.wires
    && d.nextWire == c.nextWire
    && forall i :: 0 <= i < |c.gates| ==>
         d.gates[i].kind == c.gates[i].kind && d.gates[i].pos == c.gates[i].pos
         && d.gates[i].inputs == c.gates[i].inputs && d.gates[i].outputs == c.gates[i].outputs
  }

  /** The invariant does not depend on the gates' states. */
  lemma ValidIgnoresStates(c: Circuit, d: Circuit)
    requires Valid(c) && SameWiring(c, d)
    ensures Valid(d)
  {
  }

  /** Two circuits that agree on every gate's kind, position and state. */
  predicate SameGates(c: Circuit, d: Circuit) {
    && |d.gates| == |c.gates|
    && forall i :: 0 <= i < |c.gates| ==>
         d.gates[i].kind == c.gates[i].kind && d.gates[i].pos == c.gates[i].pos && d.gates[i].state == c.gates[i].state
  }

  /** A valid circuit is determined by its gates, its live wires and its id
      counter: the per-gate lists carry no further information. */
  lemma Canonical(c: Circuit, d: Circuit)
    requires Valid(c) && Valid(d) && SameGates(c, d)
    requires d.wires == c.wires && d.nextWire == c.nextWire
    ensures d == c
  {
    forall i | 0 <= i < |c.gates| ensures d.gates[i] == c.gates[i] {
    }
    assert d.gates == c.gates;
  }

  /** Seen from a valid circuit, the lists after dropping wires are the lists
      before, with the dropped ids stripped and every other id in its place. */
  lemma ListsAfterDrop(c: Circuit, d: Circuit, gone: set<WireId>)
    requires Valid(c) && Valid(d) && |d.gates| == |c.gates| && d.wires == Drop(c.wires, gone)
    ensures forall i, side :: 0 <= i < |c.gates| ==> ListOf(d.gates[i], side) == Strip(ListOf(c.gates[i], side), gone)
  {
    forall i, side | 0 <= i < |c.gates|
      ensures ListOf(d.gates[i], side) == Strip(ListOf(c.gates[i], side), gone)
    {
      DropAttached(c.wires, gone, i, side);
      IdsDrop(AttachedTo(c.wires, i, side), gone);
    }
  }

  /* ---------------------------------------------------------------------- */
  /* Reading the lists                                                      */
  /* ---------------------------------------------------------------------- */

  /** The gates at the far ends of gate `i`'s wires on `side`, in connection
      order; under `Valid` the `j`-th entry belongs to the `j`-th listed wire. */
  function Peers(c: Circuit, i: GateIndex, side: Side): (r: seq<GateIndex>)
    requires InRange(c)
    ensures |r| == |AttachedTo(c.wires, i, side)|
    ensures forall j :: 0 <= j < |r| ==> r[j] < |c.gates|
  {
    var a := AttachedTo(c.wires, i, side);
    var r := Fars(a, side);
    assert forall j :: 0 <= j < |a| ==> a[j] in c.wires;
    r
  }

  /** `[t.src_gate for t in gate.connected_inputs]`. */
  function InSrcs(c: Circuit, i: GateIndex): (r: seq<GateIndex>)
    requires InRange(c)
    ensures forall j :: 0 <= j < |r| ==> r[j] < |c.gates|
  {
    Peers(c, i, Incoming)
  }

  /** `[t.dst_gate for t in gate.connected_outputs]`. */
  function OutDsts(c: Circuit, i: GateIndex): (r: seq<GateIndex>)
    requires InRange(c)
    ensures forall j :: 0 <= j < |r| ==> r[j] < |c.gates|
  {
    Peers(c, i, Outgoing)
  }

  /** Under the invariant the peers line up with the listed wires. */
  lemma PeersOfListed(c: Circuit, i: GateIndex, side: Side)
    requires Valid(c) && i < |c.gates|
    ensures |Peers(c, i, side)| == |ListOf(c.gates[i], side)|
    ensures forall j :: 0 <= j < |Peers(c, i, side)| ==>
      Wire(ListOf(c.gates[i], side)[j], if side == Incoming then Peers(c, i, side)[j] else i,
           if side == Incoming then i else Peers(c, i, side)[j]) in c.wires
  {
    var a := AttachedTo(c.wires, i, side);
    forall j | 0 <= j < |a|
      ensures Wire(ListOf(c.gates[i], side)[j], if side == Incoming then Peers(c, i, side)[j] else i,
                   if side == Incoming then i else Peers(c, i, side)[j]) in c.wires
    {
      assert a[j] in a;
    }
  }

  /** How many entries of `ws` run from `s` to `t`. */
  function CountPair(ws: seq<Wire>, s: GateIndex, t: GateIndex): nat {
    if |ws| == 0 then 0 else (if ws[0].src == s && ws[0].dst == t then 1 else 0) + CountPair(ws[1..], s, t)
  }

  lemma FarsAppend(a: seq<Wire>, b: seq<Wire>, side: Side)
    ensures Fars(a + b, side) == Fars(a, side) + Fars(b, side)
  {
  }

  /** One end of `ParallelCount`, over any sequence of wires. */
  lemma {:induction false} PeerCount(ws: seq<Wire>, i: GateIndex, side: Side, p: GateIndex)
    ensures multiset(Fars(AttachedTo(ws, i, side), side))[p]
         == (if side == Incoming then CountPair(ws, p, i) else CountPair(ws, i, p))
    decreases |ws|
  {
    if |ws| > 0 {
      PeerCount(ws[1..], i, side, p);
      var e := ws[0];
      var near := if Attached(e, i, side) then [e] else [];
      var rest := AttachedTo(ws[1..], i, side);
      assert AttachedTo(ws, i, side) == near + rest;
      FarsAppend(near, rest, side);
      assert multiset(Fars(near + rest, side)) == multiset(Fars(near, side)) + multiset(Fars(rest, side));
      if Attached(e, i, side) {
        assert Fars(near, side) == [Far(e, side)];
      } else {
        assert Fars(near, side) == [];
      }
    }
  }

  /** Seen from either end, the number of wires between two gates is the same:
      `s` appears among `t`'s sources exactly as often as `t` appears among
      `s`'s destinations, namely once per live wire from `s` to `t`. */
  lemma ParallelCount(c: Circuit, s: GateIndex, t: GateIndex)
    requires InRange(c)
    ensures multiset(InSrcs(c, t))[s] == CountPair(c.wires, s, t)
    ensures multiset(OutDsts(c, s))[t] == CountPair(c.wires, s, t)
  {
    PeerCount(c.wires, t, Incoming, s);
    PeerCount(c.wires, s, Outgoing, t);
  }

  /* ---------------------------------------------------------------------- */
  /* Structural operations                                                  */
  /* ---------------------------------------------------------------------- */

  /** Appending a new gate to the gate list (`self.gates.append(new_gate)`). */
  function AddGate(c: Circuit, kind: Kind, pos: Position): (r: Circuit)
    requires Valid(c)
    ensures Valid(r)
    ensures |r.gates| == |c.gates| + 1 && r.gates[..|c.gates|] == c.gates
    ensures r.gates[|c.gates|] == NewGate(kind, pos)
    ensures r.wires == c.wires && r.nextWire == c.nextWire
  {
    var r := c.(gates := c.gates + [NewGate(kind, pos)]);
    AddGateValid(c, r);
    r
  }

  lemma AddGateValid(c: Circuit, r: Circuit)
    requires Valid(c) && r.wires == c.wires && r.nextWire == c.nextWire
    requires |r.gates| == |c.gates| + 1 && r.gates[..|c.gates|] == c.gates
    requires r.gates[|c.gates|].inputs == [] && r.gates[|c.gates|].outputs == []
    ensures Valid(r)
  {
    var n := |c.gates|;
    forall w | w in c.wires ensures !Attached(w, n, Incoming) && !Attached(w, n, Outgoing) {
      var k :| 0 <= k < |c.wires| && c.wires[k] == w;
    }
    AttachedNone(c.wires, n, Incoming);
    AttachedNone(c.wires, n, Outgoing);
    forall i | 0 <= i < |r.gates|
      ensures r.gates[i].inputs == Listing(r.wires, i, Incoming) && r.gates[i].outputs == Listing(r.wires, i, Outgoing)
    {
      if i < n {
        assert r.gates[i] == r.gates[..n][i];
      }
    }
  }

  /** `WireItem(src, dst)`: a new wire with a fresh id, appended to the end of
      `src`'s output list and of `dst`'s input list. Self-loops and parallel
      wires are not excluded. */
  function AddWire(c: Circuit, s: GateIndex, t: GateIndex): (r: Circuit)
    requires Valid(c) && s < |c.gates| && t < |c.gates|
    ensures Valid(r) && SameGates(c, r)
    ensures |r.gates| == |c.gates| && r.nextWire == c.nextWire + 1
    ensures !Live(c, c.nextWire) && r.wires == c.wires + [Wire(c.nextWire, s, t)]
    ensures r.gates[s].outputs == c.gates[s].outputs + [c.nextWire]
    ensures r.gates[t].inputs == c.gates[t].inputs + [c.nextWire]
    ensures forall i :: 0 <= i < |c.gates| && i != s ==> r.gates[i].outputs == c.gates[i].outputs
    ensures forall i :: 0 <= i < |c.gates| && i != t ==> r.gates[i].inputs == c.gates[i].inputs
  {
    var e := Wire(c.nextWire, s, t);
    var r := Circuit(
      seq(|c.gates|, i requires 0 <= i < |c.gates| =>
        c.gates[i].(outputs := c.gates[i].outputs + (if i == s then [e.id] else []),
                    inputs := c.gates[i].inputs + (if i == t then [e.id] else []))),
      c.wires + [e], e.id + 1);
    AddWireValid(c, e, r);
    r
  }

  lemma AddWireValid(c: Circuit, e: Wire, r: Circuit)
    requires Valid(c) && e.id == c.nextWire && e.src < |c.gates| && e.dst < |c.gates|
    requires |r.gates| == |c.gates| && r.wires == c.wires + [e] && r.nextWire == c.nextWire + 1
    requires forall i :: 0 <= i < |c.gates| ==>
      r.gates[i].outputs == c.gates[i].outputs + (if i == e.src then [e.id] else []) &&
      r.gates[i].inputs == c.gates[i].inputs + (if i == e.dst then [e.id] else [])
    ensures Valid(r)
    ensures !Live(c, c.nextWire)
  {
    var ws := c.wires;
    forall j, k | 0 <= j < k < |r.wires| ensures r.wires[j].id < r.wires[k].id {
      assert r.wires[j] == ws[j];
      if k < |ws| {
        assert r.wires[k] == ws[k];
      }
    }
    forall j | 0 <= j < |r.wires|
      ensures r.wires[j].id < r.nextWire && r.wires[j].src < |r.gates| && r.wires[j].dst < |r.gates|
    {
      if j < |ws| {
        assert r.wires[j] == ws[j];
      }
    }
    forall i | 0 <= i < |c.gates|
      ensures r.gates[i].inputs == Listing(r.wires, i, Incoming)
      ensures r.gates[i].outputs == Listing(r.wires, i, Outgoing)
    {
      ListingAppend(ws, e, i, Incoming);
      ListingAppend(ws, e, i, Outgoing);
    }
    assert ListsMatch(r);
    forall j | 0 <= j < |ws| ensures Ids(ws)[j] != c.nextWire {
    }
  }

  /** Appending a wire appends its id to the lists of the gates it touches. */
  lemma ListingAppend(ws: seq<Wire>, e: Wire, i: GateIndex, side: Side)
    ensures Listing(ws + [e], i, side) == Listing(ws, i, side) + (if Attached(e, i, side) then [e.id] else [])
  {
    AttachedAppend(ws, [e], i, side);
    assert AttachedTo([e], i, side) == if Attached(e, i, side) then [e] else [];
    IdsAppend(AttachedTo(ws, i, side), AttachedTo([e], i, side));
  }

  datatype WireError = NotInList

  /** `WireItem.remove`: takes the wire out of its source's output list and its
      destination's input list with `list.remove`, which raises once the wire is
      no longer listed, and drops it from the live wires. */
  function RemoveWire(c: Circuit, w: WireId): (r: Result<Circuit, WireError>)
    requires Valid(c)
    ensures r.Success? <==> Live(c, w)
    ensures r.Success? ==> Valid(r.value) && SameGates(c, r.value)
    ensures r.Success? ==> r.value.wires == Drop(c.wires, {w}) && r.value.nextWire == c.nextWire
  {
    if !Live(c, w) then Failure(NotInList)
    else
      var e := Find(c.wires, w);
      var r := Circuit(seq(|c.gates|, i requires 0 <= i < |c.gates| => Unlink(c, e, i)), Drop(c.wires, {w}), c.nextWire);
      RemoveWireValid(c, e, r);
      Success(r)
  }

  /** Gate `i` after `wire.remove()` of the live wire `e`: `list.remove` on
      the output list if `i` is the source and on the input list if `i` is the
      destination (both for a self-loop). */
  function Unlink(c: Circuit, e: Wire, i: GateIndex): (g: Gate)
    requires Valid(c) && e in c.wires && i < |c.gates|
    ensures g.inputs == Listing(Drop(c.wires, {e.id}), i, Incoming)
    ensures g.outputs == Listing(Drop(c.wires, {e.id}), i, Outgoing)
    ensures g.kind == c.gates[i].kind && g.pos == c.gates[i].pos && g.state == c.gates[i].state
  {
    RemoveFromListing(c, e, i, Incoming);
    RemoveFromListing(c, e, i, Outgoing);
    var g := c.gates[i];
    g.(outputs := if i == e.src then RemoveFirst(g.outputs, e.id) else g.outputs,
       inputs := if i == e.dst then RemoveFirst(g.inputs, e.id) else g.inputs)
  }

  /** `list.remove` leaves every other wire in every list, in its original
      order, and leaves the wire itself in none. */
  lemma RemoveWireKeepsOrder(c: Circuit, w: WireId)
    requires Valid(c) && Live(c, w)
    ensures forall i, side :: 0 <= i < |c.gates| ==>
      ListOf(RemoveWire(c, w).value.gates[i], side) == Strip(ListOf(c.gates[i], side), {w})
    ensures forall i, side :: 0 <= i < |c.gates| ==> w !in ListOf(RemoveWire(c, w).value.gates[i], side)
  {
    ListsAfterDrop(c, RemoveWire(c, w).value, {w});
  }

  /** The one-side step of `RemoveWireValid`: `list.remove` on a list that
      names the wire, and nothing on a list that does not. */
  lemma RemoveFromListing(c: Circuit, e: Wire, i: GateIndex, side: Side)
    requires Valid(c) && e in c.wires && i < |c.gates|
    ensures Attached(e, i, side) ==>
      (e.id in ListOf(c.gates[i], side) &&
       RemoveFirst(ListOf(c.gates[i], side), e.id) == Listing(Drop(c.wires, {e.id}), i, side))
    ensures !Attached(e, i, side) ==> ListOf(c.gates[i], side) == Listing(Drop(c.wires, {e.id}), i, side)
  {
    var a := AttachedTo(c.wires, i, side);
    DropAttached(c.wires, {e.id}, i, side);
    ListsOfValid(c, i, side, e);
    if Attached(e, i, side) {
      AttachedOrdered(c.wires, i, side);
      RemoveFirstIsDrop(a, e.id);
    } else {
      forall x | x in a ensures x.id !in {e.id} {
        if x.id == e.id {
          SameIdSameWire(c.wires, x, e);
        }
      }
      DropNothing(a, {e.id});
    }
  }

  lemma RemoveWireValid(c: Circuit, e: Wire, r: Circuit)
    requires Valid(c) && e in c.wires
    requires |r.gates| == |c.gates| && r.wires == Drop(c.wires, {e.id}) && r.nextWire == c.nextWire
    requires forall i :: 0 <= i < |c.gates| ==> r.gates[i] == Unlink(c, e, i)
    ensures Valid(r) && SameGates(c, r)
  {
    DropOrdered(c.wires, {e.id});
    forall j | 0 <= j < |r.wires|
      ensures r.wires[j].id < r.nextWire && r.wires[j].src < |r.gates| && r.wires[j].dst < |r.gates|
    {
      assert r.wires[j] in r.wires;
      var k :| 0 <= k < |c.wires| && c.wires[k] == r.wires[j];
    }
    assert InRange(r);
    assert ListsMatch(r);
  }

  /** Building a wire and then removing it gives back every gate and every
      list as they were; only the id counter has moved on. */
  lemma AddThenRemoveWire(c: Circuit, s: GateIndex, t: GateIndex)
    requires Valid(c) && s < |c.gates| && t < |c.gates|
    ensures RemoveWire(AddWire(c, s, t), c.nextWire) == Success(c.(nextWire := c.nextWire + 1))
  {
    var w := c.nextWire;
    var a := AddWire(c, s, t);
    assert Ids(a.wires)[|c.wires|] == w;
    assert Live(a, w);
    var res := RemoveWire(a, w);
    var r := res.value;
    assert res == Success(r);
    DropNewest(c, Wire(w, s, t));
    var d := c.(nextWire := w + 1);
    assert Valid(d) by {
      assert ListsMatch(d);
    }
    assert SameGates(d, r) by {
      forall i | 0 <= i < |c.gates|
        ensures r.gates[i].kind == c.gates[i].kind && r.gates[i].pos == c.gates[i].pos && r.gates[i].state == c.gates[i].state
      {
        assert a.gates[i].kind == c.gates[i].kind && a.gates[i].pos == c.gates[i].pos && a.gates[i].state == c.gates[i].state;
      }
    }
    assert a.wires == c.wires + [Wire(w, s, t)];
    Canonical(d, r);
    assert res == Success(d);
    assert RemoveWire(AddWire(c, s, t), c.nextWire) == res;
    assert c.(nextWire := c.nextWire + 1) == d;
  }

  /** Dropping the wire just appended gives back the wires before it. */
  lemma DropNewest(c: Circuit, e: Wire)
    requires InRange(c) && e.id == c.nextWire
    ensures Drop(c.wires + [e], {e.id}) == c.wires
  {
    forall x | x in c.wires ensures x.id !in {e.id} {
      var k :| 0 <= k < |c.wires| && c.wires[k] == x;
    }
    DropNothing(c.wires, {e.id});
    DropAppend(c.wires, [e], {e.id});
    assert Drop([e], {e.id}) == [];
  }

  /** The wires of `c` that touch gate `g` at either end. */
  function Incident(c: Circuit, g: GateIndex): (r: set<WireId>)
    ensures forall w :: w in r <==> exists x :: x in c.wires && x.id == w && (x.src == g || x.dst == g)
  {
    set x | x in c.wires && (x.src == g || x.dst == g) :: x.id
  }

  /** The set of ids named in a list. */
  function Elems(ws: seq<WireId>): (r: set<WireId>)
    ensures forall w :: w in r <==> w in ws
  {
    set w | w in ws
  }

  /** `wire.remove()` when the wire is still live, nothing otherwise. */
  function DetachOne(c: Circuit, w: WireId): (r: Circuit)
    requires Valid(c)
    ensures Valid(r) && SameGates(c, r) && r.nextWire == c.nextWire
    ensures r.wires == Drop(c.wires, {w})
  {
    DeadDrop(c, w);
    if Live(c, w) then RemoveWire(c, w).value else c
  }

  /** Dropping a wire that is not live changes nothing. */
  lemma DeadDrop(c: Circuit, w: WireId)
    ensures !Live(c, w) ==> Drop(c.wires, {w}) == c.wires
  {
    if !Live(c, w) {
      forall x | x in c.wires ensures x.id !in {w} {
        var k :| 0 <= k < |c.wires| && c.wires[k] == x;
        assert Ids(c.wires)[k] == x.id;
      }
      DropNothing(c.wires, {w});
    }
  }

  /** Removing a list of wires one after the other, skipping those already
      gone; the cascade of `GateItem.remove` in the form that tolerates a
      wire met twice. */
  function DetachAll(c: Circuit, ws: seq<WireId>): (r: Circuit)
    requires Valid(c)
    ensures Valid(r) && SameGates(c, r) && r.nextWire == c.nextWire
    decreases |ws|
  {
    if |ws| == 0 then c else DetachAll(DetachOne(c, ws[0]), ws[1..])
  }

  /** After the cascade exactly the wires not named in the list are live,
      in their original order. */
  lemma {:induction false} DetachAllDrops(c: Circuit, ws: seq<WireId>)
    requires Valid(c)
    ensures DetachAll(c, ws).wires == Drop(c.wires, Elems(ws))
    decreases |ws|
  {
    if |ws| == 0 {
      assert Elems(ws) == {};
      DropNothing(c.wires, {});
    } else {
      var rest := ws[1..];
      DetachAllDrops(DetachOne(c, ws[0]), rest);
      DropTwice(c.wires, {ws[0]}, Elems(rest));
      ElemsCons(ws);
    }
  }

  lemma ElemsCons(ws: seq<WireId>)
    requires |ws| > 0
    ensures Elems(ws) == {ws[0]} + Elems(ws[1..])
  {
    assert ws == [ws[0]] + ws[1..];
  }

  /** The corrected `GateItem.remove`: every wire touching the gate is
      detached from both of its ends; the gate itself stays in the gate list,
      as the editor never takes it out, with both lists empty. */
  function RemoveGate(c: Circuit, g: GateIndex): (r: Circuit)
    requires Valid(c) && g < |c.gates|
    ensures Valid(r) && SameGates(c, r) && r.nextWire == c.nextWire
    ensures r.wires == Drop(c.wires, Incident(c, g))
    ensures r.gates[g].inputs == [] && r.gates[g].outputs == []
    ensures forall x :: x in r.wires <==> x in c.wires && x.src != g && x.dst != g
    ensures forall i, side :: 0 <= i < |c.gates| ==>
      ListOf(r.gates[i], side) == Strip(ListOf(c.gates[i], side), Incident(c, g))
  {
    var ws := c.gates[g].inputs + c.gates[g].outputs;
    var r := DetachAll(c, ws);
    DetachAllDrops(c, ws);
    IncidentListed(c, g);
    assert Elems(ws) == Incident(c, g);
    ListsAfterDrop(c, r, Incident(c, g));
    forall x | x in r.wires ensures x.src != g && x.dst != g {
      assert x in c.wires;
    }
    forall x | x in c.wires && x.src != g && x.dst != g ensures x in r.wires {
      if x.id in Incident(c, g) {
        var y :| y in c.wires && y.id == x.id && (y.src == g || y.dst == g);
        SameIdSameWire(c.wires, x, y);
      }
    }
    AttachedNone(r.wires, g, Incoming);
    AttachedNone(r.wires, g, Outgoing);
    r
  }

  /** A gate's two lists together name exactly the wires touching it. */
  lemma IncidentListed(c: Circuit, g: GateIndex)
    requires Valid(c) && g < |c.gates|
    ensures forall w :: w in c.gates[g].inputs + c.gates[g].outputs <==> w in Incident(c, g)
  {
    forall w ensures w in c.gates[g].inputs + c.gates[g].outputs <==> w in Incident(c, g) {
      if w in Incident(c, g) {
        var x :| x in c.wires && x.id == w && (x.src == g || x.dst == g);
        ListsOfValid(c, g, Incoming, x);
        ListsOfValid(c, g, Outgoing, x);
      }
      if w in c.gates[g].inputs + c.gates[g].outputs {
        var side := if w in c.gates[g].inputs then Incoming else Outgoing;
        var a := AttachedTo(c.wires, g, side);
        var k :| 0 <= k < |a| && Ids(a)[k] == w;
        assert a[k] in c.wires;
      }
    }
  }
}

=== FILE: codec.dfy ===
/** Saving and loading (`EditorView.serialize` and `deserialize`). A saved
    circuit is a document with a list of gate records and a list of wire
    records. Saving numbers the gates by their place in the gate list; a wire
    record names its two gates by those numbers. Loading rebuilds the gates in
    record order and then replays the wire records through `WireItem`. */
module Codec {
  import opened Wrappers
  import opened Gates
  import opened Circuits
  import opened Editor

  /** One entry of `"gates"`: `{"id", "type", "x", "y"}`. */
  datatype GateRecord = GateRecord(id: int, typeName: string, x: real, y: real)

  /** One entry of `"wires"`: `{"src", "dst"}`, both gate ids. */
  datatype WireRecord = WireRecord(src: int, dst: int)

  /** A saved circuit. A key may be missing (`None`); loading reads a missing
      key as an empty list (`data.get(key, [])`). */
  datatype Document = Document(gates: Option<seq<GateRecord>>, wires: Option<seq<WireRecord>>)

  function OrEmpty<T>(o: Option<seq<T>>): seq<T> {
    if o.Some? then o.value else []
  }

  /** The two ends of every wire of `ws`, in order. */
  function Ends(ws: seq<Wire>): (r: seq<WireRecord>)
    ensures |r| == |ws|
    ensures forall j :: 0 <= j < |ws| ==> r[j] == WireRecord(ws[j].src, ws[j].dst)
  {
    seq(|ws|, j requires 0 <= j < |ws| => WireRecord(ws[j].src, ws[j].dst))
  }

  lemma EndsSnoc(ws: seq<Wire>, e: Wire)
    ensures Ends(ws + [e]) == Ends(ws) + [WireRecord(e.src, e.dst)]
  {
  }

  /** The destinations of the records leaving gate `i`, in record order. */
  function DstsOf(recs: seq<WireRecord>, i: int): (r: seq<int>)
    ensures |r| <= |recs|
  {
    if |recs| == 0 then []
    else (if recs[0].src == i then [recs[0].dst] else []) + DstsOf(recs[1..], i)
  }

  /* ---------------------------------------------------------------------- */
  /* Saving                                                                 */
  /* ---------------------------------------------------------------------- */

  /** `{"id": i, "type": gate.__class__.__name__, "x": ..., "y": ...}` for
      the `i`-th gate. */
  function GateRecords(c: Circuit): (r: seq<GateRecord>)
    ensures |r| == |c.gates|
    ensures forall i :: 0 <= i < |r| ==>
      r[i] == GateRecord(i, ClassName(c.gates[i].kind), c.gates[i].pos.x, c.gates[i].pos.y)
  {
    seq(|c.gates|, i requires 0 <= i < |c.gates| =>
      GateRecord(i, ClassName(c.gates[i].kind), c.gates[i].pos.x, c.gates[i].pos.y))
  }

  /** One record per destination in `ds`, all leaving gate `s`. */
  function Row(s: int, ds: seq<int>): (r: seq<WireRecord>)
    ensures |r| == |ds|
  {
    if |ds| == 0 then [] else [WireRecord(s, ds[0])] + Row(s, ds[1..])
  }

  /** The records of a table of destination lists: row by row, and within a
      row in the row's order. */
  function Grouped(rows: seq<seq<int>>): (r: seq<WireRecord>)
    decreases |rows|
  {
    if |rows| == 0 then []
    else Grouped(rows[..|rows| - 1]) + Row(|rows| - 1, rows[|rows| - 1])
  }

  /** Each gate's destinations, in the order of its output list. */
  function Table(c: Circuit): (t: seq<seq<int>>)
    requires InRange(c)
    ensures |t| == |c.gates|
    ensures forall i :: 0 <= i < |c.gates| ==> t[i] == OutDsts(c, i)
  {
    seq(|c.gates|, i requires 0 <= i < |c.gates| => OutDsts(c, i))
  }

  /** `serialize`: the gate records in gate order, then, gate by gate, one
      wire record per entry of the gate's output list. */
  function Serialize(c: Circuit): (r: Document)
    requires Valid(c)
    ensures r.gates.Some? && r.wires.Some?
    ensures |r.gates.value| == |c.gates|
    ensures forall i :: 0 <= i < |c.gates| ==> r.gates.value[i].id == i
    ensures multiset(r.wires.value) == multiset(Ends(c.wires))
  {
    var r := Document(Some(GateRecords(c)), Some(Grouped(Table(c))));
    SerializeCounts(c);
    r
  }

  lemma {:induction false} RowElements(s: int, ds: seq<int>)
    ensures forall j :: 0 <= j < |ds| ==> Row(s, ds)[j] == WireRecord(s, ds[j])
    decreases |ds|
  {
    if |ds| > 0 {
      RowElements(s, ds[1..]);
    }
  }

  /** Every record comes from a row and an entry of it. */
  lemma {:induction false} GroupedRange(rows: seq<seq<int>>, n: int)
    requires forall i, j :: 0 <= i < |rows| && 0 <= j < |rows[i]| ==> 0 <= rows[i][j] < n
    ensures forall k :: 0 <= k < |Grouped(rows)| ==>
      0 <= Grouped(rows)[k].src < |rows| && 0 <= Grouped(rows)[k].dst < n
    decreases |rows|
  {
    if |rows| > 0 {
      var m := |rows| - 1;
      GroupedRange(rows[..m], n);
      var a: seq<WireRecord>, b: seq<WireRecord> := Grouped(rows[..m]), Row(m, rows[m]);
      RowElements(m, rows[m]);
      forall k: int | 0 <= k < |a + b| ensures 0 <= (a + b)[k].src < |rows| && 0 <= (a + b)[k].dst < n {
        if k >= |a| {
          assert (a + b)[k] == b[k - |a|];
        } else {
          assert (a + b)[k] == a[k];
        }
      }
    }
  }

  /** Every record's source is a row index. */
  lemma {:induction false} GroupedSources(rows: seq<seq<int>>)
    ensures forall k :: 0 <= k < |Grouped(rows)| ==> 0 <= Grouped(rows)[k].src < |rows|
    decreases |rows|
  {
    if |rows| > 0 {
      var m := |rows| - 1;
      GroupedSources(rows[..m]);
      var a: seq<WireRecord>, b: seq<WireRecord> := Grouped(rows[..m]), Row(m, rows[m]);
      RowElements(m, rows[m]);
      forall k: int | 0 <= k < |a + b| ensures 0 <= (a + b)[k].src < |rows| {
        if k >= |a| {
          assert (a + b)[k] == b[k - |a|];
        } else {
          assert (a + b)[k] == a[k];
        }
      }
    }
  }

  /** The records are grouped by source, in row order. */
  lemma {:induction false} GroupedSorted(rows: seq<seq<int>>)
    ensures forall j, k :: 0 <= j < k < |Grouped(rows)| ==> Grouped(rows)[j].src <= Grouped(rows)[k].src
    decreases |rows|
  {
    if |rows| > 0 {
      var m := |rows| - 1;
      GroupedSorted(rows[..m]);
      GroupedSources(rows[..m]);
      var a: seq<WireRecord>, b: seq<WireRecord> := Grouped(rows[..m]), Row(m, rows[m]);
      RowElements(m, rows[m]);
      forall j: int, k: int | 0 <= j < k < |a + b| ensures (a + b)[j].src <= (a + b)[k].src {
        if k >= |a| {
          assert (a + b)[k] == b[k - |a|];
          if j < |a| {
            assert (a + b)[j] == a[j];
          } else {
            assert (a + b)[j] == b[j - |a|];
          }
        } else {
          assert (a + b)[j] == a[j] && (a + b)[k] == a[k];
        }
      }
    }
  }

  lemma CountAppend(a: seq<WireRecord>, b: seq<WireRecord>, e: WireRecord)
    ensures multiset(a + b)[e] == multiset(a)[e] + multiset(b)[e]
  {
  }

  lemma {:induction false} RowCount(s: int, ds: seq<int>, e: WireRecord)
    ensures multiset(Row(s, ds))[e] == if e.src == s then multiset(ds)[e.dst] else 0
    decreases |ds|
  {
    if |ds| > 0 {
      RowCount(s, ds[1..], e);
      assert ds == [ds[0]] + ds[1..];
    }
  }

  /** A record appears as often as its destination does in its source's row. */
  lemma {:induction false} GroupedCount(rows: seq<seq<int>>, e: WireRecord)
    ensures multiset(Grouped(rows))[e] == if 0 <= e.src < |rows| then multiset(rows[e.src])[e.dst] else 0
    decreases |rows|
  {
    if |rows| > 0 {
      var m := |rows| - 1;
      GroupedCount(rows[..m], e);
      RowCount(m, rows[m], e);
      CountAppend(Grouped(rows[..m]), Row(m, rows[m]), e);
    }
  }

  lemma {:induction false} EndsCount(ws: seq<Wire>, s: nat, t: nat)
    ensures multiset(Ends(ws))[WireRecord(s, t)] == CountPair(ws, s, t)
    decreases |ws|
  {
    if |ws| > 0 {
      EndsCount(ws[1..], s, t);
      assert Ends(ws) == [Ends(ws)[0]] + Ends(ws[1..]);
    }
  }

  lemma {:induction false} CountPairNone(ws: seq<Wire>, s: nat, t: nat)
    requires forall j :: 0 <= j < |ws| ==> ws[j].src != s
    ensures CountPair(ws, s, t) == 0
    decreases |ws|
  {
    if |ws| > 0 {
      CountPairNone(ws[1..], s, t);
    }
  }

  /** Saving writes one record per live wire: the records and the live
      wires' ends agree as multisets. */
  lemma SerializeCounts(c: Circuit)
    requires Valid(c)
    ensures multiset(Grouped(Table(c))) == multiset(Ends(c.wires))
  {
    var n := |c.gates|;
    var recs := Grouped(Table(c));
    GroupedRange(Table(c), n);
    forall e: WireRecord ensures multiset(recs)[e] == multiset(Ends(c.wires))[e] {
      if e.src >= 0 && e.dst >= 0 {
        var s: nat, t: nat := e.src, e.dst;
        assert e == WireRecord(s, t);
        EndsCount(c.wires, s, t);
        GroupedCount(Table(c), e);
        if s < n {
          ParallelCount(c, s, t);
        } else {
          CountPairNone(c.wires, s, t);
        }
      } else {
        assert e !in recs;
        assert e !in Ends(c.wires);
      }
    }
  }

  /* ---------------------------------------------------------------------- */
  /* Reading records back as wiring                                         */
  /* ---------------------------------------------------------------------- */

  lemma {:induction false} DstsOfAppend(a: seq<WireRecord>, b: seq<WireRecord>, i: int)
    ensures DstsOf(a + b, i) == DstsOf(a, i) + DstsOf(b, i)
    decreases |a|
  {
    if |a| > 0 {
      DstsOfAppend(a[1..], b, i);
      assert (a + b)[0] == a[0];
      assert (a + b)[1..] == a[1..] + b;
    } else {
      assert a + b == b;
    }
  }

  lemma {:induction false} DstsOfRow(s: int, ds: seq<int>, i: int)
    ensures DstsOf(Row(s, ds), i) == if s == i then ds else []
    decreases |ds|
  {
    if |ds| > 0 {
      DstsOfRow(s, ds[1..], i);
    }
  }

  /** Within grouped records, the records leaving `i` list exactly row `i`. */
  lemma {:induction false} DstsOfGrouped(rows: seq<seq<int>>, i: int)
    ensures DstsOf(Grouped(rows), i) == if 0 <= i < |rows| then rows[i] else []
    decreases |rows|
  {
    if |rows| > 0 {
      var m := |rows| - 1;
      DstsOfGrouped(rows[..m], i);
      DstsOfAppend(Grouped(rows[..m]), Row(m, rows[m]), i);
      DstsOfRow(m, rows[m], i);
    }
  }

  /** A gate's destinations depend only on the ends of the live wires. */
  lemma {:induction false} DstsOfEnds(ws: seq<Wire>, i: GateIndex)
    ensures Fars(AttachedTo(ws, i, Outgoing), Outgoing) == DstsOf(Ends(ws), i)
    decreases |ws|
  {
    if |ws| > 0 {
      DstsOfEnds(ws[1..], i);
      var near := if Attached(ws[0], i, Outgoing) then [ws[0]] else [];
      FarsAppend(near, AttachedTo(ws[1..], i, Outgoing), Outgoing);
      assert Ends(ws)[1..] == Ends(ws[1..]);
    }
  }

  /* ---------------------------------------------------------------------- */
  /* Loading                                                                */
  /* ---------------------------------------------------------------------- */

  /** Why a load stops. `deserialize` clears the editor before it starts, so
      in either case the editor keeps whatever was built before the error.
      `UnknownGate`: a gate record names a type missing from the registry
      (`RuntimeError('Unknown gate: ...')`); the gates built before it stay,
      without wires. `NoPoint`: a wire record leaves a gate that has no output
      point or enters one that has no input point. `WireItem` appends the wire
      to both gates' lists before `update_position` reads the missing point
      (an `AttributeError` on `None`), so the partial circuit holds that
      wire. */
  datatype LoadError = UnknownGate(name: string, partial: Circuit) | NoPoint(partial: Circuit)

  /** The circuit the editor holds once a load has ended, normally or not. */
  function LeftWith(r: Result<Circuit, LoadError>): Circuit {
    if r.Success? then r.value else r.error.partial
  }

  /** The two points `WireItem.update_position` reads exist: an output point
      on the record's source gate and an input point on its destination. */
  predicate Drawable(gates: seq<Gate>, e: WireRecord) {
    && 0 <= e.src < |gates| && 0 <= e.dst < |gates|
    && HasOutputPoint(gates[e.src].kind) && HasInputPoint(gates[e.dst].kind)
  }

  predicate AllDrawable(gates: seq<Gate>, rs: seq<WireRecord>) {
    forall j :: 0 <= j < |rs| ==> Drawable(gates, rs[j])
  }

  /** Every live wire of `c` joins an output point to an input point. */
  predicate Drawn(c: Circuit) {
    AllDrawable(c.gates, Ends(c.wires))
  }

  /** `d` is `c` after the records `rs` were replayed in order up to and
      including the first one that cannot be drawn. */
  predicate StoppedAt(c: Circuit, d: Circuit, rs: seq<WireRecord>) {
    var k := |d.wires| - |c.wires|;
    && 0 < k <= |rs|
    && Ends(d.wires) == Ends(c.wires) + rs[..k]
    && d.nextWire == c.nextWire + k
    && AllDrawable(c.gates, rs[..k - 1])
    && !Drawable(c.gates, rs[k - 1])
  }

  /** The number of leading records whose type is registered. */
  function FirstUnknown(reg: Registry, gs: seq<GateRecord>): (n: nat)
    ensures n <= |gs|
    ensures forall k :: 0 <= k < n ==> Lookup(reg, gs[k].typeName).Some?
    ensures n < |gs| ==> Lookup(reg, gs[n].typeName).None?
  {
    if |gs| == 0 || Lookup(reg, gs[0].typeName).None? then 0
    else 1 + FirstUnknown(reg, gs[1..])
  }

  predicate Registered(reg: Registry, gs: seq<GateRecord>) {
    forall k :: 0 <= k < |gs| ==> gs[k].typeName in reg
  }

  /** `gate_cls(x, y, self)` for every record: fresh gates, no wires. */
  function Rebuilt(reg: Registry, gs: seq<GateRecord>): (r: seq<Gate>)
    requires Registered(reg, gs)
    ensures |r| == |gs|
    ensures forall k :: 0 <= k < |gs| ==> r[k] == NewGate(reg[gs[k].typeName], Position(gs[k].x, gs[k].y))
  {
    seq(|gs|, k requires 0 <= k < |gs| => NewGate(reg[gs[k].typeName], Position(gs[k].x, gs[k].y)))
  }

  /** `gate_map[g["id"]] = gate` over the records in order: a record id maps
      to the gate built from the last record carrying it. */
  function GateMap(gs: seq<GateRecord>): (m: map<int, GateIndex>)
    ensures forall id :: id in m ==> m[id] < |gs|
    decreases |gs|
  {
    if |gs| == 0 then map[]
    else GateMap(gs[..|gs| - 1])[gs[|gs| - 1].id := |gs| - 1]
  }

  /** Which gate a record id names after loading: some record carries the
      id, and the last such record wins. */
  lemma {:induction false} LastIdWins(gs: seq<GateRecord>, id: int)
    ensures id in GateMap(gs) <==> exists k :: 0 <= k < |gs| && gs[k].id == id
    ensures id in GateMap(gs) ==>
      gs[GateMap(gs)[id]].id == id && forall k :: GateMap(gs)[id] < k < |gs| ==> gs[k].id != id
    decreases |gs|
  {
    if |gs| > 0 {
      var p := gs[..|gs| - 1];
      LastIdWins(p, id);
      if id != gs[|gs| - 1].id && id in GateMap(p) {
        assert gs[GateMap(p)[id]] == p[GateMap(p)[id]];
      }
      if exists k :: 0 <= k < |gs| && gs[k].id == id {
        var k :| 0 <= k < |gs| && gs[k].id == id;
        if k < |gs| - 1 {
          assert p[k].id == id;
        }
      }
      if exists k :: 0 <= k < |p| && p[k].id == id {
        var k :| 0 <= k < |p| && p[k].id == id;
        assert gs[k].id == id;
      }
    }
  }

  /** The wire records whose two ids are both known, as pairs of gates. */
  function Resolve(m: map<int, GateIndex>, ws: seq<WireRecord>): (r: seq<WireRecord>)
    ensures |r| <= |ws|
  {
    if |ws| == 0 then []
    else
      (if ws[0].src in m && ws[0].dst in m then [WireRecord(m[ws[0].src], m[ws[0].dst])] else [])
      + Resolve(m, ws[1..])
  }

  lemma ResolveCons(m: map<int, GateIndex>, ws: seq<WireRecord>)
    requires |ws| > 0
    ensures Resolve(m, ws) == Resolve(m, [ws[0]]) + Resolve(m, ws[1..])
  {
    assert [ws[0]][1..] == [];
  }

  /** Every id in `m` names a gate of `c`. */
  predicate Targets(c: Circuit, m: map<int, GateIndex>) {
    forall id :: id in m ==> m[id] < |c.gates|
  }

  /** One pass of the wire loop of `deserialize`: a record whose two ids are
      both known becomes a `WireItem`, which raises when a point it joins is
      missing; any other record is skipped. No port count is checked. */
  function LoadWire(c: Circuit, m: map<int, GateIndex>, w: WireRecord): (r: Result<Circuit, LoadError>)
    requires Valid(c) && Targets(c, m)
    ensures Valid(LeftWith(r)) && SameGates(c, LeftWith(r))
    ensures Ends(LeftWith(r).wires) == Ends(c.wires) + Resolve(m, [w])
    ensures LeftWith(r).nextWire == c.nextWire + |Resolve(m, [w])|
    ensures r.Success? <==> AllDrawable(c.gates, Resolve(m, [w]))
    ensures r.Failure? ==> r.error.NoPoint?
  {
    assert [w][1..] == [];
    if w.src in m && w.dst in m then
      var d := AddWire(c, m[w.src], m[w.dst]);
      EndsSnoc(c.wires, Wire(c.nextWire, m[w.src], m[w.dst]));
      assert Resolve(m, [w]) == [WireRecord(m[w.src], m[w.dst])];
      if Drawable(c.gates, WireRecord(m[w.src], m[w.dst])) then Success(d)
      else
        assert !Drawable(c.gates, Resolve(m, [w])[0]);
        Failure(NoPoint(d))
    else
      assert Resolve(m, [w]) == [];
      Success(c)
  }

  /** The wire loop of `deserialize`, over the records in order; the first
      record that cannot be drawn ends it. */
  function LoadWires(c: Circuit, m: map<int, GateIndex>, ws: seq<WireRecord>): (r: Result<Circuit, LoadError>)
    requires Valid(c) && Targets(c, m)
    ensures Valid(LeftWith(r)) && SameGates(c, LeftWith(r))
    ensures r.Success? <==> AllDrawable(c.gates, Resolve(m, ws))
    ensures r.Success? ==>
      Ends(r.value.wires) == Ends(c.wires) + Resolve(m, ws) && r.value.nextWire == c.nextWire + |Resolve(m, ws)|
    ensures r.Failure? ==> r.error.NoPoint? && StoppedAt(c, r.error.partial, Resolve(m, ws))
    decreases |ws|
  {
    if |ws| == 0 then Success(c)
    else
      var h := LoadWire(c, m, ws[0]);
      ResolveCons(m, ws);
      if h.Failure? then
        LoadWiresHead(c, h.error.partial, Resolve(m, [ws[0]]), Resolve(m, ws[1..]));
        h
      else
        var r := LoadWires(h.value, m, ws[1..]);
        LoadWiresTail(c, h.value, LeftWith(r), r.Success?, Resolve(m, [ws[0]]), Resolve(m, ws[1..]));
        r
  }

  /** A record the first pass cannot draw ends the loop there. */
  lemma LoadWiresHead(c: Circuit, d: Circuit, h: seq<WireRecord>, t: seq<WireRecord>)
    requires |Ends(c.wires)| == |c.wires| && |Ends(d.wires)| == |d.wires|
    requires Ends(d.wires) == Ends(c.wires) + h && d.nextWire == c.nextWire + |h|
    requires |h| <= 1 && !AllDrawable(c.gates, h)
    ensures !AllDrawable(c.gates, h + t)
    ensures StoppedAt(c, d, h + t)
  {
    assert (h + t)[..1] == h;
    assert (h + t)[0] == h[0];
    assert (h + t)[..0] == [];
  }

  /** A record the first pass draws is followed by the rest of the loop,
      which runs on gates of the same kinds. */
  lemma LoadWiresTail(c: Circuit, d: Circuit, e: Circuit, ok: bool, h: seq<WireRecord>, t: seq<WireRecord>)
    requires SameGates(c, d) && |Ends(c.wires)| == |c.wires| && |Ends(d.wires)| == |d.wires|
    requires Ends(d.wires) == Ends(c.wires) + h && d.nextWire == c.nextWire + |h|
    requires AllDrawable(c.gates, h)
    requires ok <==> AllDrawable(d.gates, t)
    requires ok ==> Ends(e.wires) == Ends(d.wires) + t && e.nextWire == d.nextWire + |t|
    requires !ok ==> StoppedAt(d, e, t)
    ensures ok <==> AllDrawable(c.gates, h + t)
    ensures ok ==> Ends(e.wires) == Ends(c.wires) + (h + t) && e.nextWire == c.nextWire + |h + t|
    ensures !ok ==> StoppedAt(c, e, h + t)
  {
    DrawableByKinds(c.gates, d.gates, t);
    AllDrawableAppend(c.gates, h, t);
    if !ok {
      StoppedLater(c, d, e, h, t);
    }
  }

  lemma AllDrawableAppend(gates: seq<Gate>, h: seq<WireRecord>, t: seq<WireRecord>)
    ensures AllDrawable(gates, h + t) <==> AllDrawable(gates, h) && AllDrawable(gates, t)
  {
    var s := h + t;
    forall j | 0 <= j < |s| ensures s[j] == if j < |h| then h[j] else t[j - |h|] {
    }
    if AllDrawable(gates, s) {
      forall j | 0 <= j < |t| ensures Drawable(gates, t[j]) {
        assert s[|h| + j] == t[j];
      }
    }
  }

  /** Where the rest of the loop stops, the whole loop stops. */
  lemma StoppedLater(c: Circuit, d: Circuit, e: Circuit, h: seq<WireRecord>, t: seq<WireRecord>)
    requires SameGates(c, d) && |Ends(c.wires)| == |c.wires| && |Ends(d.wires)| == |d.wires|
    requires Ends(d.wires) == Ends(c.wires) + h && d.nextWire == c.nextWire + |h|
    requires AllDrawable(c.gates, h)
    requires StoppedAt(d, e, t)
    ensures StoppedAt(c, e, h + t)
  {
    var s := h + t;
    var k' := |e.wires| - |d.wires|;
    var k := |e.wires| - |c.wires|;
    assert k == k' + |h|;
    assert s[..k] == h + t[..k'];
    assert s[..k - 1] == h + t[..k' - 1];
    assert s[k - 1] == t[k' - 1];
    DrawableByKinds(c.gates, d.gates, t[..k' - 1]);
    AllDrawableAppend(c.gates, h, t[..k' - 1]);
  }

  /** The gates a load builds, before any wire: `Rebuilt` in an editor
      cleared of wires. */
  function Unwired(reg: Registry, gs: seq<GateRecord>): (c: Circuit)
    requires Registered(reg, gs)
    ensures Valid(c) && c.gates == Rebuilt(reg, gs) && c.wires == [] && c.nextWire == 0
  {
    var c := Circuit(Rebuilt(reg, gs), [], 0);
    UnwiredValid(c);
    c
  }

  /** The load of a document whose gate types are all registered: the gates
      in record order, then the wire loop. */
  function LoadRegistered(reg: Registry, gs: seq<GateRecord>, ws: seq<WireRecord>): (r: Result<Circuit, LoadError>)
    requires Registered(reg, gs)
    ensures Valid(LeftWith(r)) && SameGates(Unwired(reg, gs), LeftWith(r))
    ensures r.Success? <==> AllDrawable(Rebuilt(reg, gs), Resolve(GateMap(gs), ws))
    ensures r.Success? ==> Ends(r.value.wires) == Resolve(GateMap(gs), ws) && r.value.nextWire == |r.value.wires|
    ensures r.Failure? ==> r.error.NoPoint? && StoppedAt(Unwired(reg, gs), r.error.partial, Resolve(GateMap(gs), ws))
  {
    var c := Unwired(reg, gs);
    var r := LoadWires(c, GateMap(gs), ws);
    assert Ends(c.wires) == [];
    assert |Ends(LeftWith(r).wires)| == |LeftWith(r).wires|;
    r
  }

  /** `deserialize`, given the class registry: gates in record order, then
      the wires. */
  function Deserialize(reg: Registry, doc: Document): (r: Result<Circuit, LoadError>)
    ensures var gs := OrEmpty(doc.gates);
      r.Success? <==> Registered(reg, gs) && AllDrawable(Rebuilt(reg, gs), Resolve(GateMap(gs), OrEmpty(doc.wires)))
    ensures Valid(LeftWith(r))
    ensures r.Failure? ==> (r.error.UnknownGate? <==> !Registered(reg, OrEmpty(doc.gates)))
    ensures r.Failure? && r.error.UnknownGate? ==>
      var gs := OrEmpty(doc.gates);
      var k := |r.error.partial.gates|;
      && k < |gs| && r.error.name == gs[k].typeName && Lookup(reg, r.error.name).None?
      && Registered(reg, gs[..k])
      && r.error.partial.wires == []
      && r.error.partial.gates == Rebuilt(reg, gs[..k])
    ensures Registered(reg, OrEmpty(doc.gates)) ==>
      var gs := OrEmpty(doc.gates);
      var d := LeftWith(r);
      && |d.gates| == |gs|
      && (forall k :: 0 <= k < |gs| ==>
            d.gates[k].kind == reg[gs[k].typeName]
            && d.gates[k].pos == Position(gs[k].x, gs[k].y)
            && d.gates[k].state == None)
    ensures r.Success? ==>
      Ends(r.value.wires) == Resolve(GateMap(OrEmpty(doc.gates)), OrEmpty(doc.wires)) && r.value.nextWire == |r.value.wires|
    ensures r.Failure? && r.error.NoPoint? ==>
      var gs := OrEmpty(doc.gates);
      Registered(reg, gs) && StoppedAt(Unwired(reg, gs), r.error.partial, Resolve(GateMap(gs), OrEmpty(doc.wires)))
  {
    var gs := OrEmpty(doc.gates);
    var n := FirstUnknown(reg, gs);
    if n < |gs| then
      var c := Circuit(Rebuilt(reg, gs[..n]), [], 0);
      UnwiredValid(c);
      Failure(UnknownGate(gs[n].typeName, c))
    else
      assert gs[..n] == gs;
      LoadRegistered(reg, gs, OrEmpty(doc.wires))
  }

  /* ---------------------------------------------------------------------- */
  /* Round trip                                                             */
  /* ---------------------------------------------------------------------- */

  /** Records numbered `0, 1, ...` map every id to itself. */
  lemma {:induction false} GateMapOfNumbered(gs: seq<GateRecord>)
    requires forall k :: 0 <= k < |gs| ==> gs[k].id == k
    ensures forall k :: 0 <= k < |gs| ==> k in GateMap(gs) && GateMap(gs)[k] == k
    decreases |gs|
  {
    if |gs| > 0 {
      GateMapOfNumbered(gs[..|gs| - 1]);
    }
  }

  /** Resolving through the identity changes nothing when every id is in range. */
  lemma {:induction false} ResolveIdentity(m: map<int, GateIndex>, n: nat, ws: seq<WireRecord>)
    requires forall k :: 0 <= k < n ==> k in m && m[k] == k
    requires forall j :: 0 <= j < |ws| ==> 0 <= ws[j].src < n && 0 <= ws[j].dst < n
    ensures Resolve(m, ws) == ws
    decreases |ws|
  {
    if |ws| > 0 {
      var w := ws[0];
      assert m[w.src] == w.src && m[w.dst] == w.dst;
      ResolveIdentity(m, n, ws[1..]);
      assert Resolve(m, ws) == [w] + Resolve(m, ws[1..]);
      assert ws == [w] + ws[1..];
    }
  }

  /** Two records lists with the same elements are drawable together. */
  lemma AllDrawablePerm(gates: seq<Gate>, a: seq<WireRecord>, b: seq<WireRecord>)
    requires multiset(a) == multiset(b)
    ensures AllDrawable(gates, a) <==> AllDrawable(gates, b)
  {
    forall j | 0 <= j < |a| ensures a[j] in b {
      assert a[j] in multiset(b);
    }
    forall j | 0 <= j < |b| ensures b[j] in a {
      assert b[j] in multiset(a);
    }
  }

  /** Whether a record can be drawn depends only on the gates' kinds. */
  lemma DrawableByKinds(a: seq<Gate>, b: seq<Gate>, rs: seq<WireRecord>)
    requires |a| == |b| && forall i :: 0 <= i < |a| ==> a[i].kind == b[i].kind
    ensures AllDrawable(a, rs) <==> AllDrawable(b, rs)
  {
  }

  /** A registry that files every kind it holds under that kind's class name
      rebuilds the saved gates with their own kinds. */
  lemma RebuiltKinds(reg: Registry, c: Circuit)
    requires Registered(reg, GateRecords(c))
    requires forall name :: name in reg ==> ClassName(reg[name]) == name
    ensures forall i :: 0 <= i < |c.gates| ==> Rebuilt(reg, GateRecords(c))[i].kind == c.gates[i].kind
  {
    forall i | 0 <= i < |c.gates| ensures Rebuilt(reg, GateRecords(c))[i].kind == c.gates[i].kind {
      var k := reg[ClassName(c.gates[i].kind)];
      assert GateRecords(c)[i].typeName == ClassName(c.gates[i].kind);
      ClassNameInjective(k, c.gates[i].kind);
    }
  }

  lemma ClassNameInjective(a: Kind, b: Kind)
    requires ClassName(a) == ClassName(b)
    ensures a == b
  {
    match a
    case And => assert ClassName(b)[0] == 'A';
    case Or => assert ClassName(b)[0] == 'O';
    case Not => assert ClassName(b)[0] == 'N';
    case True => assert ClassName(b)[0] == 'T';
    case False => assert ClassName(b)[0] == 'F';
    case Led => assert ClassName(b)[0] == 'L';
  }

  /** Loading a saved document resolves every wire record to itself. */
  lemma SavedResolves(c: Circuit)
    requires Valid(c)
    ensures Resolve(GateMap(Serialize(c).gates.value), Serialize(c).wires.value) == Grouped(Table(c))
  {
    var doc := Serialize(c);
    var gs, ws := doc.gates.value, doc.wires.value;
    GateMapOfNumbered(gs);
    GroupedRange(Table(c), |c.gates|);
    ResolveIdentity(GateMap(gs), |c.gates|, ws);
  }

  /** The wires of a saved circuit can be drawn on the rebuilt gates exactly
      when the circuit's own wires can. */
  lemma SavedDrawable(reg: Registry, c: Circuit)
    requires Valid(c) && Registered(reg, GateRecords(c))
    requires forall name :: name in reg ==> ClassName(reg[name]) == name
    ensures var doc := Serialize(c);
      AllDrawable(Rebuilt(reg, doc.gates.value), Resolve(GateMap(doc.gates.value), doc.wires.value)) <==> Drawn(c)
  {
    var doc := Serialize(c);
    SavedResolves(c);
    RebuiltKinds(reg, c);
    DrawableByKinds(Rebuilt(reg, doc.gates.value), c.gates, Grouped(Table(c)));
    AllDrawablePerm(c.gates, Grouped(Table(c)), Ends(c.wires));
  }

  /** A circuit whose gates keep to their port counts has no wire at a missing
      point: TRUE and FALSE take no input, and the LED gives no output. */
  lemma WithinArityDrawn(c: Circuit)
    requires Valid(c) && WithinArity(c)
    ensures Drawn(c)
  {
    forall j | 0 <= j < |c.wires| ensures Drawable(c.gates, Ends(c.wires)[j]) {
      var w := c.wires[j];
      assert w in c.wires;
      ListsOfValid(c, w.src, Outgoing, w);
      ListsOfValid(c, w.dst, Incoming, w);
      assert |c.gates[w.src].outputs| > 0 && |c.gates[w.dst].inputs| > 0;
    }
  }

  /** The circuit a save followed by a load produces: when every wire joins
      an output point to an input point, the load succeeds. */
  function Reloaded(c: Circuit): (d: Circuit)
    requires Valid(c) && Drawn(c)
    ensures Deserialize(FullRegistry(), Serialize(c)).Success?
    ensures Valid(d)
  {
    var r := Deserialize(FullRegistry(), Serialize(c));
    assert Registered(FullRegistry(), Serialize(c).gates.value);
    SavedDrawable(FullRegistry(), c);
    r.value
  }

  /** After a save and a load every gate is rebuilt in its place, with its
      kind and position and a fresh state. */
  lemma ReloadedGates(c: Circuit)
    requires Valid(c) && Drawn(c)
    ensures Deserialize(FullRegistry(), Serialize(c)) == Success(Reloaded(c))
    ensures |Reloaded(c).gates| == |c.gates|
    ensures forall i :: 0 <= i < |c.gates| ==>
      Reloaded(c).gates[i].kind == c.gates[i].kind && Reloaded(c).gates[i].pos == c.gates[i].pos
      && Reloaded(c).gates[i].state == None
  {
    var gs := Serialize(c).gates.value;
    assert Registered(FullRegistry(), gs);
    var d := Reloaded(c);
    forall i | 0 <= i < |c.gates|
      ensures d.gates[i].kind == c.gates[i].kind && d.gates[i].pos == c.gates[i].pos && d.gates[i].state == None
    {
      assert gs[i] == GateRecord(i, ClassName(c.gates[i].kind), c.gates[i].pos.x, c.gates[i].pos.y);
    }
  }

  /** After a save and a load the live wires are the saved records, in
      record order. */
  lemma ReloadedWiring(c: Circuit)
    requires Valid(c) && Drawn(c)
    ensures Ends(Reloaded(c).wires) == Grouped(Table(c))
  {
    SavedResolves(c);
  }

  /** Every output list reaches the same gates in the same order. */
  lemma ReloadedOutputs(c: Circuit, i: GateIndex)
    requires Valid(c) && Drawn(c) && i < |c.gates|
    ensures OutDsts(Reloaded(c), i) == OutDsts(c, i)
  {
    ReloadedWiring(c);
    DstsOfEnds(Reloaded(c).wires, i);
    DstsOfGrouped(Table(c), i);
  }

  /** Gate `p` feeds gate `i` by as many wires after a save and a load as
      before. */
  lemma ReloadedSourceCount(c: Circuit, i: GateIndex, p: GateIndex)
    requires Valid(c) && Drawn(c) && i < |c.gates|
    ensures multiset(InSrcs(Reloaded(c), i))[p] == multiset(InSrcs(c, i))[p]
  {
    var d := Reloaded(c);
    ReloadedSize(c);
    if p < |c.gates| {
      ParallelCount(d, p, i);
      ParallelCount(c, p, i);
      ReloadedOutputs(c, p);
    } else {
      assert p !in InSrcs(d, i);
      assert p !in InSrcs(c, i);
    }
  }

  /** Every input list has the same sources, each as often as before. */
  lemma ReloadedInputs(c: Circuit, i: GateIndex)
    requires Valid(c) && Drawn(c) && i < |c.gates|
    ensures multiset(InSrcs(Reloaded(c), i)) == multiset(InSrcs(c, i))
  {
    forall p: GateIndex ensures multiset(InSrcs(Reloaded(c), i))[p] == multiset(InSrcs(c, i))[p] {
      ReloadedSourceCount(c, i, p);
    }
  }

  /** Saving the reloaded circuit writes the document that was loaded. */
  lemma ReloadedSaves(c: Circuit)
    requires Valid(c) && Drawn(c)
    ensures Serialize(Reloaded(c)) == Serialize(c)
  {
    ReloadedGates(c);
    ReloadedTable(c);
    SaveReadsWiring(c, Reloaded(c));
  }

  /** Saving reads only the gates' kinds and positions and their output
      lists' destinations. */
  lemma SaveReadsWiring(c: Circuit, d: Circuit)
    requires Valid(c) && Valid(d) && |d.gates| == |c.gates|
    requires forall i :: 0 <= i < |c.gates| ==> d.gates[i].kind == c.gates[i].kind && d.gates[i].pos == c.gates[i].pos
    requires Table(d) == Table(c)
    ensures Serialize(d) == Serialize(c)
  {
    assert GateRecords(d) == GateRecords(c);
  }

  lemma ReloadedTable(c: Circuit)
    requires Valid(c) && Drawn(c)
    ensures Table(Reloaded(c)) == Table(c)
  {
    var d := Reloaded(c);
    ReloadedSize(c);
    forall i | 0 <= i < |c.gates| ensures OutDsts(d, i) == OutDsts(c, i) {
      ReloadedOutputs(c, i);
    }
    TablesAgree(c, d);
  }

  /** Two circuits whose gates reach the same destinations save the same
      table. */
  lemma TablesAgree(c: Circuit, d: Circuit)
    requires InRange(c) && InRange(d) && |d.gates| == |c.gates|
    requires forall i :: 0 <= i < |c.gates| ==> OutDsts(d, i) == OutDsts(c, i)
    ensures Table(d) == Table(c)
  {
  }

  lemma ReloadedSize(c: Circuit)
    requires Valid(c) && Drawn(c)
    ensures |Reloaded(c).gates| == |c.gates|
  {
    ReloadedGates(c);
  }

  /** Saving and loading with every class registered: the load succeeds;
      every gate comes back with its kind and position and a fresh state;
      every gate's output list reaches the same gates in the same order;
      every gate's input list has the same sources, possibly reordered; and
      saving the result writes the same document again. */
  lemma RoundTrip(c: Circuit)
    requires Valid(c) && Drawn(c)
    ensures Deserialize(FullRegistry(), Serialize(c)) == Success(Reloaded(c))
    ensures var d := Reloaded(c);
      && |d.gates| == |c.gates|
      && (forall i :: 0 <= i < |c.gates| ==>
            d.gates[i].kind == c.gates[i].kind && d.gates[i].pos == c.gates[i].pos && d.gates[i].state == None)
      && (forall i :: 0 <= i < |c.gates| ==> OutDsts(d, i) == OutDsts(c, i))
      && (forall i :: 0 <= i < |c.gates| ==> multiset(InSrcs(d, i)) == multiset(InSrcs(c, i)))
      && Serialize(d) == Serialize(c)
  {
    var d := Reloaded(c);
    ReloadedGates(c);
    ReloadedSaves(c);
    forall i | 0 <= i < |c.gates| ensures OutDsts(d, i) == OutDsts(c, i) {
      ReloadedOutputs(c, i);
    }
    forall i | 0 <= i < |c.gates| ensures multiset(InSrcs(d, i)) == multiset(InSrcs(c, i)) {
      ReloadedInputs(c, i);
    }
  }

  /** A reloaded circuit is a fixed point of saving and loading. */
  lemma ReloadedIsFixed(c: Circuit)
    requires Valid(c) && Drawn(c)
    ensures Deserialize(FullRegistry(), Serialize(Reloaded(c))) == Success(Reloaded(c))
  {
    RoundTrip(c);
  }
}

=== FILE: editor.dfy ===
/** The editing operations of `LogicCircuitEditor`: the decision the wiring
    tool takes on its second click, the placement of a new gate from the
    toolbar, and the port-count invariant the wiring tool keeps. */
module Editor {
  import opened Wrappers
  import opened Gates
  import opened Circuits

  /** The `point_type` stored on a clicked connection point. */
  datatype Polarity = InputPoint | OutputPoint

  /** A clicked connection point: a gate of the editor and which of its points. */
  datatype Endpoint = Endpoint(gate: GateIndex, polarity: Polarity)

  /** The point exists on the gate: only such a point can be clicked. */
  predicate Clickable(c: Circuit, e: Endpoint) {
    e.gate < |c.gates| &&
    (if e.polarity == InputPoint then HasInputPoint(c.gates[e.gate].kind) else HasOutputPoint(c.gates[e.gate].kind))
  }

  /* ---------------------------------------------------------------------- */
  /* Port capacity                                                          */
  /* ---------------------------------------------------------------------- */

  /** Gate `i` may take one more incoming wire. */
  predicate InputSpare(c: Circuit, i: GateIndex)
    requires i < |c.gates|
  {
    HasSpare(InputArity(c.gates[i].kind), |c.gates[i].inputs|)
  }

  /** Gate `i` may take one more outgoing wire. */
  predicate OutputSpare(c: Circuit, i: GateIndex)
    requires i < |c.gates|
  {
    HasSpare(OutputArity(c.gates[i].kind), |c.gates[i].outputs|)
  }

  /** No gate has more wires on a side than its class declares. */
  predicate WithinArity(c: Circuit) {
    forall i :: 0 <= i < |c.gates| ==>
      Fits(InputArity(c.gates[i].kind), |c.gates[i].inputs|) && Fits(OutputArity(c.gates[i].kind), |c.gates[i].outputs|)
  }

  /* ---------------------------------------------------------------------- */
  /* The wiring tool                                                        */
  /* ---------------------------------------------------------------------- */

  /** What the second click decides. */
  datatype Decision =
    | Wired(src: GateIndex, dst: GateIndex)
    | SamePolarity
    | SourceFull
    | DestinationFull

  /** The endpoint on the output side of the pair. */
  function OutputEnd(first: Endpoint, second: Endpoint): GateIndex {
    if first.polarity == OutputPoint then first.gate else second.gate
  }

  /** The endpoint on the input side of the pair. */
  function InputEnd(first: Endpoint, second: Endpoint): GateIndex {
    if first.polarity == InputPoint then first.gate else second.gate
  }

  /** The second click of the wiring tool: two points of the same polarity
      create nothing; otherwise the wire runs from the gate whose output was
      clicked to the gate whose input was clicked, unless the source has no
      spare output (looked at first) or the destination no spare input. */
  function Decide(c: Circuit, first: Endpoint, second: Endpoint): (d: Decision)
    requires first.gate < |c.gates| && second.gate < |c.gates|
    ensures d == SamePolarity <==> first.polarity == second.polarity
    ensures d.Wired? <==>
      first.polarity != second.polarity && OutputSpare(c, OutputEnd(first, second)) && InputSpare(c, InputEnd(first, second))
    ensures d.Wired? ==> d.src == OutputEnd(first, second) && d.dst == InputEnd(first, second)
    ensures d == SourceFull <==> first.polarity != second.polarity && !OutputSpare(c, OutputEnd(first, second))
    ensures d.Wired? ==> (first.polarity == OutputPoint ==> d.src == first.gate && d.dst == second.gate)
    ensures d.Wired? ==> (first.polarity == InputPoint ==> d.src == second.gate && d.dst == first.gate)
  {
    if first.polarity == second.polarity then SamePolarity
    else
      var (s, t) := if first.polarity == OutputPoint then (first.gate, second.gate) else (second.gate, first.gate);
      if !OutputSpare(c, s) then SourceFull
      else if !InputSpare(c, t) then DestinationFull
      else Wired(s, t)
  }

  /** The effect of the second click: a new wire when the decision is to wire,
      and the circuit exactly as it was otherwise. */
  function Connect(c: Circuit, first: Endpoint, second: Endpoint): (r: Circuit)
    requires Valid(c) && first.gate < |c.gates| && second.gate < |c.gates|
    ensures Valid(r) && SameGates(c, r)
    ensures !Decide(c, first, second).Wired? ==> r == c
    ensures Decide(c, first, second).Wired? ==>
      r.wires == c.wires + [Wire(c.nextWire, OutputEnd(first, second), InputEnd(first, second))]
  {
    match Decide(c, first, second)
    case Wired(s, t) => AddWire(c, s, t)
    case _ => c
  }

  /** Clicking the two points in either order decides the same. */
  lemma ClickOrderIrrelevant(c: Circuit, a: Endpoint, b: Endpoint)
    requires a.gate < |c.gates| && b.gate < |c.gates|
    ensures Decide(c, a, b) == Decide(c, b, a)
  {
  }

  /** The wiring tool keeps every gate within its declared port counts. */
  lemma ConnectKeepsArity(c: Circuit, first: Endpoint, second: Endpoint)
    requires Valid(c) && WithinArity(c) && first.gate < |c.gates| && second.gate < |c.gates|
    ensures WithinArity(Connect(c, first, second))
  {
    var d := Decide(c, first, second);
    if d.Wired? {
      var r := Connect(c, first, second);
      forall i | 0 <= i < |r.gates|
        ensures Fits(InputArity(r.gates[i].kind), |r.gates[i].inputs|)
        ensures Fits(OutputArity(r.gates[i].kind), |r.gates[i].outputs|)
      {
        SpareIsStrictFit(InputArity(c.gates[i].kind), |c.gates[i].inputs|);
        SpareIsStrictFit(OutputArity(c.gates[i].kind), |c.gates[i].outputs|);
      }
    }
  }

  /** A TRUE or FALSE gate is never the destination of a new wire: it declares
      no input, so the capacity test refuses it even if its (absent) input
      point were clicked. */
  lemma ConstantsNeverDestination(c: Circuit, first: Endpoint, second: Endpoint)
    requires first.gate < |c.gates| && second.gate < |c.gates|
    requires c.gates[InputEnd(first, second)].kind in {True, False}
    ensures !Decide(c, first, second).Wired?
  {
  }

  /** An LED is never the source of a wire, and once it has one input it
      takes no other. */
  lemma LedLimits(c: Circuit, first: Endpoint, second: Endpoint)
    requires first.gate < |c.gates| && second.gate < |c.gates| && first.polarity != second.polarity
    ensures c.gates[OutputEnd(first, second)].kind == Led ==> Decide(c, first, second) == SourceFull
    ensures c.gates[InputEnd(first, second)].kind == Led && |c.gates[InputEnd(first, second)].inputs| >= 1 ==>
      !Decide(c, first, second).Wired?
  {
  }

  /** Between two gates of unbounded arity every opposite-polarity pair is
      wired, however many wires they already share, and also when both points
      belong to the same gate. */
  lemma UnboundedAlwaysAccepts(c: Circuit, first: Endpoint, second: Endpoint)
    requires first.gate < |c.gates| && second.gate < |c.gates| && first.polarity != second.polarity
    requires c.gates[OutputEnd(first, second)].kind != Led
    requires c.gates[InputEnd(first, second)].kind in {And, Or, Not}
    ensures Decide(c, first, second) == Wired(OutputEnd(first, second), InputEnd(first, second))
  {
  }

  /** Only points that exist can be clicked, and the two constants have no
      input point while the LED has no output point. */
  lemma ClickableByKind(c: Circuit, e: Endpoint)
    requires e.gate < |c.gates|
    ensures e.polarity == InputPoint ==> (Clickable(c, e) <==> c.gates[e.gate].kind !in {True, False})
    ensures e.polarity == OutputPoint ==> (Clickable(c, e) <==> c.gates[e.gate].kind != Led)
  {
    PointsByKind(c.gates[e.gate].kind);
  }

  /** Removing a wire or a gate only shortens lists, so it keeps every gate
      within its port counts. */
  lemma RemovalKeepsArity(c: Circuit, w: WireId, g: GateIndex)
    requires Valid(c) && WithinArity(c) && g < |c.gates|
    ensures RemoveWire(c, w).Success? ==> WithinArity(RemoveWire(c, w).value)
    ensures WithinArity(RemoveGate(c, g))
  {
    var r := RemoveGate(c, g);
    forall i | 0 <= i < |r.gates|
      ensures Fits(InputArity(r.gates[i].kind), |r.gates[i].inputs|)
      ensures Fits(OutputArity(r.gates[i].kind), |r.gates[i].outputs|)
    {
      assert ListOf(r.gates[i], Incoming) == Strip(ListOf(c.gates[i], Incoming), Incident(c, g));
      assert ListOf(r.gates[i], Outgoing) == Strip(ListOf(c.gates[i], Outgoing), Incident(c, g));
    }
    if RemoveWire(c, w).Success? {
      var d := RemoveWire(c, w).value;
      RemoveWireKeepsOrder(c, w);
      forall i | 0 <= i < |d.gates|
        ensures Fits(InputArity(d.gates[i].kind), |d.gates[i].inputs|)
        ensures Fits(OutputArity(d.gates[i].kind), |d.gates[i].outputs|)
      {
        assert ListOf(d.gates[i], Incoming) == Strip(ListOf(c.gates[i], Incoming), {w});
        assert ListOf(d.gates[i], Outgoing) == Strip(ListOf(c.gates[i], Outgoing), {w});
      }
    }
  }

  /* ---------------------------------------------------------------------- */
  /* Placing gates                                                          */
  /* ---------------------------------------------------------------------- */

  /** The toolbar name of the tool that places a gate of kind `k`. */
  function ToolName(k: Kind): string {
    match k
    case False => "GATE_FALSE"
    case True => "GATE_TRUE"
    case Led => "GATE_LED"
    case And => "GATE_AND"
    case Or => "GATE_OR"
    case Not => "GATE_NOT"
  }

  /** `possible_gates.get(tool)`. */
  function ToolKind(tool: string): (r: Option<Kind>)
    ensures r.Some? ==> ToolName(r.value) == tool
    ensures r.None? ==> forall k :: ToolName(k) != tool
  {
    if tool == "GATE_FALSE" then Some(False)
    else if tool == "GATE_TRUE" then Some(True)
    else if tool == "GATE_LED" then Some(Led)
    else if tool == "GATE_AND" then Some(And)
    else if tool == "GATE_OR" then Some(Or)
    else if tool == "GATE_NOT" then Some(Not)
    else None
  }

  /** Every gate tool is known under its own name. */
  lemma ToolKindInvertsToolName(k: Kind)
    ensures ToolKind(ToolName(k)) == Some(k)
  {
  }

  /** Python's `int(x)` on a float: truncation toward zero. */
  function Truncate(x: real): (n: int)
    ensures x >= 0.0 ==> 0 <= n && n as real <= x < n as real + 1.0
    ensures x < 0.0 ==> n <= 0 && n as real - 1.0 < x <= n as real
  {
    if x >= 0.0 then x.Floor else -((-x).Floor)
  }

  /** Truncation and Dafny's floor part ways exactly on negative non-integers. */
  lemma TruncateVersusFloor(x: real)
    ensures Truncate(x) == x.Floor <==> x >= 0.0 || x == x.Floor as real
  {
  }

  /** The top-left corner of a gate placed at a click: the click moved 40
      left and 20 up, each coordinate truncated to an integer. */
  function Corner(click: Position): (p: Position)
    ensures p.x == Truncate(click.x - 40.0) as real && p.y == Truncate(click.y - 20.0) as real
  {
    Position(Truncate(click.x - 40.0) as real, Truncate(click.y - 20.0) as real)
  }

  /** A gate tool whose name is missing from `possible_gates`: `gate` is
      `None` and calling it raises. */
  datatype PlaceError = NotCallable

  predicate IsGateTool(tool: string) {
    |tool| >= 5 && tool[..5] == "GATE_"
  }

  /** A click on the canvas: with a gate tool selected, a fresh gate of the
      tool's kind is appended to the end of the gate list; with any other tool
      nothing is placed. */
  function Place(c: Circuit, tool: string, click: Position): (r: Result<Circuit, PlaceError>)
    requires Valid(c)
    ensures r.Failure? <==> IsGateTool(tool) && ToolKind(tool).None?
    ensures r.Success? ==> Valid(r.value) && r.value.wires == c.wires && r.value.nextWire == c.nextWire
    ensures r.Success? && !IsGateTool(tool) ==> r.value == c
    ensures r.Success? && IsGateTool(tool) ==>
      r.value.gates == c.gates + [NewGate(ToolKind(tool).value, Corner(click))]
  {
    if !IsGateTool(tool) then Success(c)
    else match ToolKind(tool)
      case None => Failure(NotCallable)
      case Some(k) =>
        var r := AddGate(c, k, Corner(click));
        assert r.gates == r.gates[..|c.gates|] + [r.gates[|c.gates|]];
        Success(r)
  }

  /** A sequence of placements: the gates land at the end of the list in the
      order they were placed, so evaluation order is creation order. */
  function PlaceAll(c: Circuit, kinds: seq<Kind>, at: seq<Position>): (r: Circuit)
    requires Valid(c) && |at| == |kinds|
    ensures Valid(r) && r.wires == c.wires && r.nextWire == c.nextWire
    ensures r.gates == c.gates + FreshGates(kinds, at)
    decreases |kinds|
  {
    if |kinds| == 0 then
      assert c.gates + FreshGates(kinds, at) == c.gates;
      c
    else
      var d := AddGate(c, kinds[0], at[0]);
      var r := PlaceAll(d, kinds[1..], at[1..]);
      PlaceAllStep(c.gates, d.gates, r.gates, kinds, at);
      r
  }

  /** The gates a run of placements creates, in placement order. */
  function FreshGates(kinds: seq<Kind>, at: seq<Position>): (r: seq<Gate>)
    requires |at| == |kinds|
    ensures |r| == |kinds|
    ensures forall j :: 0 <= j < |kinds| ==> r[j] == NewGate(kinds[j], at[j])
  {
    seq(|kinds|, j requires 0 <= j < |kinds| => NewGate(kinds[j], at[j]))
  }

  lemma PlaceAllStep(before: seq<Gate>, mid: seq<Gate>, after: seq<Gate>, kinds: seq<Kind>, at: seq<Position>)
    requires |at| == |kinds| > 0
    requires |mid| == |before| + 1 && mid[..|before|] == before && mid[|before|] == NewGate(kinds[0], at[0])
    requires after == mid + FreshGates(kinds[1..], at[1..])
    ensures after == before + FreshGates(kinds, at)
  {
    var n := |before|;
    var made := FreshGates(kinds, at);
    var rest := FreshGates(kinds[1..], at[1..]);
    forall j | 0 <= j < |after| ensures after[j] == (before + made)[j] {
      if j < n {
        assert after[j] == mid[..n][j];
      } else if j > n {
        assert after[j] == rest[j - n - 1];
      }
    }
  }

  /** The five gates the editor starts with, in this order. */
  function InitialCircuit(): (c: Circuit)
    ensures Valid(c) && WithinArity(c) && |c.wires| == 0
    ensures |c.gates| == 5
    ensures c.gates[0] == NewGate(And, Position(50.0, 50.0)) && c.gates[1] == NewGate(Or, Position(250.0, 100.0))
    ensures c.gates[2] == NewGate(True, Position(50.0, 100.0)) && c.gates[3] == NewGate(Led, Position(250.0, 50.0))
    ensures c.gates[4] == NewGate(False, Position(50.0, 50.0))
  {
    var c := Circuit([NewGate(And, Position(50.0, 50.0)), NewGate(Or, Position(250.0, 100.0)),
                      NewGate(True, Position(50.0, 100.0)), NewGate(Led, Position(250.0, 50.0)),
                      NewGate(False, Position(50.0, 50.0))], [], 0);
    UnwiredValid(c);
    FreshWithinArity(c);
    c
  }

  /** Gates with empty lists and no wires form a valid circuit. */
  lemma UnwiredValid(c: Circuit)
    requires |c.wires| == 0
    requires forall i :: 0 <= i < |c.gates| ==> c.gates[i].inputs == [] && c.gates[i].outputs == []
    ensures Valid(c)
  {
    forall i | 0 <= i < |c.gates|
      ensures c.gates[i].inputs == Listing(c.wires, i, Incoming) && c.gates[i].outputs == Listing(c.wires, i, Outgoing)
    {
      assert AttachedTo(c.wires, i, Incoming) == [] && AttachedTo(c.wires, i, Outgoing) == [];
    }
  }

  /** A circuit without wires keeps every gate within its port counts. */
  lemma FreshWithinArity(c: Circuit)
    requires Valid(c) && |c.wires| == 0
    ensures WithinArity(c)
  {
    forall i | 0 <= i < |c.gates| ensures |c.gates[i].inputs| == 0 && |c.gates[i].outputs| == 0 {
      assert c.gates[i].inputs == Listing(c.wires, i, Incoming);
      assert c.gates[i].outputs == Listing(c.wires, i, Outgoing);
    }
  }
}

=== FILE: findings.dfy ===
/** Places where the code as written departs from what it evidently means to
    do. Each is modelled twice: as written, with the input that shows the
    difference, and corrected, with the intended property proved. The rest of
    the model uses the corrected forms (and keeps the NOT rule a parameter). */
module Findings {
  import opened Wrappers
  import opened Gates
  import opened Circuits
  import opened Editor
  import opened Codec
  import opened Propagation

  /* ---------------------------------------------------------------------- */
  /* NOT passes its input through                                           */
  /* ---------------------------------------------------------------------- */

  /** As written, a NOT gate copies its first input: a determined input
      comes out unchanged, where an inverter would flip it. */
  lemma NotAsWrittenCopies(inputs: seq<Tri>)
    requires |inputs| > 0 && inputs[0].Some?
    ensures NotOutput(PassThrough, inputs) == inputs[0]
    ensures NotOutput(PassThrough, inputs) != NotOutput(Negate, inputs)
  {
  }

  /** The corrected NOT flips every determined input and keeps `None`. */
  lemma NotNegates(inputs: seq<Tri>, b: bool)
    requires |inputs| > 0
    ensures inputs[0] == Some(b) ==> NotOutput(Negate, inputs) == Some(!b)
    ensures inputs[0] == None ==> NotOutput(Negate, inputs) == None
    ensures NotOutput(Negate, [NotOutput(Negate, inputs)]) == inputs[0]
  {
  }

  /* ---------------------------------------------------------------------- */
  /* Three gate classes never register                                      */
  /* ---------------------------------------------------------------------- */

  /** Only the classes deriving from the registering base class are in the
      registry as written: `AndGate`, `OrGate` and `TrueGate`. `NotGate`,
      `FalseGate` and `LEDGate` derive from the older base in
      `gates/gate_item.py`, which registers nothing. */
  function AsWrittenRegistry(): (reg: Registry)
    ensures forall k :: ClassName(k) in reg <==> Registers(k)
    ensures forall name :: name in reg ==> ClassName(reg[name]) == name
  {
    map[ClassName(And) := And, ClassName(Or) := Or, ClassName(True) := True]
  }

  predicate Registers(k: Kind) {
    k == And || k == Or || k == True
  }

  /** With the registry as written, a document saved from a circuit (as the
      single base would save it: as written the save of a circuit holding a
      NOT, FALSE or LED gate already raises, `SerializeAsWritten`) loads back
      exactly when it holds no NOT, FALSE or LED gate and every wire joins an
      output point to an input point. */
  lemma AsWrittenLoads(c: Circuit)
    requires Valid(c)
    ensures Deserialize(AsWrittenRegistry(), Serialize(c)).Success?
        <==> (forall i :: 0 <= i < |c.gates| ==> Registers(c.gates[i].kind)) && Drawn(c)
  {
    var doc := Serialize(c);
    assert OrEmpty(doc.gates) == GateRecords(c);
    RegisteredKinds(c);
    if Registered(AsWrittenRegistry(), GateRecords(c)) {
      SavedDrawable(AsWrittenRegistry(), c);
    }
  }

  lemma RegisteredKinds(c: Circuit)
    ensures Registered(AsWrittenRegistry(), GateRecords(c))
        <==> forall i :: 0 <= i < |c.gates| ==> Registers(c.gates[i].kind)
  {
    var gs := GateRecords(c);
    assert forall i :: 0 <= i < |c.gates| ==> gs[i].typeName == ClassName(c.gates[i].kind);
  }

  /** Loading stops at the first record whose type is not registered. */
  lemma LoadStopsAt(reg: Registry, doc: Document, n: nat)
    requires n < |OrEmpty(doc.gates)| && OrEmpty(doc.gates)[n].typeName !in reg
    requires forall j :: 0 <= j < n ==> OrEmpty(doc.gates)[j].typeName in reg
    ensures Deserialize(reg, doc).Failure? && Deserialize(reg, doc).error.UnknownGate?
    ensures Deserialize(reg, doc).error.name == OrEmpty(doc.gates)[n].typeName
    ensures |Deserialize(reg, doc).error.partial.gates| == n
  {
    var gs := OrEmpty(doc.gates);
    var k := |Deserialize(reg, doc).error.partial.gates|;
    assert gs[..k][..] == gs[..k];
    assert forall j :: 0 <= j < k ==> gs[..k][j] == gs[j];
    assert k <= n;
  }

  /** A file listing the gates of the circuit the editor starts with, in the
      form the single base saves them, does not load as written: loading
      stops at the LED, the fourth record, keeping the first three gates. */
  lemma InitialCircuitDoesNotReload()
    ensures var r := Deserialize(AsWrittenRegistry(), Serialize(InitialCircuit()));
      r.Failure? && r.error.UnknownGate? && r.error.name == "LEDGate" && |r.error.partial.gates| == 3
  {
    var c := InitialCircuit();
    var doc := Serialize(c);
    var gs := doc.gates.value;
    var reg := AsWrittenRegistry();
    assert gs == GateRecords(c);
    assert ClassName(And) in reg && ClassName(Or) in reg && ClassName(True) in reg;
    assert ClassName(Led) !in reg by {
      assert !Registers(Led);
    }
    assert gs[0].typeName in reg && gs[1].typeName in reg && gs[2].typeName in reg;
    assert gs[3].typeName == "LEDGate" && gs[3].typeName !in reg;
    forall j | 0 <= j < 3 ensures gs[j].typeName in reg {
    }
    LoadStopsAt(reg, doc, 3);
  }

  /** A hand-written file holding a single NOT gate does not load as
      written: its class was never registered, and nothing is built. */
  lemma NotFileRejected()
    ensures var r := Deserialize(AsWrittenRegistry(), Document(Some([GateRecord(0, "NotGate", 0.0, 0.0)]), None));
      r.Failure? && r.error.UnknownGate? && r.error.name == "NotGate"
      && r.error.partial.gates == [] && r.error.partial.wires == []
  {
    var doc := Document(Some([GateRecord(0, "NotGate", 0.0, 0.0)]), None);
    assert ClassName(Not) !in AsWrittenRegistry() by {
      assert !Registers(Not);
    }
    LoadStopsAt(AsWrittenRegistry(), doc, 0);
  }

  /* ---------------------------------------------------------------------- */
  /* Saving a gate built on the older base                                  */
  /* ---------------------------------------------------------------------- */

  /** The classes that register are exactly those built on the base with
      `connected_outputs`; this finds the first gate that is not. */
  function FirstOldBase(gs: seq<Gate>): (r: Option<nat>)
    ensures r.None? <==> forall i :: 0 <= i < |gs| ==> Registers(gs[i].kind)
    ensures r.Some? ==> r.value < |gs| && !Registers(gs[r.value].kind)
    ensures r.Some? ==> forall i :: 0 <= i < r.value ==> Registers(gs[i].kind)
  {
    if |gs| == 0 then None
    else if !Registers(gs[0].kind) then Some(0)
    else match FirstOldBase(gs[1..])
      case None => None
      case Some(j) => Some(j + 1)
  }

  /** `serialize` fails at the gate `at`. */
  datatype SaveError = NoOutputList(at: nat)

  /** `serialize` as written: every gate record is written first, then the
      wire loop reads `connected_outputs`, which the older base never
      defines, so the save raises at the first NOT, FALSE or LED gate in the
      list and nothing is written out. Otherwise it is the corrected save. */
  function SerializeAsWritten(c: Circuit): (r: Result<Document, SaveError>)
    requires Valid(c)
    ensures r.Success? <==> forall i :: 0 <= i < |c.gates| ==> Registers(c.gates[i].kind)
    ensures r.Success? ==> r.value == Serialize(c)
    ensures r.Failure? ==> r.error.at < |c.gates| && !Registers(c.gates[r.error.at].kind)
    ensures r.Failure? ==> forall i :: 0 <= i < r.error.at ==> Registers(c.gates[i].kind)
  {
    match FirstOldBase(c.gates)
    case Some(i) => Failure(NoOutputList(i))
    case None => Success(Serialize(c))
  }

  /** Whatever the program as written manages to save, it also loads back,
      exactly when every wire joins an output point to an input point: the
      unregistered classes never reach a saved file. */
  lemma SavedAsWrittenLoads(c: Circuit)
    requires Valid(c) && SerializeAsWritten(c).Success?
    ensures Deserialize(AsWrittenRegistry(), SerializeAsWritten(c).value).Success? <==> Drawn(c)
    ensures Deserialize(AsWrittenRegistry(), SerializeAsWritten(c).value).Failure? ==>
      Deserialize(AsWrittenRegistry(), SerializeAsWritten(c).value).error.NoPoint?
  {
    AsWrittenLoads(c);
    RegisteredKinds(c);
  }

  /** The circuit the editor starts with cannot be saved as written: the
      save raises at the LED, the fourth gate. */
  lemma InitialCircuitSaveFails()
    ensures SerializeAsWritten(InitialCircuit()) == Failure(NoOutputList(3))
  {
    var c := InitialCircuit();
    assert Registers(c.gates[0].kind) && Registers(c.gates[1].kind) && Registers(c.gates[2].kind);
    assert !Registers(c.gates[3].kind);
  }

  /** With every class registered, a saved circuit loads back exactly when
      every wire joins an output point to an input point, which every circuit
      built within the port counts does (`Codec.RoundTrip` states what comes
      back). */
  lemma FullRegistryLoads(c: Circuit)
    requires Valid(c)
    ensures Deserialize(FullRegistry(), Serialize(c)).Success? <==> Drawn(c)
    ensures WithinArity(c) ==> Deserialize(FullRegistry(), Serialize(c)).Success?
  {
    assert Serialize(c).gates.value == GateRecords(c);
    assert Registered(FullRegistry(), GateRecords(c));
    SavedDrawable(FullRegistry(), c);
    if WithinArity(c) {
      WithinArityDrawn(c);
    }
  }

  /* ---------------------------------------------------------------------- */
  /* The removal cascade meets a self-loop twice                            */
  /* ---------------------------------------------------------------------- */

  /** No entry occurs twice. */
  predicate Distinct(ws: seq<WireId>) {
    forall j, k :: 0 <= j < k < |ws| ==> ws[j] != ws[k]
  }

  /** Why `GateItem.remove` as written stops, with the circuit as it stands
      at that moment: the wires detached before the exception stay detached. */
  datatype Crash = RecursionLimit(partial: Circuit) | WireNotListed(partial: Circuit)

  /** `for wire in list(connected_inputs + connected_outputs): wire.remove()`
      as written: `wire.remove()` calls `list.remove`, which raises
      `ValueError` when the wire is no longer listed, so the loop stops at the
      first wire met a second time, with the wires before it detached. */
  function CascadeAsWritten(c: Circuit, ws: seq<WireId>): (r: Result<Circuit, Crash>)
    requires Valid(c)
    ensures r.Success? ==> Valid(r.value) && SameGates(c, r.value) && r.value.nextWire == c.nextWire
    ensures r.Failure? ==> Valid(r.error.partial) && SameGates(c, r.error.partial) && r.error.partial.nextWire == c.nextWire
    ensures r.Failure? ==> r.error.WireNotListed?
    decreases |ws|
  {
    if |ws| == 0 then Success(c)
    else match RemoveWire(c, ws[0])
      case Failure(_) => Failure(WireNotListed(c))
      case Success(d) => CascadeAsWritten(d, ws[1..])
  }

  lemma LiveIff(ws: seq<Wire>, x: WireId)
    ensures x in Ids(ws) <==> exists y :: y in ws && y.id == x
  {
    if x in Ids(ws) {
      var j :| 0 <= j < |ws| && Ids(ws)[j] == x;
      assert ws[j] in ws;
    }
    if exists y :: y in ws && y.id == x {
      var y :| y in ws && y.id == x;
      var j :| 0 <= j < |ws| && ws[j] == y;
      assert Ids(ws)[j] == x;
    }
  }

  /** Removing a live wire kills exactly that wire. */
  lemma LiveAfterRemove(c: Circuit, w: WireId, x: WireId)
    requires Valid(c) && Live(c, w)
    ensures Live(RemoveWire(c, w).value, x) <==> Live(c, x) && x != w
  {
    LiveIff(c.wires, x);
    LiveIff(RemoveWire(c, w).value.wires, x);
  }

  /** As written, the cascade succeeds exactly when every listed wire is
      live and none is listed twice; it then removes the same wires as the
      corrected cascade. */
  lemma {:induction false} CascadeAsWrittenIff(c: Circuit, ws: seq<WireId>)
    requires Valid(c)
    ensures CascadeAsWritten(c, ws).Success? <==> (forall j :: 0 <= j < |ws| ==> Live(c, ws[j])) && Distinct(ws)
    ensures CascadeAsWritten(c, ws).Success? ==> CascadeAsWritten(c, ws).value == DetachAll(c, ws)
    decreases |ws|
  {
    if |ws| > 0 && Live(c, ws[0]) {
      var d := RemoveWire(c, ws[0]).value;
      var rest := ws[1..];
      CascadeAsWrittenIff(d, rest);
      assert DetachOne(c, ws[0]) == d;
      forall j | 0 <= j < |rest| ensures Live(d, rest[j]) <==> Live(c, rest[j]) && rest[j] != ws[0] {
        LiveAfterRemove(c, ws[0], rest[j]);
      }
      if (forall j :: 0 <= j < |ws| ==> Live(c, ws[j])) && Distinct(ws) {
        assert forall j :: 0 <= j < |rest| ==> rest[j] == ws[j + 1];
      }
      if CascadeAsWritten(c, ws).Success? {
        forall j, k | 0 <= j < k < |ws| ensures ws[j] != ws[k] {
          if j > 0 {
            assert rest[j - 1] == ws[j] && rest[k - 1] == ws[k];
          } else {
            assert Live(d, rest[k - 1]);
          }
        }
        forall j | 0 <= j < |ws| ensures Live(c, ws[j]) {
          if j > 0 {
            assert Live(d, rest[j - 1]);
          }
        }
      }
    }
  }

  /** The cascade over `ws` stopped at entry `k`, the first that is not live
      or repeats an earlier one, leaving `p`: every earlier entry detached. */
  predicate StopsAt(c: Circuit, ws: seq<WireId>, k: int, p: Circuit)
    requires Valid(c)
  {
    && 0 <= k < |ws|
    && p == DetachAll(c, ws[..k])
    && (forall j :: 0 <= j < k ==> Live(c, ws[j]))
    && Distinct(ws[..k])
    && (!Live(c, ws[k]) || ws[k] in ws[..k])
  }

  /** Where the cascade as written stops, and what it leaves. */
  lemma {:induction false} CascadeAsWrittenStops(c: Circuit, ws: seq<WireId>)
    requires Valid(c) && CascadeAsWritten(c, ws).Failure?
    ensures exists k :: StopsAt(c, ws, k, CascadeAsWritten(c, ws).error.partial)
    decreases |ws|
  {
    var p := CascadeAsWritten(c, ws).error.partial;
    if !Live(c, ws[0]) {
      assert StopsAt(c, ws, 0, p);
    } else {
      var d := RemoveWire(c, ws[0]).value;
      assert CascadeAsWritten(c, ws) == CascadeAsWritten(d, ws[1..]);
      CascadeAsWrittenStops(d, ws[1..]);
      var k' :| StopsAt(d, ws[1..], k', p);
      StopsLater(c, ws, k', p);
    }
  }

  /** A stop in the rest of the list, after a live head was detached, is a
      stop one entry further on in the whole list. */
  lemma StopsLater(c: Circuit, ws: seq<WireId>, k': int, p: Circuit)
    requires Valid(c) && |ws| > 0 && Live(c, ws[0])
    requires StopsAt(RemoveWire(c, ws[0]).value, ws[1..], k', p)
    ensures StopsAt(c, ws, k' + 1, p)
  {
    var d := RemoveWire(c, ws[0]).value;
    var rest := ws[1..];
    var k := k' + 1;
    assert DetachOne(c, ws[0]) == d;
    assert ws[..k][0] == ws[0] && ws[..k][1..] == rest[..k'];
    assert p == DetachAll(c, ws[..k]);
    forall j | 0 <= j < k ensures Live(c, ws[j]) && (j > 0 ==> ws[j] != ws[0]) {
      if j > 0 {
        assert ws[j] == rest[j - 1];
        LiveAfterRemove(c, ws[0], ws[j]);
      }
    }
    StopsLaterDistinct(ws, k);
    LiveAfterRemove(c, ws[0], rest[k']);
    assert ws[k] == rest[k'];
    if rest[k'] in rest[..k'] {
      var j :| 0 <= j < k' && rest[..k'][j] == rest[k'];
      assert ws[..k][j + 1] == rest[k'];
    } else if Live(c, rest[k']) {
      assert ws[..k][0] == rest[k'];
    }
  }

  lemma StopsLaterDistinct(ws: seq<WireId>, k: int)
    requires 0 < k <= |ws| && Distinct(ws[1..][..k - 1])
    requires forall j :: 0 < j < k ==> ws[j] != ws[0]
    ensures Distinct(ws[..k])
  {
    forall i, j | 0 <= i < j < k ensures ws[..k][i] != ws[..k][j] {
      if i > 0 {
        assert ws[..k][i] == ws[1..][..k - 1][i - 1] && ws[..k][j] == ws[1..][..k - 1][j - 1];
      }
    }
  }

  /** Every id a gate lists is live. */
  lemma ListedIsLive(c: Circuit, g: GateIndex, x: WireId)
    requires Valid(c) && g < |c.gates|
    requires x in c.gates[g].inputs + c.gates[g].outputs
    ensures Live(c, x)
  {
    IncidentListed(c, g);
    LiveIff(c.wires, x);
  }

  /** An id in both of a gate's lists belongs to a self-loop, and a
      self-loop's id is in both. */
  lemma SharedIffSelfLoop(c: Circuit, g: GateIndex, x: WireId)
    requires Valid(c) && g < |c.gates|
    ensures x in c.gates[g].inputs && x in c.gates[g].outputs
        <==> exists w :: w in c.wires && w.id == x && w.src == g && w.dst == g
  {
    if x in c.gates[g].inputs && x in c.gates[g].outputs {
      ListedIsLive(c, g, x);
      LiveIff(c.wires, x);
      var w :| w in c.wires && w.id == x;
      ListsOfValid(c, g, Incoming, w);
      ListsOfValid(c, g, Outgoing, w);
    }
    if exists w :: w in c.wires && w.id == x && w.src == g && w.dst == g {
      var w :| w in c.wires && w.id == x && w.src == g && w.dst == g;
      ListsOfValid(c, g, Incoming, w);
      ListsOfValid(c, g, Outgoing, w);
    }
  }

  /** Each of a gate's lists is free of repeats, so the two together repeat
      an id exactly when they share one. */
  lemma ListedDistinct(c: Circuit, g: GateIndex)
    requires Valid(c) && g < |c.gates|
    ensures Distinct(c.gates[g].inputs + c.gates[g].outputs)
        <==> forall x :: !(x in c.gates[g].inputs && x in c.gates[g].outputs)
  {
    var ins, outs := c.gates[g].inputs, c.gates[g].outputs;
    var ws := ins + outs;
    var dummy := Wire(0, 0, 0);
    ListsOfValid(c, g, Incoming, dummy);
    ListsOfValid(c, g, Outgoing, dummy);
    assert ListOf(c.gates[g], Incoming) == ins && ListOf(c.gates[g], Outgoing) == outs;
    if exists x :: x in ins && x in outs {
      var x :| x in ins && x in outs;
      var j :| 0 <= j < |ins| && ins[j] == x;
      var k :| 0 <= k < |outs| && outs[k] == x;
      assert ws[j] == ws[|ins| + k];
    } else {
      forall j, k | 0 <= j < k < |ws| ensures ws[j] != ws[k] {
        if k < |ins| {
          assert ws[j] == ins[j] && ws[k] == ins[k];
        } else if j >= |ins| {
          assert ws[j] == outs[j - |ins|] && ws[k] == outs[k - |ins|];
        } else {
          assert ws[j] in ins && ws[k] in outs;
          assert !(ws[j] in ins && ws[j] in outs);
        }
      }
    }
  }

  /** As written, removing a gate crashes exactly when one of its wires is a
      self-loop: that wire sits in both of the gate's lists, and the second
      `list.remove` finds it gone. */
  lemma SelfLoopCrashes(c: Circuit, g: GateIndex)
    requires Valid(c) && g < |c.gates|
    ensures CascadeAsWritten(c, c.gates[g].inputs + c.gates[g].outputs).Failure?
        <==> exists w :: w in c.wires && w.src == g && w.dst == g
  {
    var ws := c.gates[g].inputs + c.gates[g].outputs;
    CascadeAsWrittenIff(c, ws);
    forall j | 0 <= j < |ws| ensures Live(c, ws[j]) {
      ListedIsLive(c, g, ws[j]);
    }
    ListedDistinct(c, g);
    if exists w :: w in c.wires && w.src == g && w.dst == g {
      var w :| w in c.wires && w.src == g && w.dst == g;
      SharedIffSelfLoop(c, g, w.id);
    } else {
      forall x ensures !(x in c.gates[g].inputs && x in c.gates[g].outputs) {
        SharedIffSelfLoop(c, g, x);
      }
    }
  }

  /** Without a self-loop the cascade as written ends where the corrected
      removal does. */
  lemma CascadeAgreesWithoutSelfLoop(c: Circuit, g: GateIndex)
    requires Valid(c) && g < |c.gates|
    requires forall w :: w in c.wires ==> !(w.src == g && w.dst == g)
    ensures CascadeAsWritten(c, c.gates[g].inputs + c.gates[g].outputs) == Success(RemoveGate(c, g))
  {
    SelfLoopCrashes(c, g);
    CascadeAsWrittenIff(c, c.gates[g].inputs + c.gates[g].outputs);
  }

  /** One AND gate whose output is wired back into its own input, which the
      wiring tool allows as written. */
  function SelfLoop(): (c: Circuit)
    ensures Valid(c) && |c.gates| == 1 && c.wires == [Wire(0, 0, 0)]
  {
    AddWire(AddGate(EmptyCircuit(), And, Position(0.0, 0.0)), 0, 0)
  }

  /** As written, removing the gate of `SelfLoop` crashes on the second
      `list.remove` of its one wire, after the first has detached it; the
      corrected removal leaves the gate with no wires. */
  lemma SelfLoopExample()
    ensures var c := SelfLoop();
      var r := CascadeAsWritten(c, c.gates[0].inputs + c.gates[0].outputs);
      r.Failure? && r.error.partial.wires == []
    ensures RemoveGate(SelfLoop(), 0).wires == []
  {
    SelfLoopCascade();
    SelfLoopRemoved();
  }

  /** The loop as written meets the one wire twice: the first pass detaches
      it, the second raises. */
  lemma SelfLoopCascade()
    ensures var c := SelfLoop();
      var r := CascadeAsWritten(c, c.gates[0].inputs + c.gates[0].outputs);
      r.Failure? && r.error.partial.wires == []
  {
    var c := SelfLoop();
    var w := Wire(0, 0, 0);
    assert AttachedTo(c.wires, 0, Incoming) == [w] && AttachedTo(c.wires, 0, Outgoing) == [w];
    assert c.gates[0].inputs + c.gates[0].outputs == [0, 0];
    assert Live(c, 0);
    var d := RemoveWire(c, 0).value;
    assert d.wires == [] by {
      assert forall x :: x in d.wires <==> x in c.wires && x.id !in {0};
    }
    assert !Live(d, 0);
    assert CascadeAsWritten(c, [0, 0]) == CascadeAsWritten(d, [0]);
  }

  /** The corrected removal takes the one wire away. */
  lemma SelfLoopRemoved()
    ensures RemoveGate(SelfLoop(), 0).wires == []
  {
    var r := RemoveGate(SelfLoop(), 0);
    assert forall x :: x !in r.wires;
  }

  /* ---------------------------------------------------------------------- */
  /* Removing a gate removes every gate, forever                           */
  /* ---------------------------------------------------------------------- */

  /** `GateItem.remove` as written, given how many more nested calls the
      interpreter allows: the wire cascade, then `gate.remove()` for every
      gate of the editor in list order. The gate list never shrinks, so the
      first of those calls starts the same loop again. Either exception leaves
      the circuit as the completed cascades made it. */
  function RemoveAsWritten(c: Circuit, g: GateIndex, depth: nat): (r: Result<Circuit, Crash>)
    requires Valid(c) && g < |c.gates|
    ensures r.Success? ==> Valid(r.value) && SameGates(c, r.value) && r.value.nextWire == c.nextWire
    ensures r.Failure? ==> Valid(r.error.partial) && SameGates(c, r.error.partial) && r.error.partial.nextWire == c.nextWire
    decreases depth, 0, 0
  {
    if depth == 0 then Failure(RecursionLimit(c))
    else match CascadeAsWritten(c, c.gates[g].inputs + c.gates[g].outputs)
      case Failure(e) => Failure(e)
      case Success(d) => RemoveEach(d, 0, depth - 1)
  }

  /** `for gate in self.editor.gates[k:]: gate.remove()`. */
  function RemoveEach(c: Circuit, k: nat, depth: nat): (r: Result<Circuit, Crash>)
    requires Valid(c) && k <= |c.gates|
    ensures r.Success? ==> Valid(r.value) && SameGates(c, r.value) && r.value.nextWire == c.nextWire
    ensures r.Failure? ==> Valid(r.error.partial) && SameGates(c, r.error.partial) && r.error.partial.nextWire == c.nextWire
    decreases depth, 1, |c.gates| - k
  {
    if k == |c.gates| then Success(c)
    else
      var d :- RemoveAsWritten(c, k, depth);
      RemoveEach(d, k + 1, depth)
  }

  /** As written, removing a gate never returns normally, however deep the
      interpreter lets it recurse. The corrected removal is
      `Circuits.RemoveGate`, a total function. */
  lemma {:induction false} RemoveNeverReturns(c: Circuit, g: GateIndex, depth: nat)
    requires Valid(c) && g < |c.gates|
    ensures RemoveAsWritten(c, g, depth).Failure?
    decreases depth
  {
    if depth > 0 {
      var r := CascadeAsWritten(c, c.gates[g].inputs + c.gates[g].outputs);
      if r.Success? {
        RemoveNeverReturns(r.value, 0, depth - 1);
      }
    }
  }

  /** A wire loop that completes is followed by `remove` on every gate. */
  lemma RemoveThenEach(c: Circuit, g: GateIndex, depth: nat, d: Circuit)
    requires Valid(c) && g < |c.gates| && depth > 0
    requires CascadeAsWritten(c, c.gates[g].inputs + c.gates[g].outputs) == Success(d)
    ensures Valid(d) && |d.gates| == |c.gates|
    ensures RemoveAsWritten(c, g, depth) == RemoveEach(d, 0, depth - 1)
  {
  }

  /** When removing gate 0 fails, the loop over the editor's gates fails
      there, with the same error. */
  lemma EachStopsAtFirst(c: Circuit, depth: nat, e: Crash)
    requires Valid(c) && |c.gates| > 0 && RemoveAsWritten(c, 0, depth) == Failure(e)
    ensures RemoveEach(c, 0, depth) == Failure(e)
  {
  }

  /** Once gate 0 has no wires, removing it as written only recurses, and
      the recursion limit leaves the circuit as it is. */
  lemma {:induction false} IdleRecursion(c: Circuit, depth: nat)
    requires Valid(c) && |c.gates| > 0 && c.gates[0].inputs == [] && c.gates[0].outputs == []
    ensures RemoveAsWritten(c, 0, depth) == Failure(RecursionLimit(c))
    decreases depth
  {
    if depth > 0 {
      assert c.gates[0].inputs + c.gates[0].outputs == [];
      IdleRecursion(c, depth - 1);
    }
  }

  /** What removing gate 0 as written leaves behind when it has no
      self-loop: its wires are detached exactly as the corrected removal
      detaches them, and the recursion then runs to the limit without
      changing anything more. */
  lemma RemoveLeavesDetached(c: Circuit, depth: nat)
    requires Valid(c) && |c.gates| > 0 && depth >= 1
    requires forall w :: w in c.wires ==> !(w.src == 0 && w.dst == 0)
    ensures RemoveAsWritten(c, 0, depth) == Failure(RecursionLimit(RemoveGate(c, 0)))
  {
    CascadeAgreesWithoutSelfLoop(c, 0);
    IdleAfter(c, depth, RemoveGate(c, 0));
  }

  /** A wire loop that leaves gate 0 without wires is followed by idle
      recursion. */
  lemma IdleAfter(d: Circuit, depth: nat, e: Circuit)
    requires Valid(d) && |d.gates| > 0 && depth >= 1
    requires CascadeAsWritten(d, d.gates[0].inputs + d.gates[0].outputs) == Success(e)
    requires e.gates[0].inputs == [] && e.gates[0].outputs == []
    ensures RemoveAsWritten(d, 0, depth) == Failure(RecursionLimit(e))
  {
    RemoveThenEach(d, 0, depth, e);
    IdleRecursion(e, depth - 1);
    EachStopsAtFirst(e, depth - 1, RecursionLimit(e));
  }

  /* ---------------------------------------------------------------------- */
  /* A round stops at the first gate whose compute_output raises            */
  /* ---------------------------------------------------------------------- */

  /** As written, `compute_output` raises `AttributeError` on two classes:
      `LEDGate` defines none, and `NotGate`'s reads `connected_inputs`, which
      its base class in gates/gate_item.py never sets. */
  predicate RaisesAsWritten(k: Kind) {
    k == Led || k == Not
  }

  /** Where a round as written stopped: the gate whose `compute_output`
      raised, and the states written before it. */
  datatype Halt = Halt(at: nat, states: seq<Tri>)

  /** The first `k` gates of a round of `simulation_step` as written: the
      exception leaves the loop, so no later gate is visited and the step
      does not recurse. */
  function SweepAsWritten(rule: NotRule, c: Circuit, s: seq<Tri>, k: nat): (r: Result<Pass, Halt>)
    requires InRange(c) && |s| == |c.gates| && k <= |s|
    ensures r.Success? ==> |r.value.states| == |s|
    decreases k
  {
    if k == 0 then Success(Pass(s, false))
    else
      var p :- SweepAsWritten(rule, c, s, k - 1);
      if RaisesAsWritten(c.gates[k - 1].kind) then Failure(Halt(k - 1, p.states))
      else
        var v := Eval(rule, c, p.states, k - 1);
        Success(if v != p.states[k - 1] then Pass(p.states[k - 1 := v], true) else p)
  }

  /** As written, a sweep completes exactly when none of its gates raises,
      and then agrees with the corrected sweep; otherwise it stops at the
      first gate that raises, holding what the corrected sweep had written
      up to there. */
  lemma SweepAsWrittenAgrees(rule: NotRule, c: Circuit, s: seq<Tri>, k: nat)
    requires InRange(c) && |s| == |c.gates| && k <= |s|
    ensures SweepAsWritten(rule, c, s, k).Success? <==> forall i :: 0 <= i < k ==> !RaisesAsWritten(c.gates[i].kind)
    ensures SweepAsWritten(rule, c, s, k).Success? ==> SweepAsWritten(rule, c, s, k).value == Sweep(rule, c, s, k)
    ensures SweepAsWritten(rule, c, s, k).Failure? ==>
      var h := SweepAsWritten(rule, c, s, k).error;
      && h.at < k && RaisesAsWritten(c.gates[h.at].kind)
      && (forall i :: 0 <= i < h.at ==> !RaisesAsWritten(c.gates[i].kind))
      && h.states == Sweep(rule, c, s, h.at).states
  {
    AsWrittenCompletes(rule, c, s, k);
    if SweepAsWritten(rule, c, s, k).Success? {
      CompletedAsCorrected(rule, c, s, k);
    } else {
      AsWrittenHalts(rule, c, s, k);
    }
  }

  /** A sweep as written completes exactly when none of its gates raises. */
  lemma {:induction false} AsWrittenCompletes(rule: NotRule, c: Circuit, s: seq<Tri>, k: nat)
    requires InRange(c) && |s| == |c.gates| && k <= |s|
    ensures SweepAsWritten(rule, c, s, k).Success? <==> forall i :: 0 <= i < k ==> !RaisesAsWritten(c.gates[i].kind)
    decreases k
  {
    if k > 0 {
      AsWrittenCompletes(rule, c, s, k - 1);
    }
  }

  /** A sweep as written that completes is the corrected sweep. */
  lemma {:induction false} CompletedAsCorrected(rule: NotRule, c: Circuit, s: seq<Tri>, k: nat)
    requires InRange(c) && |s| == |c.gates| && k <= |s| && SweepAsWritten(rule, c, s, k).Success?
    ensures SweepAsWritten(rule, c, s, k).value == Sweep(rule, c, s, k)
    decreases k
  {
    if k > 0 {
      assert SweepAsWritten(rule, c, s, k - 1).Success?;
      CompletedAsCorrected(rule, c, s, k - 1);
    }
  }

  /** The failure half: the sweep stops at the first gate that raises. */
  lemma {:induction false} AsWrittenHalts(rule: NotRule, c: Circuit, s: seq<Tri>, k: nat)
    requires InRange(c) && |s| == |c.gates| && k <= |s| && SweepAsWritten(rule, c, s, k).Failure?
    ensures var h := SweepAsWritten(rule, c, s, k).error;
      && h.at < k && RaisesAsWritten(c.gates[h.at].kind)
      && (forall i :: 0 <= i < h.at ==> !RaisesAsWritten(c.gates[i].kind))
      && h.states == Sweep(rule, c, s, h.at).states
    decreases k
  {
    if SweepAsWritten(rule, c, s, k - 1).Failure? {
      AsWrittenHalts(rule, c, s, k - 1);
    } else {
      AsWrittenCompletes(rule, c, s, k - 1);
      CompletedAsCorrected(rule, c, s, k - 1);
    }
  }

  /** As written, the first round over the editor's initial gates raises at
      the LED, the fourth gate, so the FALSE gate after it is never
      evaluated; the corrected round gives it its value. */
  lemma InitialRoundHalts(rule: NotRule)
    ensures var c := InitialCircuit();
      SweepAsWritten(rule, c, States(c), 5) == Failure(Halt(3, [None, None, Some(true), None, None]))
    ensures var c := InitialCircuit();
      Round(rule, c, States(c)).states[4] == Some(false)
  {
    var c := InitialCircuit();
    var s := States(c);
    assert s == [None, None, None, None, None];
    HaltsAtLed(rule, c, s);
    InitialFirstThree(rule, c, s);
    ConstantsAfterRound(rule, c, s, 4);
  }

  /** The LED is the first initial gate whose `compute_output` raises. */
  lemma HaltsAtLed(rule: NotRule, c: Circuit, s: seq<Tri>)
    requires c == InitialCircuit() && s == [None, None, None, None, None]
    ensures SweepAsWritten(rule, c, s, 5) == Failure(Halt(3, Sweep(rule, c, s, 3).states))
  {
    SweepAsWrittenAgrees(rule, c, s, 5);
    assert RaisesAsWritten(c.gates[3].kind);
    assert !RaisesAsWritten(c.gates[0].kind) && !RaisesAsWritten(c.gates[1].kind) && !RaisesAsWritten(c.gates[2].kind);
  }

  /** The corrected sweep over the first three initial gates: AND and OR stay
      undetermined without inputs, TRUE becomes true. */
  lemma InitialFirstThree(rule: NotRule, c: Circuit, s: seq<Tri>)
    requires c == InitialCircuit() && s == [None, None, None, None, None]
    ensures Sweep(rule, c, s, 3).states == [None, None, Some(true), None, None]
  {
    forall i: GateIndex, t: seq<Tri> | i < 5 && |t| == 5 ensures Inputs(c, t, i) == [] {
      AttachedNone(c.wires, i, Incoming);
    }
    SweepStep(rule, c, s, 1);
    assert Eval(rule, c, s, 0) == AndOutput([]) == None;
    SweepStep(rule, c, s, 2);
    assert Eval(rule, c, s, 1) == OrOutput([]) == None;
    SweepStep(rule, c, s, 3);
    assert Sweep(rule, c, s, 2).states == s;
  }
}

=== FILE: gates.dfy ===
/** The catalogue of gate classes: the closed set of kinds, the port counts each
    kind declares, the class-name registry used when a saved circuit is loaded,
    and the pure output function of every kind, including the display value and
    colour of the LED sink. */
module Gates {
  import opened Wrappers

  /** The value a gate holds: `None` while it is not yet determined. */
  type Tri = Option<bool>

  /** One constructor per gate class of the editor. */
  datatype Kind = And | Or | Not | True | False | Led

  /** A declared port count; `None` stands for the source's `math.inf`. */
  type Arity = Option<nat>

  function InputArity(k: Kind): Arity {
    match k
    case And => None
    case Or => None
    case Not => None
    case True => Some(0)
    case False => Some(0)
    case Led => Some(1)
  }

  function OutputArity(k: Kind): Arity {
    match k
    case And => None
    case Or => None
    case Not => None
    case True => None
    case False => None
    case Led => Some(0)
  }

  /** The editor's capacity test negated: `used >= limit` means full, and no
      count reaches an unbounded limit. */
  predicate HasSpare(limit: Arity, used: nat) {
    limit.None? || used < limit.value
  }

  /** `used` ports do not exceed the declared count. */
  predicate Fits(limit: Arity, used: nat) {
    limit.None? || used <= limit.value
  }

  /** The `n > 0` test that decides whether a gate gets a clickable point. */
  predicate Positive(limit: Arity) {
    limit.None? || limit.value > 0
  }

  predicate HasInputPoint(k: Kind) {
    Positive(InputArity(k))
  }

  predicate HasOutputPoint(k: Kind) {
    Positive(OutputArity(k))
  }

  /** Only the two constants lack an input point, and only the LED lacks an
      output point. */
  lemma PointsByKind(k: Kind)
    ensures HasInputPoint(k) <==> k != True && k != False
    ensures HasOutputPoint(k) <==> k != Led
  {
  }

  /** A full port is exactly one that has no spare capacity left: the
      capacity test and the arity bound agree. */
  lemma SpareIsStrictFit(limit: Arity, used: nat)
    ensures HasSpare(limit, used) <==> Fits(limit, used + 1)
  {
  }

  /* ---------------------------------------------------------------------- */
  /* Class names and the registry                                           */
  /* ---------------------------------------------------------------------- */

  /** The Python class name, which is what a saved circuit records. */
  function ClassName(k: Kind): string {
    match k
    case And => "AndGate"
    case Or => "OrGate"
    case Not => "NotGate"
    case True => "TrueGate"
    case False => "FalseGate"
    case Led => "LEDGate"
  }

  type Registry = map<string, Kind>

  /** Every gate class registered under its own class name. */
  function FullRegistry(): (reg: Registry)
    ensures forall k :: ClassName(k) in reg && reg[ClassName(k)] == k
    ensures forall name :: name in reg ==> ClassName(reg[name]) == name
  {
    map[ClassName(And) := And, ClassName(Or) := Or, ClassName(Not) := Not,
        ClassName(True) := True, ClassName(False) := False, ClassName(Led) := Led]
  }

  /** `registry.get(name)`. */
  function Lookup(reg: Registry, name: string): (r: Option<Kind>)
    ensures r.Some? <==> name in reg
    ensures r.Some? ==> reg[name] == r.value
  {
    if name in reg then Some(reg[name]) else None
  }

  /** With every class registered, decoding a type name is the inverse of
      `ClassName` on the closed set of kinds, and every other name is unknown. */
  lemma LookupInvertsClassName(name: string, k: Kind)
    ensures Lookup(FullRegistry(), ClassName(k)) == Some(k)
    ensures Lookup(FullRegistry(), name) == Some(k) ==> name == ClassName(k)
    ensures Lookup(FullRegistry(), name).None? <==> forall k' :: ClassName(k') != name
  {
    var reg := FullRegistry();
    if Lookup(reg, name).None? {
      forall k' ensures ClassName(k') != name {
        assert ClassName(k') in reg;
      }
    } else {
      assert ClassName(reg[name]) == name;
    }
  }

  /* ---------------------------------------------------------------------- */
  /* Output functions                                                       */
  /* ---------------------------------------------------------------------- */

  /** Python's `all` over a list of states: `None` and `False` are falsy. */
  function All(xs: seq<Tri>): (r: bool)
    ensures r <==> forall j :: 0 <= j < |xs| ==> xs[j] == Some(true)
  {
    if |xs| == 0 then true else xs[0] == Some(true) && All(xs[1..])
  }

  /** Python's `any` over a list of states. */
  function Any(xs: seq<Tri>): (r: bool)
    ensures r <==> exists j :: 0 <= j < |xs| && xs[j] == Some(true)
  {
    if |xs| == 0 then false else xs[0] == Some(true) || Any(xs[1..])
  }

  /** A list without `None` holds only determined values. */
  lemma Determined(xs: seq<Tri>)
    requires None !in xs
    ensures forall j :: 0 <= j < |xs| ==> xs[j] == Some(true) || xs[j] == Some(false)
  {
    forall j | 0 <= j < |xs|
      ensures xs[j] == Some(true) || xs[j] == Some(false)
    {
      assert xs[j] in xs;
      assert xs[j] != None;
      if xs[j].value {
        assert xs[j] == Some(true);
      } else {
        assert xs[j] == Some(false);
      }
    }
  }

  /** `AndGate.compute_output`: undetermined while unconnected or while some
      input is undetermined, otherwise the conjunction of the inputs. */
  function AndOutput(inputs: seq<Tri>): (r: Tri)
    ensures r == None <==> |inputs| == 0 || None in inputs
    ensures r == Some(true) <==> |inputs| > 0 && forall j :: 0 <= j < |inputs| ==> inputs[j] == Some(true)
    ensures r == Some(false) <==> None !in inputs && Some(false) in inputs
  {
    if None in inputs || |inputs| == 0 then None
    else
      Determined(inputs);
      Some(All(inputs))
  }

  /** `OrGate.compute_output`: undetermined while unconnected or while some
      input is undetermined, otherwise the disjunction of the inputs. */
  function OrOutput(inputs: seq<Tri>): (r: Tri)
    ensures r == None <==> |inputs| == 0 || None in inputs
    ensures r == Some(true) <==> None !in inputs && Some(true) in inputs
    ensures r == Some(false) <==> |inputs| > 0 && forall j :: 0 <= j < |inputs| ==> inputs[j] == Some(false)
  {
    if None in inputs || |inputs| == 0 then None
    else
      Determined(inputs);
      Some(Any(inputs))
  }

  /** How a NOT gate treats its first input: `PassThrough` is the behaviour of
      `NotGate.compute_output` as written, `Negate` the inversion its name and
      drawing promise. */
  datatype NotRule = PassThrough | Negate

  function Negated(v: Tri): (r: Tri)
    ensures r.None? <==> v.None?
    ensures r.Some? ==> r.value != v.value
  {
    match v
    case None => None
    case Some(b) => Some(!b)
  }

  /** `NotGate.compute_output`: undetermined while unconnected, otherwise a
      function of the first-connected input only. */
  function NotOutput(rule: NotRule, inputs: seq<Tri>): (r: Tri)
    ensures |inputs| == 0 ==> r == None
    ensures |inputs| > 0 && rule == PassThrough ==> r == inputs[0]
    ensures |inputs| > 0 && rule == Negate ==> r == Negated(inputs[0])
  {
    if |inputs| == 0 then None
    else match rule
      case PassThrough => inputs[0]
      case Negate => Negated(inputs[0])
  }

  /** Every kind but the LED defines `compute_output`. */
  predicate HasCompute(k: Kind) {
    k != Led
  }

  /** `compute_output` dispatched on the kind; the constants ignore their inputs. */
  function Compute(rule: NotRule, k: Kind, inputs: seq<Tri>): (r: Tri)
    requires HasCompute(k)
    ensures k == True ==> r == Some(true)
    ensures k == False ==> r == Some(false)
    ensures k == And ==> r == AndOutput(inputs)
    ensures k == Or ==> r == OrOutput(inputs)
    ensures k == Not ==> r == NotOutput(rule, inputs)
  {
    match k
    case And => AndOutput(inputs)
    case Or => OrOutput(inputs)
    case Not => NotOutput(rule, inputs)
    case True => Some(true)
    case False => Some(false)
  }

  /** AND and OR read their inputs as a bag: reordering the connected wires
      never changes their output. */
  lemma {:induction false} AndOrIgnoreOrder(a: seq<Tri>, b: seq<Tri>)
    requires multiset(a) == multiset(b)
    ensures AndOutput(a) == AndOutput(b)
    ensures OrOutput(a) == OrOutput(b)
  {
    assert |a| == |multiset(a)| == |multiset(b)| == |b|;
    forall v: Tri ensures v in a <==> v in b {
      assert v in a <==> v in multiset(a);
      assert v in b <==> v in multiset(b);
    }
  }

  /** Only the first connected input of a NOT gate matters. */
  lemma NotReadsFirstOnly(rule: NotRule, a: seq<Tri>, b: seq<Tri>)
    requires |a| > 0 && |b| > 0 && a[0] == b[0]
    ensures NotOutput(rule, a) == NotOutput(rule, b)
  {
  }

  /** When a gate's output is determined, under either NOT rule: always for
      the constants, for AND and OR exactly when every one of at least one
      input is, and for NOT exactly when its first-connected input is. */
  lemma ComputeDetermined(rule: NotRule, k: Kind, inputs: seq<Tri>)
    requires HasCompute(k)
    ensures Compute(rule, k, inputs).Some? <==>
      || k == True || k == False
      || ((k == And || k == Or) && |inputs| > 0 && None !in inputs)
      || (k == Not && |inputs| > 0 && inputs[0].Some?)
  {
  }

  /* ---------------------------------------------------------------------- */
  /* The LED sink                                                           */
  /* ---------------------------------------------------------------------- */

  datatype LedError = UnsupportedOperation

  /** `LEDGate.eval` applied to the states of its sources: no source shows
      `None`, one source shows that source's state, and more than one raises. */
  function LedEval(inputs: seq<Tri>): (r: Result<Tri, LedError>)
    ensures r.Failure? <==> |inputs| > 1
    ensures |inputs| == 0 ==> r == Success(None)
    ensures |inputs| == 1 ==> r == Success(inputs[0])
  {
    if |inputs| == 0 then Success(None)
    else if |inputs| == 1 then Success(inputs[0])
    else Failure(UnsupportedOperation)
  }

  datatype Colour = LightGray | Green | Red

  /** The brush `update_color` picks for a displayed value. */
  function ColourOf(v: Tri): (c: Colour)
    ensures c == LightGray <==> v == None
    ensures c == Green <==> v == Some(true)
    ensures c == Red <==> v == Some(false)
  {
    match v
    case None => LightGray
    case Some(b) => if b then Green else Red
  }

  /** The part of an LED's state that `update_color` reads and writes: the last
      displayed value (`eval_result`) and the brush. */
  datatype LedView = LedView(shown: Tri, colour: Colour)

  /** A fresh LED: `eval_result` is `None` and the base class paints it light gray. */
  function FreshView(): (v: LedView)
    ensures Consistent(v) && v.shown == None
  {
    LedView(None, LightGray)
  }

  /** The brush matches the remembered value. */
  predicate Consistent(v: LedView) {
    v.colour == ColourOf(v.shown)
  }

  /** `update_color`: nothing happens when the value equals the last one shown;
      otherwise the value is remembered and the brush repainted. */
  function UpdateColor(v: LedView, value: Tri): (r: LedView)
    ensures r.shown == value
    ensures value == v.shown ==> r == v
    ensures value != v.shown ==> r.colour == ColourOf(value)
    ensures Consistent(v) ==> Consistent(r)
  {
    if v.shown == value then v else LedView(value, ColourOf(value))
  }

  /** Refreshing twice with the same value is the same as refreshing once, and
      from a consistent view the brush always shows the value's colour. */
  lemma UpdateColorSettles(v: LedView, value: Tri)
    requires Consistent(v)
    ensures UpdateColor(UpdateColor(v, value), value) == UpdateColor(v, value)
    ensures UpdateColor(v, value).colour == ColourOf(value)
  {
  }
}

=== FILE: propagation.dfy ===
/** `simulation_step`: rounds over the gate list in list order, each gate's
    new state written at once so that gates later in the same round read it
    (Gauss–Seidel relaxation), repeated while a round changed anything. The
    source repeats without bound; here the number of rounds is capped by
    `fuel` and the outcome says whether the circuit settled. The LED gate is
    not updated by a round: its value is read by its display. */
module Propagation {
  import opened Wrappers
  import opened Gates
  import opened Circuits
  import opened Editor

  /** The states of the sources of gate `i`'s input wires, in connection
      order: the list the gate classes compute from. */
  function SourceStates(c: Circuit, i: GateIndex): (r: seq<Tri>)
    requires InRange(c)
    ensures |r| == |InSrcs(c, i)|
    ensures forall j :: 0 <= j < |r| ==> r[j] == c.gates[InSrcs(c, i)[j]].state
  {
    var s := InSrcs(c, i);
    seq(|s|, j requires 0 <= j < |s| => c.gates[s[j]].state)
  }

  /** Under the invariant there is one state per listed input wire, namely the
      state of that wire's source gate. */
  lemma SourceStatesFollowInputs(c: Circuit, i: GateIndex)
    requires Valid(c) && i < |c.gates|
    ensures |SourceStates(c, i)| == |c.gates[i].inputs|
    ensures forall j :: 0 <= j < |c.gates[i].inputs| ==>
      Wire(c.gates[i].inputs[j], InSrcs(c, i)[j], i) in c.wires && SourceStates(c, i)[j] == c.gates[InSrcs(c, i)[j]].state
  {
    PeersOfListed(c, i, Incoming);
  }

  /** The gates' states, in list order. Wiring never changes while the
      simulation runs, so a round is computed on this list alone. */
  function States(c: Circuit): (s: seq<Tri>)
    ensures |s| == |c.gates|
    ensures forall i :: 0 <= i < |c.gates| ==> s[i] == c.gates[i].state
  {
    seq(|c.gates|, i requires 0 <= i < |c.gates| => c.gates[i].state)
  }

  /** `c` with its gates' states replaced by `s`. */
  function WithStates(c: Circuit, s: seq<Tri>): (r: Circuit)
    requires |s| == |c.gates|
    ensures SameWiring(c, r) && States(r) == s
  {
    var r := c.(gates := seq(|c.gates|, i requires 0 <= i < |c.gates| => c.gates[i].(state := s[i])));
    assert States(r) == s;
    r
  }

  lemma WithOwnStates(c: Circuit)
    ensures WithStates(c, States(c)) == c
  {
    assert WithStates(c, States(c)).gates == c.gates;
  }

  /** The states, under `s`, of the sources of gate `i`'s input wires, in
      connection order. */
  function Inputs(c: Circuit, s: seq<Tri>, i: GateIndex): (r: seq<Tri>)
    requires InRange(c) && |s| == |c.gates|
    ensures |r| == |InSrcs(c, i)|
    ensures forall j :: 0 <= j < |r| ==> r[j] == s[InSrcs(c, i)[j]]
  {
    var srcs := InSrcs(c, i);
    seq(|srcs|, j requires 0 <= j < |srcs| => s[srcs[j]])
  }

  /** The value `compute_output` gives gate `i` when the gates hold `s`; the
      LED, which has no `compute_output`, keeps its state. */
  function Eval(rule: NotRule, c: Circuit, s: seq<Tri>, i: GateIndex): Tri
    requires InRange(c) && |s| == |c.gates| && i < |c.gates|
  {
    var k := c.gates[i].kind;
    if HasCompute(k) then Compute(rule, k, Inputs(c, s, i)) else s[i]
  }

  /** The value `compute_output` gives gate `i` of `c` as it stands. */
  function NewState(rule: NotRule, c: Circuit, i: GateIndex): Tri
    requires InRange(c) && i < |c.gates|
  {
    Eval(rule, c, States(c), i)
  }

  /** The states after a round has visited gates `0 .. k-1`, and whether any
      of them changed. */
  datatype Pass = Pass(states: seq<Tri>, changed: bool)

  /** The first `k` gates of a round, visited in list order; a gate's state is
      written only when its computed value differs from it, and every later
      gate computes from the states written so far. */
  function Sweep(rule: NotRule, c: Circuit, s: seq<Tri>, k: nat): (p: Pass)
    requires InRange(c) && |s| == |c.gates| && k <= |s|
    ensures |p.states| == |s|
    ensures forall i :: k <= i < |s| ==> p.states[i] == s[i]
    decreases k
  {
    if k == 0 then Pass(s, false)
    else
      var p := Sweep(rule, c, s, k - 1);
      var v := Eval(rule, c, p.states, k - 1);
      if v != p.states[k - 1] then Pass(p.states[k - 1 := v], true)
      else p
  }

  /** One round of `simulation_step`: every gate visited once, in list order. */
  function Round(rule: NotRule, c: Circuit, s: seq<Tri>): (p: Pass)
    requires InRange(c) && |s| == |c.gates|
    ensures |p.states| == |s|
  {
    Sweep(rule, c, s, |s|)
  }

  /** One step of a round, in either branch: gate `k-1` is given its computed
      value and the change flag records whether that value was new. */
  lemma SweepStep(rule: NotRule, c: Circuit, s: seq<Tri>, k: nat)
    requires InRange(c) && |s| == |c.gates| && 0 < k <= |s|
    ensures var p := Sweep(rule, c, s, k - 1);
      var v := Eval(rule, c, p.states, k - 1);
      Sweep(rule, c, s, k) == Pass(p.states[k - 1 := v], p.changed || v != s[k - 1])
  {
    var p := Sweep(rule, c, s, k - 1);
    var v := Eval(rule, c, p.states, k - 1);
    if v == p.states[k - 1] {
      assert p.states[k - 1 := v] == p.states;
    }
  }

  /** The flag raised by the first `k` steps says exactly that one of the
      first `k` states differs from before. */
  lemma {:induction false} SweepChanged(rule: NotRule, c: Circuit, s: seq<Tri>, k: nat)
    requires InRange(c) && |s| == |c.gates| && k <= |s|
    ensures Sweep(rule, c, s, k).changed <==> exists i :: 0 <= i < k && Sweep(rule, c, s, k).states[i] != s[i]
    decreases k
  {
    if k > 0 {
      SweepChanged(rule, c, s, k - 1);
      SweepStep(rule, c, s, k);
      var p := Sweep(rule, c, s, k - 1).states;
      var q := Sweep(rule, c, s, k).states;
      assert forall i :: 0 <= i < k - 1 ==> q[i] == p[i];
    }
  }

  /** The flag a round reports is raised exactly when some gate's state
      differs from its state before the round. */
  lemma RoundChanged(rule: NotRule, c: Circuit, s: seq<Tri>)
    requires InRange(c) && |s| == |c.gates|
    ensures Round(rule, c, s).changed <==> Round(rule, c, s).states != s
  {
    SweepChanged(rule, c, s, |s|);
  }

  /** Once the round has passed gate `j`, later steps leave it alone. */
  lemma {:induction false} SweepKeepsVisited(rule: NotRule, c: Circuit, s: seq<Tri>, j: nat, k: nat)
    requires InRange(c) && |s| == |c.gates| && j < k <= |s|
    ensures Sweep(rule, c, s, k).states[j] == Sweep(rule, c, s, j + 1).states[j]
    decreases k
  {
    if k > j + 1 {
      SweepKeepsVisited(rule, c, s, j, k - 1);
      SweepStep(rule, c, s, k);
    }
  }

  /** Gauss–Seidel: gate `i`'s value in a round is computed from the states
      in which the gates before `i` already hold their values of this round
      and the gates from `i` on still hold their values from before it. */
  lemma GaussSeidel(rule: NotRule, c: Circuit, s: seq<Tri>, i: GateIndex)
    requires InRange(c) && |s| == |c.gates| && i < |s|
    ensures Round(rule, c, s).states[i] == Eval(rule, c, Sweep(rule, c, s, i).states, i)
    ensures forall j :: 0 <= j < i ==> Sweep(rule, c, s, i).states[j] == Round(rule, c, s).states[j]
    ensures forall j :: i <= j < |s| ==> Sweep(rule, c, s, i).states[j] == s[j]
  {
    var n := |s|;
    SweepKeepsVisited(rule, c, s, i, n);
    SweepStep(rule, c, s, i + 1);
    forall j | 0 <= j < i ensures Sweep(rule, c, s, i).states[j] == Round(rule, c, s).states[j] {
      SweepKeepsVisited(rule, c, s, j, i);
      SweepKeepsVisited(rule, c, s, j, n);
    }
  }

  /** Nothing left to change: every gate already holds its computed value. */
  predicate FixedPoint(rule: NotRule, c: Circuit, s: seq<Tri>)
    requires InRange(c) && |s| == |c.gates|
  {
    forall i :: 0 <= i < |s| ==> Eval(rule, c, s, i) == s[i]
  }

  predicate IsFixedPoint(rule: NotRule, c: Circuit)
    requires InRange(c)
  {
    forall i :: 0 <= i < |c.gates| ==> NewState(rule, c, i) == c.gates[i].state
  }

  /** A sweep over a fixed point changes nothing. */
  lemma {:induction false} SweepOfFixedPoint(rule: NotRule, c: Circuit, s: seq<Tri>, k: nat)
    requires InRange(c) && |s| == |c.gates| && FixedPoint(rule, c, s) && k <= |s|
    ensures Sweep(rule, c, s, k) == Pass(s, false)
    decreases k
  {
    if k > 0 {
      SweepOfFixedPoint(rule, c, s, k - 1);
      SweepStep(rule, c, s, k);
      assert s[k - 1 := s[k - 1]] == s;
    }
  }

  /** A round reports no change exactly on a fixed point, and then it gives
      back the states it was handed. */
  lemma RoundDetectsFixedPoint(rule: NotRule, c: Circuit, s: seq<Tri>)
    requires InRange(c) && |s| == |c.gates|
    ensures !Round(rule, c, s).changed <==> FixedPoint(rule, c, s)
    ensures !Round(rule, c, s).changed ==> Round(rule, c, s).states == s
  {
    RoundChanged(rule, c, s);
    if FixedPoint(rule, c, s) {
      SweepOfFixedPoint(rule, c, s, |s|);
    }
    if !Round(rule, c, s).changed {
      forall i | 0 <= i < |s| ensures Eval(rule, c, s, i) == s[i] {
        GaussSeidel(rule, c, s, i);
        assert Sweep(rule, c, s, i).states == s;
      }
    }
  }

  /** `n` rounds, one after the other. */
  function Rounds(rule: NotRule, c: Circuit, s: seq<Tri>, n: nat): (r: seq<Tri>)
    requires InRange(c) && |s| == |c.gates|
    ensures |r| == |s|
    decreases n
  {
    if n == 0 then s else Rounds(rule, c, Round(rule, c, s).states, n - 1)
  }

  /** The rounds of `simulation_step` on the states alone: they settled after
      `rounds` rounds, the last of which changed nothing, or the cap ran out. */
  datatype Run = Settled(states: seq<Tri>, rounds: nat) | Exhausted(states: seq<Tri>)

  /** At most `fuel` rounds, stopping after the first round that changes
      nothing. */
  function Relax(rule: NotRule, c: Circuit, s: seq<Tri>, fuel: nat): (o: Run)
    requires InRange(c) && |s| == |c.gates|
    ensures |o.states| == |s|
    ensures o.Settled? ==> 1 <= o.rounds <= fuel && o.states == Rounds(rule, c, s, o.rounds - 1)
    ensures o.Settled? ==> FixedPoint(rule, c, o.states)
    ensures o.Exhausted? ==> o.states == Rounds(rule, c, s, fuel)
    decreases fuel
  {
    if fuel == 0 then Exhausted(s)
    else
      var p := Round(rule, c, s);
      RoundDetectsFixedPoint(rule, c, s);
      if !p.changed then Settled(s, 1)
      else Later(Relax(rule, c, p.states, fuel - 1))
  }

  /** The remaining rounds, counted from one round earlier. */
  function Later(o: Run): Run {
    match o
    case Settled(d, n) => Settled(d, n + 1)
    case Exhausted(d) => Exhausted(d)
  }

  /** Every round before the last one counted by the run changed something:
      the cap stops the loop only when it would have gone on. */
  lemma {:induction false} RelaxRoundsAllChanged(rule: NotRule, c: Circuit, s: seq<Tri>, fuel: nat, j: nat)
    requires InRange(c) && |s| == |c.gates|
    requires Relax(rule, c, s, fuel).Settled? ==> j + 1 < Relax(rule, c, s, fuel).rounds
    requires Relax(rule, c, s, fuel).Exhausted? ==> j < fuel
    ensures Round(rule, c, Rounds(rule, c, s, j)).changed
    decreases fuel
  {
    var p := Round(rule, c, s);
    assert fuel >= 1;
    if p.changed {
      assert Relax(rule, c, s, fuel) == Later(Relax(rule, c, p.states, fuel - 1));
      if j > 0 {
        RelaxRoundsAllChanged(rule, c, p.states, fuel - 1, j - 1);
        assert Rounds(rule, c, s, j) == Rounds(rule, c, p.states, j - 1);
      }
    }
  }

  /** A larger cap does not change a settled run. */
  lemma {:induction false} RelaxMonotone(rule: NotRule, c: Circuit, s: seq<Tri>, fuel: nat, more: nat)
    requires InRange(c) && |s| == |c.gates| && Relax(rule, c, s, fuel).Settled? && fuel <= more
    ensures Relax(rule, c, s, more) == Relax(rule, c, s, fuel)
    decreases fuel
  {
    var p := Round(rule, c, s);
    assert fuel >= 1;
    if p.changed {
      assert Relax(rule, c, s, fuel) == Later(Relax(rule, c, p.states, fuel - 1));
      RelaxMonotone(rule, c, p.states, fuel - 1, more - 1);
      assert Relax(rule, c, s, more) == Later(Relax(rule, c, p.states, more - 1));
    }
  }

  /** How a capped `simulation_step` ends: it settled after `rounds` rounds,
      the last of which changed nothing, or the cap ran out while every round
      still changed something. */
  datatype Outcome = Stable(circuit: Circuit, rounds: nat) | DidNotConverge(circuit: Circuit)

  /** Reading a circuit whose states were replaced reads the replacement. */
  lemma EvalWithStates(rule: NotRule, c: Circuit, s: seq<Tri>, i: GateIndex)
    requires InRange(c) && |s| == |c.gates| && i < |c.gates|
    ensures NewState(rule, WithStates(c, s), i) == Eval(rule, c, s, i)
  {
    var d := WithStates(c, s);
    assert InSrcs(d, i) == InSrcs(c, i);
    assert Inputs(d, States(d), i) == Inputs(c, s, i);
  }

  /** A fixed point of the state list is a fixed point of the circuit that
      holds it. */
  lemma FixedPointWithStates(rule: NotRule, c: Circuit, s: seq<Tri>)
    requires InRange(c) && |s| == |c.gates| && FixedPoint(rule, c, s)
    ensures IsFixedPoint(rule, WithStates(c, s))
  {
    forall i | 0 <= i < |c.gates| ensures NewState(rule, WithStates(c, s), i) == WithStates(c, s).gates[i].state {
      EvalWithStates(rule, c, s, i);
    }
  }

  /** `simulation_step` with at most `fuel` rounds: only states change, and a
      stable outcome is a fixed point reached by the rounds it counts. */
  function Settle(rule: NotRule, c: Circuit, fuel: nat): (o: Outcome)
    requires InRange(c)
    ensures SameWiring(c, o.circuit) && InRange(o.circuit)
    ensures o.Stable? ==> 1 <= o.rounds <= fuel && IsFixedPoint(rule, o.circuit)
    ensures o.Stable? ==> States(o.circuit) == Rounds(rule, c, States(c), o.rounds - 1)
    ensures o.DidNotConverge? ==> States(o.circuit) == Rounds(rule, c, States(c), fuel)
  {
    match Relax(rule, c, States(c), fuel)
    case Settled(s, n) =>
      FixedPointWithStates(rule, c, s);
      Stable(WithStates(c, s), n)
    case Exhausted(s) => DidNotConverge(WithStates(c, s))
  }

  /** Every round but the last of a stable outcome, and every round of one
      that did not converge, changed some gate's state. */
  lemma SettleRoundsAllChanged(rule: NotRule, c: Circuit, fuel: nat, j: nat)
    requires InRange(c)
    requires Settle(rule, c, fuel).Stable? ==> j + 1 < Settle(rule, c, fuel).rounds
    requires Settle(rule, c, fuel).DidNotConverge? ==> j < fuel
    ensures Round(rule, c, Rounds(rule, c, States(c), j)).changed
  {
    RelaxRoundsAllChanged(rule, c, States(c), fuel, j);
  }

  /** Running `simulation_step` on a settled circuit changes nothing. */
  lemma SettleIdempotent(rule: NotRule, c: Circuit, fuel: nat, more: nat)
    requires InRange(c) && Settle(rule, c, fuel).Stable? && more >= 1
    ensures Settle(rule, Settle(rule, c, fuel).circuit, more) == Stable(Settle(rule, c, fuel).circuit, 1)
  {
    var d := Settle(rule, c, fuel).circuit;
    var s := States(d);
    assert FixedPoint(rule, d, s) by {
      forall i | 0 <= i < |d.gates| ensures Eval(rule, d, s, i) == s[i] {
      }
    }
    RoundDetectsFixedPoint(rule, d, s);
    assert Relax(rule, d, s, more) == Settled(s, 1);
    WithOwnStates(d);
  }

  /** A larger cap does not change a settled outcome. */
  lemma SettleMonotone(rule: NotRule, c: Circuit, fuel: nat, more: nat)
    requires InRange(c) && Settle(rule, c, fuel).Stable? && fuel <= more
    ensures Settle(rule, c, more) == Settle(rule, c, fuel)
  {
    RelaxMonotone(rule, c, States(c), fuel, more);
  }

  /** After a round the constants hold their value and the LED is untouched. */
  lemma ConstantsAfterRound(rule: NotRule, c: Circuit, s: seq<Tri>, i: GateIndex)
    requires InRange(c) && |s| == |c.gates| && i < |s|
    ensures c.gates[i].kind == True ==> Round(rule, c, s).states[i] == Some(true)
    ensures c.gates[i].kind == False ==> Round(rule, c, s).states[i] == Some(false)
    ensures c.gates[i].kind == Led ==> Round(rule, c, s).states[i] == s[i]
  {
    GaussSeidel(rule, c, s, i);
  }

  /** From the first round on the constants keep their value. */
  lemma {:induction false} ConstantsStay(rule: NotRule, c: Circuit, s: seq<Tri>, n: nat, i: GateIndex)
    requires InRange(c) && |s| == |c.gates| && i < |s| && n >= 1
    ensures c.gates[i].kind == True ==> Rounds(rule, c, s, n)[i] == Some(true)
    ensures c.gates[i].kind == False ==> Rounds(rule, c, s, n)[i] == Some(false)
    decreases n
  {
    ConstantsAfterRound(rule, c, s, i);
    if n > 1 {
      ConstantsStay(rule, c, Round(rule, c, s).states, n - 1, i);
    }
  }

  /* ---------------------------------------------------------------------- */
  /* The LED display                                                        */
  /* ---------------------------------------------------------------------- */

  /** `LEDGate.eval` on gate `i`: the value of its single source. */
  function LedDisplay(c: Circuit, i: GateIndex): (r: Result<Tri, LedError>)
    requires InRange(c)
    ensures r.Failure? <==> |InSrcs(c, i)| > 1
    ensures |InSrcs(c, i)| == 1 ==> r == Success(c.gates[InSrcs(c, i)[0]].state)
    ensures |InSrcs(c, i)| == 0 ==> r == Success(None)
  {
    LedEval(SourceStates(c, i))
  }

  /** Wired through the editor, an LED never has the second input that makes
      its display raise. */
  lemma LedDisplayDefined(c: Circuit, i: GateIndex)
    requires Valid(c) && WithinArity(c) && i < |c.gates| && c.gates[i].kind == Led
    ensures LedDisplay(c, i).Success?
  {
    SourceStatesFollowInputs(c, i);
  }

  /** The LED timer: `update_color` refreshes the view from the display value,
      and raises with it. */
  function RefreshLed(v: LedView, c: Circuit, i: GateIndex): (r: Result<LedView, LedError>)
    requires InRange(c)
    ensures r.Failure? <==> |InSrcs(c, i)| > 1
    ensures r.Success? ==> r.value.shown == LedDisplay(c, i).value
    ensures r.Success? && Consistent(v) ==> Consistent(r.value)
  {
    var shown :- LedDisplay(c, i);
    Success(UpdateColor(v, shown))
  }
}

=== FILE: scenarios.dfy ===
/** Small circuits of the kind the editor builds, and what the simulation and
    the loader do with them. */
module Scenarios {
  import opened Wrappers
  import opened Gates
  import opened Circuits
  import opened Editor
  import opened Propagation
  import opened Codec
  import Findings

  const Origin := Position(0.0, 0.0)

  /* ---------------------------------------------------------------------- */
  /* A NOT gate wired to itself                                             */
  /* ---------------------------------------------------------------------- */

  /** One NOT gate whose output wire leads back into its own input, holding `v`. */
  function NotLoop(v: Tri): (c: Circuit)
    ensures Valid(c) && |c.gates| == 1 && c.gates[0].kind == Not && InSrcs(c, 0) == [0]
  {
    var c := Circuit([Gate(Not, Origin, v, [0], [0])], [Wire(0, 0, 0)], 1);
    assert AttachedTo(c.wires, 0, Incoming) == [Wire(0, 0, 0)];
    assert AttachedTo(c.wires, 0, Outgoing) == [Wire(0, 0, 0)];
    c
  }

  /** A round of the loop gives the gate the NOT of its own state. */
  lemma NotLoopRound(rule: NotRule, c: Circuit, v: Tri)
    requires InRange(c) && c.wires == [Wire(0, 0, 0)] && |c.gates| == 1 && c.gates[0].kind == Not
    ensures Round(rule, c, [v]) == Pass([NotOutput(rule, [v])], NotOutput(rule, [v]) != v)
  {
    assert AttachedTo(c.wires, 0, Incoming) == [Wire(0, 0, 0)];
    assert Inputs(c, [v], 0) == [v];
    SweepStep(rule, c, [v], 1);
    assert [v][0 := NotOutput(rule, [v])] == [NotOutput(rule, [v])];
  }

  /** Under negation a loop holding a value flips on every round and never
      settles, whatever the cap. */
  lemma {:induction false} LoopFlips(c: Circuit, b: bool, fuel: nat)
    requires InRange(c) && c.wires == [Wire(0, 0, 0)] && |c.gates| == 1 && c.gates[0].kind == Not
    ensures Relax(Negate, c, [Some(b)], fuel).Exhausted?
    decreases fuel
  {
    if fuel > 0 {
      NotLoopRound(Negate, c, Some(b));
      LoopFlips(c, !b, fuel - 1);
    }
  }

  /** The loop settles, after one round, exactly when the NOT copies its input
      (the gate as written) or the gate holds no value yet; a negating gate
      holding a value oscillates. */
  lemma NotLoopSettles(rule: NotRule, v: Tri, fuel: nat)
    requires fuel >= 1
    ensures Settle(rule, NotLoop(v), fuel).Stable? <==> rule == PassThrough || v == None
    ensures Settle(rule, NotLoop(v), fuel).Stable? ==> Settle(rule, NotLoop(v), fuel) == Stable(NotLoop(v), 1)
  {
    var c := NotLoop(v);
    assert States(c) == [v];
    NotLoopRound(rule, c, v);
    if rule == Negate && v.Some? {
      NotLoopRound(Negate, c, v);
      LoopFlips(c, !v.value, fuel - 1);
    } else {
      WithOwnStates(c);
    }
  }

  /** The wires of a two-wire list attached to gate `i` on `side`: their ids
      and their far ends. */
  lemma {:induction false} TwoWires(ws: seq<Wire>, i: GateIndex, side: Side)
    requires |ws| == 2
    ensures Listing(ws, i, side) == (if Attached(ws[0], i, side) then [ws[0].id] else []) + (if Attached(ws[1], i, side) then [ws[1].id] else [])
    ensures Fars(AttachedTo(ws, i, side), side) == (if Attached(ws[0], i, side) then [Far(ws[0], side)] else []) + (if Attached(ws[1], i, side) then [Far(ws[1], side)] else [])
  {
    assert ws[1..][1..] == [];
    var a := AttachedTo(ws, i, side);
    assert a == (if Attached(ws[0], i, side) then [ws[0]] else []) + (if Attached(ws[1], i, side) then [ws[1]] else []);
    if Attached(ws[0], i, side) && Attached(ws[1], i, side) {
      assert a == [ws[0], ws[1]];
    } else if Attached(ws[0], i, side) {
      assert a == [ws[0]];
    } else if Attached(ws[1], i, side) {
      assert a == [ws[1]];
    } else {
      assert a == [];
    }
  }

  /** Three gates and two wires whose lists are written out by hand agree
      with the wires, and each gate reads from the sources of its wires. */
  lemma SpelledOut(c: Circuit)
    requires |c.gates| == 3 && |c.wires| == 2 && c.nextWire == 2
    requires c.wires[0].id == 0 && c.wires[1].id == 1
    requires c.wires[0].src < 3 && c.wires[0].dst < 3 && c.wires[1].src < 3 && c.wires[1].dst < 3
    requires forall i :: 0 <= i < 3 ==>
      c.gates[i].inputs == (if c.wires[0].dst == i then [0] else []) + (if c.wires[1].dst == i then [1] else [])
    requires forall i :: 0 <= i < 3 ==>
      c.gates[i].outputs == (if c.wires[0].src == i then [0] else []) + (if c.wires[1].src == i then [1] else [])
    ensures Valid(c)
    ensures forall i :: 0 <= i < 3 ==>
      InSrcs(c, i) == (if c.wires[0].dst == i then [c.wires[0].src] else []) + (if c.wires[1].dst == i then [c.wires[1].src] else [])
  {
    forall i | 0 <= i < 3
      ensures c.gates[i].inputs == Listing(c.wires, i, Incoming) && c.gates[i].outputs == Listing(c.wires, i, Outgoing)
      ensures InSrcs(c, i) == (if c.wires[0].dst == i then [c.wires[0].src] else []) + (if c.wires[1].dst == i then [c.wires[1].src] else [])
    {
      OneGate(c, i);
    }
  }

  lemma OneGate(c: Circuit, i: GateIndex)
    requires InRange(c) && |c.wires| == 2 && c.wires[0].id == 0 && c.wires[1].id == 1
    ensures Listing(c.wires, i, Incoming) == (if c.wires[0].dst == i then [0] else []) + (if c.wires[1].dst == i then [1] else [])
    ensures Listing(c.wires, i, Outgoing) == (if c.wires[0].src == i then [0] else []) + (if c.wires[1].src == i then [1] else [])
    ensures InSrcs(c, i) == (if c.wires[0].dst == i then [c.wires[0].src] else []) + (if c.wires[1].dst == i then [c.wires[1].src] else [])
  {
    TwoWires(c.wires, i, Incoming);
    TwoWires(c.wires, i, Outgoing);
  }

  /** A round over three gates, step by step: each gate computes from the
      values its predecessors in the list were just given. */
  lemma RoundOfThree(rule: NotRule, c: Circuit, s: seq<Tri>)
    requires InRange(c) && |c.gates| == 3 && |s| == 3
    ensures var v0 := Eval(rule, c, s, 0);
      var v1 := Eval(rule, c, [v0, s[1], s[2]], 1);
      var v2 := Eval(rule, c, [v0, v1, s[2]], 2);
      Round(rule, c, s) == Pass([v0, v1, v2], v0 != s[0] || v1 != s[1] || v2 != s[2])
  {
    var v0 := Eval(rule, c, s, 0);
    var v1 := Eval(rule, c, [v0, s[1], s[2]], 1);
    SweepStep(rule, c, s, 1);
    assert Sweep(rule, c, s, 1).states == [v0, s[1], s[2]];
    SweepStep(rule, c, s, 2);
    assert Sweep(rule, c, s, 2).states == [v0, v1, s[2]];
    SweepStep(rule, c, s, 3);
  }

  /* ---------------------------------------------------------------------- */
  /* TRUE -> NOT -> LED                                                     */
  /* ---------------------------------------------------------------------- */

  /** A TRUE gate feeding a NOT gate feeding an LED, wired in that order. */
  function Chain(): (c: Circuit)
    ensures Valid(c) && |c.gates| == 3
    ensures c.gates[0].kind == True && c.gates[1].kind == Not && c.gates[2].kind == Led
    ensures States(c) == [None, None, None]
    ensures InSrcs(c, 0) == [] && InSrcs(c, 1) == [0] && InSrcs(c, 2) == [1]
  {
    var c := Circuit([Gate(True, Origin, None, [], [0]), Gate(Not, Origin, None, [0], [1]),
                      Gate(Led, Origin, None, [1], [])], [Wire(0, 0, 1), Wire(1, 1, 2)], 2);
    SpelledOut(c);
    c
  }

  /** The NOT gate's value once it reads TRUE. */
  function Lit(rule: NotRule): Tri {
    NotOutput(rule, [Some(true)])
  }

  /** The first round gives TRUE its value and the NOT, visited next, reads
      it at once. */
  lemma ChainFirstRound(rule: NotRule, c: Circuit)
    requires InRange(c) && |c.gates| == 3 && c.gates[0].kind == True && c.gates[1].kind == Not && c.gates[2].kind == Led
    requires InSrcs(c, 1) == [0]
    ensures Round(rule, c, [None, None, None]) == Pass([Some(true), Lit(rule), None], true)
  {
    RoundOfThree(rule, c, [None, None, None]);
    assert Eval(rule, c, [None, None, None], 0) == Some(true);
    assert Inputs(c, [Some(true), None, None], 1) == [Some(true)];
    assert Eval(rule, c, [Some(true), None, None], 1) == Lit(rule);
    assert Eval(rule, c, [Some(true), Lit(rule), None], 2) == None;
  }

  /** The second round changes nothing. */
  lemma ChainSecondRound(rule: NotRule, c: Circuit)
    requires InRange(c) && |c.gates| == 3 && c.gates[0].kind == True && c.gates[1].kind == Not && c.gates[2].kind == Led
    requires InSrcs(c, 1) == [0]
    ensures Round(rule, c, [Some(true), Lit(rule), None]) == Pass([Some(true), Lit(rule), None], false)
  {
    var t := [Some(true), Lit(rule), None];
    RoundOfThree(rule, c, t);
    assert Eval(rule, c, t, 0) == Some(true);
    assert Inputs(c, t, 1) == [Some(true)];
    assert Eval(rule, c, t, 1) == Lit(rule);
    assert Eval(rule, c, t, 2) == None;
  }

  /** Gates listed in connection order settle in two rounds, the second of
      which only confirms. A copying NOT (the gate as written) then holds
      true, the value of the TRUE gate it reads, and a negating one holds
      false; an LED reading the NOT's state shows green or red accordingly. */
  lemma ChainLights(rule: NotRule)
    ensures Settle(rule, Chain(), 2).Stable? && Settle(rule, Chain(), 2).rounds == 2
    ensures Settle(rule, Chain(), 2).circuit.gates[1].state == Some(rule == PassThrough)
    ensures LedDisplay(Settle(rule, Chain(), 2).circuit, 2) == Success(Some(rule == PassThrough))
    ensures ColourOf(LedDisplay(Settle(rule, Chain(), 2).circuit, 2).value) == (if rule == PassThrough then Green else Red)
  {
    var c := Chain();
    var t := [Some(true), Lit(rule), None];
    ChainFirstRound(rule, c);
    ChainSecondRound(rule, c);
    assert Relax(rule, c, t, 1) == Settled(t, 1);
    assert Relax(rule, c, States(c), 2) == Settled(t, 2);
    var d := Settle(rule, c, 2).circuit;
    assert States(d) == t;
    assert InSrcs(d, 2) == [1];
  }

  /** The same three gates listed backwards: LED, NOT, TRUE. */
  function Backwards(): (c: Circuit)
    ensures Valid(c) && |c.gates| == 3
    ensures c.gates[0].kind == Led && c.gates[1].kind == Not && c.gates[2].kind == True
    ensures States(c) == [None, None, None]
    ensures InSrcs(c, 0) == [1] && InSrcs(c, 1) == [2] && InSrcs(c, 2) == []
  {
    var c := Circuit([Gate(Led, Origin, None, [1], []), Gate(Not, Origin, None, [0], [1]),
                      Gate(True, Origin, None, [], [0])], [Wire(0, 2, 1), Wire(1, 1, 0)], 2);
    SpelledOut(c);
    c
  }

  /** Listed backwards, the first round leaves the NOT unset: it reads TRUE
      before TRUE is given its value. */
  lemma BackwardsFirstRound(rule: NotRule, c: Circuit)
    requires InRange(c) && |c.gates| == 3 && c.gates[0].kind == Led && c.gates[1].kind == Not && c.gates[2].kind == True
    requires InSrcs(c, 1) == [2]
    ensures Round(rule, c, [None, None, None]) == Pass([None, None, Some(true)], true)
  {
    RoundOfThree(rule, c, [None, None, None]);
    assert Eval(rule, c, [None, None, None], 0) == None;
    assert Inputs(c, [None, None, None], 1) == [None];
    assert Eval(rule, c, [None, None, None], 1) == None;
    assert Eval(rule, c, [None, None, None], 2) == Some(true);
  }

  /** The second round sets the NOT. */
  lemma BackwardsSecondRound(rule: NotRule, c: Circuit)
    requires InRange(c) && |c.gates| == 3 && c.gates[0].kind == Led && c.gates[1].kind == Not && c.gates[2].kind == True
    requires InSrcs(c, 1) == [2]
    ensures Round(rule, c, [None, None, Some(true)]) == Pass([None, Lit(rule), Some(true)], true)
  {
    RoundOfThree(rule, c, [None, None, Some(true)]);
    assert Eval(rule, c, [None, None, Some(true)], 0) == None;
    assert Inputs(c, [None, None, Some(true)], 1) == [Some(true)];
    assert Eval(rule, c, [None, None, Some(true)], 1) == Lit(rule);
    assert Eval(rule, c, [None, Lit(rule), Some(true)], 2) == Some(true);
  }

  /** The third round changes nothing. */
  lemma BackwardsThirdRound(rule: NotRule, c: Circuit)
    requires InRange(c) && |c.gates| == 3 && c.gates[0].kind == Led && c.gates[1].kind == Not && c.gates[2].kind == True
    requires InSrcs(c, 1) == [2]
    ensures Round(rule, c, [None, Lit(rule), Some(true)]) == Pass([None, Lit(rule), Some(true)], false)
  {
    var t := [None, Lit(rule), Some(true)];
    RoundOfThree(rule, c, t);
    assert Eval(rule, c, t, 0) == None;
    assert Inputs(c, t, 1) == [Some(true)];
    assert Eval(rule, c, t, 1) == Lit(rule);
    assert Eval(rule, c, t, 2) == Some(true);
  }

  /** Listed against the wiring, the chain needs three rounds, and two are
      not enough: the order of the gate list, not the wiring, sets the pace. */
  lemma BackwardsNeedsThreeRounds(rule: NotRule)
    ensures Settle(rule, Backwards(), 2).DidNotConverge?
    ensures Settle(rule, Backwards(), 3).Stable? && Settle(rule, Backwards(), 3).rounds == 3
    ensures States(Settle(rule, Backwards(), 3).circuit) == [None, Some(rule == PassThrough), Some(true)]
  {
    var c := Backwards();
    var t1 := [None, None, Some(true)];
    var t2 := [None, Lit(rule), Some(true)];
    BackwardsFirstRound(rule, c);
    BackwardsSecondRound(rule, c);
    BackwardsThirdRound(rule, c);
    assert Relax(rule, c, t2, 1) == Settled(t2, 1);
    assert Relax(rule, c, t1, 2) == Settled(t2, 2);
    assert Relax(rule, c, States(c), 3) == Settled(t2, 3);
    assert Relax(rule, c, t1, 1) == Exhausted(t2);
    assert Relax(rule, c, States(c), 2).Exhausted?;
  }

  /* ---------------------------------------------------------------------- */
  /* A saved file that overloads an LED                                     */
  /* ---------------------------------------------------------------------- */

  /** A file naming a TRUE gate, a FALSE gate and an LED, numbered from 0. */
  const LoadedGates: seq<GateRecord> :=
    [GateRecord(0, "TrueGate", 0.0, 0.0), GateRecord(1, "FalseGate", 0.0, 0.0), GateRecord(2, "LEDGate", 0.0, 0.0)]

  /** Both constants wired into the LED: the editor would refuse the second
      wire, but the loader checks no capacity. */
  const LoadedWires: seq<WireRecord> := [WireRecord(0, 2), WireRecord(1, 2)]

  function Overloaded(): Document {
    Document(Some(LoadedGates), Some(LoadedWires))
  }

  /** The file loads, and its wires come back as written. */
  lemma OverloadedLoads()
    ensures Deserialize(FullRegistry(), Overloaded()).Success?
    ensures var c := Deserialize(FullRegistry(), Overloaded()).value;
      |c.gates| == 3 && c.gates[2].kind == Led && Valid(c) && Ends(c.wires) == LoadedWires
  {
    var doc := Overloaded();
    assert OrEmpty(doc.gates) == LoadedGates && OrEmpty(doc.wires) == LoadedWires;
    LoadedDrawable();
    assert LoadedGates[2].typeName == ClassName(Led);
  }

  /** Every record of the file is registered, and both wires leave a gate
      with an output point for one with an input point. */
  lemma LoadedDrawable()
    ensures Registered(FullRegistry(), LoadedGates)
    ensures Resolve(GateMap(LoadedGates), LoadedWires) == LoadedWires
    ensures AllDrawable(Rebuilt(FullRegistry(), LoadedGates), LoadedWires)
  {
    var reg := FullRegistry();
    var gs := LoadedGates;
    assert gs[0].typeName == ClassName(True) && gs[1].typeName == ClassName(False) && gs[2].typeName == ClassName(Led);
    assert Registered(reg, gs);
    GateMapOfNumbered(gs);
    ResolveIdentity(GateMap(gs), 3, LoadedWires);
    var built := Rebuilt(reg, gs);
    assert built[0].kind == True && built[1].kind == False && built[2].kind == Led;
    assert Drawable(built, LoadedWires[0]) && Drawable(built, LoadedWires[1]);
  }

  /** With the registry as written the same file does not load: loading
      stops at the FALSE gate, the second record, with only the TRUE gate
      built, so no wire record is reached. */
  lemma OverloadedRejectedAsWritten()
    ensures var r := Deserialize(Findings.AsWrittenRegistry(), Overloaded());
      r.Failure? && r.error.UnknownGate? && r.error.name == "FalseGate"
      && |r.error.partial.gates| == 1 && r.error.partial.gates[0].kind == True && r.error.partial.wires == []
  {
    var reg := Findings.AsWrittenRegistry();
    var doc := Overloaded();
    assert OrEmpty(doc.gates) == LoadedGates;
    assert LoadedGates[0].typeName == ClassName(True) && ClassName(True) in reg;
    assert LoadedGates[1].typeName == ClassName(False) && ClassName(False) !in reg by {
      assert !Findings.Registers(False);
    }
    Findings.LoadStopsAt(reg, doc, 1);
  }

  /** A valid circuit whose wires run from gates 0 and 1 into an LED at 2. */
  lemma LedWithTwoInputs(c: Circuit)
    requires Valid(c) && |c.gates| == 3 && c.gates[2].kind == Led && Ends(c.wires) == LoadedWires
    ensures InSrcs(c, 2) == [0, 1] && !WithinArity(c) && LedDisplay(c, 2).Failure?
  {
    assert |c.wires| == 2;
    assert Ends(c.wires)[0] == WireRecord(0, 2) && Ends(c.wires)[1] == WireRecord(1, 2);
    TwoWires(c.wires, 2, Incoming);
    assert |c.gates[2].inputs| == 2;
  }

  /** Loading that file succeeds and builds an LED with two inputs, beyond
      its declared capacity, and the LED's display then raises. */
  lemma OverloadedLedRaises()
    ensures Deserialize(FullRegistry(), Overloaded()).Success?
    ensures var c := Deserialize(FullRegistry(), Overloaded()).value;
      c.gates[2].kind == Led && InSrcs(c, 2) == [0, 1] && !WithinArity(c) && LedDisplay(c, 2).Failure?
  {
    OverloadedLoads();
    LedWithTwoInputs(Deserialize(FullRegistry(), Overloaded()).value);
  }
}

=== FILE: wrappers.dfy ===
/** Failure-compatible wrappers used across the circuit model: `Option` for the
    tri-state gate value (`None` is "not yet determined") and `Result` for the
    operations of the editor that raise in the original program. */
module Wrappers {

  datatype Option<+T> = None | Some(value: T) {

    predicate IsFailure() {
      None?
    }

    function PropagateFailure<U>(): Option<U>
      requires None?
    {
      None
    }

    function Extract(): T
      requires Some?
    {
      value
    }
  }

  datatype Result<+R, +E> = Success(value: R) | Failure(error: E) {

    predicate IsFailure() {
      Failure?
    }

    function PropagateFailure<U>(): Result<U, E>
      requires Failure?
    {
      Failure(error)
    }

    function Extract(): R
      requires Success?
    {
      value
    }
  }
}
